=== FILE: README.md ===
# Mental-health platform backend: a Dafny model of its file, questionnaire and account services

This project models the service layer of a Spring Boot backend for a mental-health platform. Users upload files (documents, videos and images). They also upload questionnaires, which they publish, archive, update and soft-delete. Administrators manage accounts.

The model covers these parts of the backend, each as one Dafny module:

- `FileService` (module `FileService`, with the upload rules it shares in `UploadRules`);
- `QuestionnaireService` (module `QuestionnaireService`);
- `AuthService` (module `AuthService`);
- the `FileRecord` and `Questionnaire` entities with their JPA lifecycle hooks (`FileRecordEntity`, `QuestionnaireEntity`), and the user as the services see it (`UserEntity`);
- the three Spring Data repositories (`FileRecordRepository`, `QuestionnaireRepository`, `UserRepository`);
- the `ApiResponse` envelope (`ApiResponses`).

How the model works:

- A database table is an immutable value: its rows in insertion order plus the next identity value.
- A derived query (`findBy…OrderBy…Desc`, `countBy…`) is a filter, then a descending sort, then a page (module `Queries`).
- A service call is a pure function from the table and the request to `Result<(new table, value), message>`.
- An error carries the exact message of the exception the Java code throws, and leaves the table unchanged.
- Nullable Java references are `Option` values.
- The outside world is passed in as parameters: the clock (`Clock.LocalDateTime`; every `LocalDateTime.now()` is its own reading, so an upload takes five: the stored-name stamp, two in the entity constructor and two in `@PrePersist`), the random UUID text, the outcome of copying the upload to disk, the state of each stored blob, and the password encoder.
- Bean validation of the `@NotBlank` entity fields runs before an insert and before the flush of a changed row, as Hibernate Validator does under JPA. It trims with `String.trim`, which is not the whitespace test `StringUtils.hasText` uses.
- Saving a loaded entity goes through `Flush`, which models Hibernate's dirty checking: `@PreUpdate` refreshes `updatedAt` only when something changed.
- `Questionnaire.downloadCount` is a Java `Integer`, and `incrementDownloadCount` wraps from `Integer.MAX_VALUE` to `Integer.MIN_VALUE`, as the JVM does.

The main properties proved are:

- Ownership. An owner-scoped download, info, delete, publish, archive or update of someone else's (or an inactive) row returns exactly what it returns for an id that does not exist (`FileService.NoExistenceLeak`, `QuestionnaireService.NoExistenceLeak`).
- Soft delete. A deleted file disappears from the owner's views (`FileService.DeleteHidesRow`).
- Round trips:
  - download URLs parse back to the row id (`UploadRules.DownloadUrlRoundTrip`);
  - timestamps parse back to their fields (`Clock.StampRoundTrip`);
  - stored names keep the original extension and category (`FileService.StoredFileName`).
- Statistics. The per-category and per-status counts partition the totals (`FileService.CategoryCountsPartition`, `QuestionnaireService.StatusCountsPartition`, `UserRepository.RoleCountsPartition`).
- Idempotence: archiving twice, the same account update twice, and enabling or disabling twice each give the same result as once.
- Table invariants. Every write keeps unique ids, stored names, usernames and e-mails.

Where the code and the documented intent of the system differ, the model follows the code:

- Every `publish` call re-stamps `publishedAt`, not only the first one (`QuestionnaireEntity.LifecycleTransitions`, `QuestionnaireService.PublishRestamps`).
- `downloadCount` is not monotonic. The entity increment wraps at `Integer.MAX_VALUE` (`QuestionnaireEntity.IncrementDownloadCount`).
- Questionnaire download and title search are not owner-scoped: any active questionnaire can be downloaded or found by any caller (`QuestionnaireService.DownloadIgnoresCaller`, `QuestionnaireService.SearchQuestionnaires`).

## Model

| member | source | states |
|---|---|---|
| JavaText.LastIndexOf | houduan/src/main/java/com/example/mentalhealth/service/FileService.java:310 | The result is -1 or a position holding the character, and no later position holds it. |
| JavaText.ToLower | houduan/src/main/java/com/example/mentalhealth/service/FileService.java:278 | Lower-casing keeps the length and lowers each character on its own, so an extension keeps its shape. |
| UploadRules.Extension | houduan/src/main/java/com/example/mentalhealth/service/FileService.java:309-312 | The extension is empty exactly when no '.' occurs after the first character. Otherwise it is a proper suffix of the name that starts at the last '.' and holds no other '.'. |
| UploadRules.Validate | houduan/src/main/java/com/example/mentalhealth/service/FileService.java:257-275 | The four checks run in order (empty, larger than the limit, no text in the name, extension not allowed) and the first failure wins. Each error is characterised by an if-and-only-if, so a size equal to the limit passes. The limit in the message is the limit divided by 1024 twice, truncating. Success returns the original name. |
| UploadRules.StoredName | houduan/src/main/java/com/example/mentalhealth/service/FileService.java:314-318 | The stored name starts with the prefix and ends with the original extension, its case kept. Between them are the 15-character stamp, '_' and eight UUID characters, so the length is the prefix length + 24 + the extension length. |
| UploadRules.StoredNameKeepsExtension | houduan/src/main/java/com/example/mentalhealth/service/FileService.java:314-318 | Extracting the extension of the stored name gives back the original extension. |
| UploadRules.StoredNameHasNoSeparator | houduan/src/main/java/com/example/mentalhealth/service/FileService.java:314-318 | When the extension passed the allow-list check, the stored name contains no '/' or '\\', so it cannot leave its directory. |
| UploadRules.StoredNameNotBlank | houduan/src/main/java/com/example/mentalhealth/service/FileService.java:314-318 | A stored name holds the timestamp's '_', so `trim` never empties it and it passes `@NotBlank`. |
| UploadRules.ExtensionNotBlank | houduan/src/main/java/com/example/mentalhealth/service/FileService.java:309-312 | A name with a non-empty extension holds a '.', so `trim` never empties it. |
| UploadRules.JoinedNotBlank | houduan/src/main/java/com/example/mentalhealth/service/FileService.java:68 | A path that ends with a non-blank name is not blank either. |
| UploadRules.JoinPath | houduan/src/main/java/com/example/mentalhealth/service/FileService.java:320-325 | The joined path starts with the directory plus '/' and ends with the name. |
| UploadRules.DownloadUrl | houduan/src/main/java/com/example/mentalhealth/service/FileService.java:327-329 | The URL starts with 'http://localhost:' + port + '/api/<assets>/download/'. |
| UploadRules.DownloadUrlRoundTrip | houduan/src/main/java/com/example/mentalhealth/service/FileService.java:327-329 | Parsing a saved row's URL gives back its id, so different rows get different URLs. |
| UploadRules.RandomTag | houduan/src/main/java/com/example/mentalhealth/service/FileService.java:317 | The random tag is eight lower-case hexadecimal characters, taken from the UUID text. |
| Clock.Stamp | houduan/src/main/java/com/example/mentalhealth/service/FileService.java:316 | The `yyyyMMdd_HHmmss` stamp has 15 characters: digits with '_' at position 8. |
| Clock.StampRoundTrip | houduan/src/main/java/com/example/mentalhealth/service/FileService.java:316 | The stamp can be read back into year, month, day, hour, minute and second, so it loses nothing down to the second. |
| Decimal.ParseIntRoundTrip | houduan/src/main/java/com/example/mentalhealth/service/FileService.java:328 | Reading back the decimal text of an id gives the id. |
| Queries.Select | houduan/src/main/java/com/example/mentalhealth/repository/FileRecordRepository.java:23 | A derived `...OrderBy...Desc` query returns exactly the rows satisfying the WHERE clause, as a permutation of the filtered rows, sorted non-increasing on the key. Its length is the COUNT of that clause. |
| Queries.Page | houduan/src/main/java/com/example/mentalhealth/repository/FileRecordRepository.java:26 | A page is exactly the slice of the full result from offset page*size: its length is min(size, |result| - page*size), or 0 past the end, and its i-th row is the result's row page*size + i. Any sequence with that property is this page. |
| Queries.PageUnique | houduan/src/main/java/com/example/mentalhealth/repository/FileRecordRepository.java:26 | A sequence that has the page's length and rows is that page, so the page is fixed by the result and the request. |
| Queries.PagesCover | houduan/src/main/java/com/example/mentalhealth/repository/FileRecordRepository.java:26 | Row i of a result is on page i / size, at offset i % size: paging through a result reaches every row. |
| Queries.PageCovers | houduan/src/main/java/com/example/mentalhealth/repository/FileRecordRepository.java:26 | The same for any sequence known to be page i / size of the result. |
| Queries.PagesConcatenate | houduan/src/main/java/com/example/mentalhealth/repository/FileRecordRepository.java:26 | Pages 0 to n-1 of a result, concatenated, are the result's first n*size rows (all of it once n*size reaches its length). |
| Queries.FirstPageMultiset | houduan/src/main/java/com/example/mentalhealth/repository/QuestionnaireRepository.java:60-61 | The first page holds a sub-multiset of the result: no row more often than the result does. |
| Queries.PageOfSorted | houduan/src/main/java/com/example/mentalhealth/repository/FileRecordRepository.java:26 | A page of a sorted result holds only rows of that result and is itself sorted. |
| Queries.FirstPageIsTop | houduan/src/main/java/com/example/mentalhealth/repository/QuestionnaireRepository.java:60-61 | No row left off the first page of a descending result has a larger key than a row on it. |
| Queries.Count | houduan/src/main/java/com/example/mentalhealth/repository/FileRecordRepository.java:51 | A COUNT is at most the number of rows, and it is 0 exactly when no row satisfies the clause. The repository counts equal the length of the filtered rows. |
| Queries.CountSplit | houduan/src/main/java/com/example/mentalhealth/service/FileService.java:245-253 | Counting over a predicate that splits into two disjoint cases gives the sum of the two counts. |
| FileRecordEntity.NewFileRecord | houduan/src/main/java/com/example/mentalhealth/entity/FileRecord.java:68-79 | The seven constructor arguments are stored as given. `createdAt` and `updatedAt` are the constructor's two clock readings, each its own. The record is active, with no id and no description. |
| FileRecordEntity.OnCreate | houduan/src/main/java/com/example/mentalhealth/entity/FileRecord.java:178-182 | `@PrePersist` sets `createdAt` and `updatedAt` from its two clock readings and changes nothing else. |
| FileRecordEntity.Flush | houduan/src/main/java/com/example/mentalhealth/entity/FileRecord.java:184-187 | Saving a loaded record writes the current fields. `@PreUpdate` refreshes `updatedAt` only when something changed, and an unchanged record is written back as loaded. |
| FileRecordRepository.FindByStoredNameAndIsActiveTrue | houduan/src/main/java/com/example/mentalhealth/repository/FileRecordRepository.java:20 | Finds an active row with that stored name, and finds none exactly when no such row exists. |
| FileRecordRepository.FindByUploadedByAndIsActiveTrueOrderByCreatedAtDesc | houduan/src/main/java/com/example/mentalhealth/repository/FileRecordRepository.java:23 | Returns the owner's active rows as a permutation of the filtered rows (same rows, same multiplicities), with `createdAt` non-increasing. The length equals the owner's active count. |
| FileRecordRepository.FindByUploadedByAndIsActiveTrueOrderByCreatedAtDescPaged | houduan/src/main/java/com/example/mentalhealth/repository/FileRecordRepository.java:26 | Returns exactly the requested page of the owner's newest-first list: the rows at offsets page*size up to page*size+size of that list. |
| FileRecordRepository.FindByCategoryAndIsActiveTrueOrderByCreatedAtDesc | houduan/src/main/java/com/example/mentalhealth/repository/FileRecordRepository.java:29 | Returns the active rows of the category, for every owner, as a permutation of the filtered rows (same rows, same multiplicities), newest first. |
| FileRecordRepository.FindByUploadedByAndCategoryAndIsActiveTrueOrderByCreatedAtDesc | houduan/src/main/java/com/example/mentalhealth/repository/FileRecordRepository.java:32-33 | Returns the owner's active rows of the category as a permutation of the filtered rows (same rows, same multiplicities), newest first. The length equals the per-category count. |
| FileRecordRepository.FindByFileTypeAndIsActiveTrueOrderByCreatedAtDesc | houduan/src/main/java/com/example/mentalhealth/repository/FileRecordRepository.java:36 | Returns the active rows with that MIME type as a permutation of the filtered rows (same rows, same multiplicities), newest first. |
| FileRecordRepository.FindByOriginalNameContaining | houduan/src/main/java/com/example/mentalhealth/repository/FileRecordRepository.java:39-40 | Returns the active rows, for every owner, whose original name contains the keyword, as a permutation of the filtered rows (same rows, same multiplicities), newest first. |
| FileRecordRepository.FindByUploadedByAndOriginalNameContaining | houduan/src/main/java/com/example/mentalhealth/repository/FileRecordRepository.java:43-44 | Returns the owner's active rows whose original name contains the keyword, as a permutation of the filtered rows (same rows, same multiplicities), newest first. |
| FileRecordRepository.FindByCreatedAtBetween | houduan/src/main/java/com/example/mentalhealth/repository/FileRecordRepository.java:47-48 | Returns the active rows created between the two times, both ends included, as a permutation of the filtered rows (same rows, same multiplicities), newest first. |
| FileRecordRepository.CountByUploadedByAndIsActiveTrue | houduan/src/main/java/com/example/mentalhealth/repository/FileRecordRepository.java:51 | The count is the number of the owner's active rows. It is at most the table size, and 0 exactly when the owner has no active row. |
| FileRecordRepository.CountByUploadedByAndCategoryAndIsActiveTrue | houduan/src/main/java/com/example/mentalhealth/repository/FileRecordRepository.java:54 | The count is the number of the owner's active rows of that category. It never exceeds the owner's total, and it is 0 exactly when there is no such row. |
| FileRecordRepository.SumFileSizeByUser | houduan/src/main/java/com/example/mentalhealth/repository/FileRecordRepository.java:57-58 | The result is the sum of `fileSize` over the owner's active rows. It is non-negative, at least each such row's size, and 0 when the owner has no active row. |
| FileRecordRepository.ActiveNewestFirst | houduan/src/main/java/com/example/mentalhealth/repository/FileRecordRepository.java:61 | The full result behind the admin page: the active rows of every owner as a permutation of the filtered rows (same rows, same multiplicities), newest first. |
| FileRecordRepository.FindByIsActiveTrueOrderByCreatedAtDesc | houduan/src/main/java/com/example/mentalhealth/repository/FileRecordRepository.java:61 | Returns exactly the requested page of every owner's active rows, newest first. A first page at least as large as the table holds all of them. |
| FileRecordRepository.FindByIdAndUploadedByAndIsActiveTrue | houduan/src/main/java/com/example/mentalhealth/repository/FileRecordRepository.java:64 | Finds a row only when id, owner and active flag all match, and finds none exactly when no row matches all three. |
| FileRecordRepository.FindByIdAndIsActiveTrue | houduan/src/main/java/com/example/mentalhealth/service/FileService.java:201 | Finds a row only when id and active flag match, for any owner, and finds none exactly when no row matches both. |
| FileRecordRepository.Insert | houduan/src/main/java/com/example/mentalhealth/service/FileService.java:81 | An insert fails exactly when the stored name is already taken. Otherwise it appends the record with the next id and fresh timestamps, and keeps the table's invariant (unique ids and stored names). |
| FileRecordRepository.SaveAt | houduan/src/main/java/com/example/mentalhealth/service/FileService.java:179 | A save replaces only the row at that position, with what the flush writes. It keeps the invariant when id and stored name are unchanged. |
| FileService.IsAllowedFileType | houduan/src/main/java/com/example/mentalhealth/service/FileService.java:277-291 | A name is allowed if and only if its lower-cased extension is on the document, video or image list. An allowed extension has at least four characters, so the empty extension is never allowed. |
| FileService.DetermineFileCategory | houduan/src/main/java/com/example/mentalhealth/service/FileService.java:293-307 | DOCUMENT, VIDEO and IMAGE each hold if and only if the lower-cased extension is on that list. OTHER holds if and only if the name is not allowed. |
| FileService.ExtensionListsDisjoint | houduan/src/main/java/com/example/mentalhealth/service/FileService.java:50-52 | No extension is on two of the three lists. |
| FileService.ValidatedNeverOther | houduan/src/main/java/com/example/mentalhealth/service/FileService.java:257-307 | A name that passes validation is never classified OTHER, and a name without an extension never passes. |
| FileService.SizeLimitIsInclusive | houduan/src/main/java/com/example/mentalhealth/service/FileService.java:262-264 | A well-named file of exactly the limit passes; one byte more is rejected as too large. |
| FileService.CategoryDirectory | houduan/src/main/java/com/example/mentalhealth/service/FileService.java:320-325 | The directory is the upload root joined with the lower-cased enum name. |
| FileService.LowerCategoryName | houduan/src/main/java/com/example/mentalhealth/service/FileService.java:321 | Lower-casing the enum names gives 'document', 'video', 'image' and 'other'. |
| FileService.FileDownloadUrl | houduan/src/main/java/com/example/mentalhealth/service/FileService.java:327-329 | The URL of a saved row parses back to its id under '/api/files/download/'. |
| FileService.UploadFile | houduan/src/main/java/com/example/mentalhealth/service/FileService.java:57-90 | Every failure message starts with '文件上传失败: ', and a validation failure carries its own message. The upload succeeds if and only if validation passes, the write succeeds and the stored name is new. A validated name, the stored name and the path are never blank, so the entity's `@NotBlank` check always passes. On success exactly one row is appended. It carries the request's fields, the category, the stored name, a path in the category directory, and the `@PrePersist` clock readings; the URL names its id. The invariant is kept. |
| FileService.SaveUpload | houduan/src/main/java/com/example/mentalhealth/service/FileService.java:62-85 | After validation, a write error fails with the prefix. A blank original name fails `@NotBlank` with the prefix and the validation message, and a duplicate stored name fails with the prefix. Otherwise exactly the new row is appended, as described for the upload. The stored-name stamp, the constructor and `@PrePersist` each use their own clock readings. |
| FileService.InsertUpload | houduan/src/main/java/com/example/mentalhealth/service/FileService.java:81-88 | Bean validation runs first: a record with a blank `@NotBlank` field fails with the prefix and the validation message. Otherwise the save fails, with the prefix, exactly when the stored name is taken. Otherwise the persisted record is appended: the next id and the `@PrePersist` readings. It is paired with exactly the download URL of that id, and the invariant is kept. |
| FileService.StoredFileName | houduan/src/main/java/com/example/mentalhealth/service/FileService.java:314-318 | For an allowed name, the stored name has 24 + |extension| characters and no separator. It has the same extension, and so the same category. |
| FileService.UploadedRecordShape | houduan/src/main/java/com/example/mentalhealth/service/FileService.java:57-85 | An accepted upload stores a known category and a separator-free stored name of 24 + |extension| characters that classifies like the original. Its path lies directly inside the category directory. |
| FileService.CategoryByExtension | houduan/src/main/java/com/example/mentalhealth/service/FileService.java:293-307 | The category depends on the extension alone. |
| FileService.AllowedExtensionsHaveNoSeparator | houduan/src/main/java/com/example/mentalhealth/service/FileService.java:50-52 | No allowed extension contains a path separator. |
| FileService.DownloadFile | houduan/src/main/java/com/example/mentalhealth/service/FileService.java:95-119 | Every failure starts with '文件下载失败: ', and a missing, foreign or inactive id gives '文件不存在或无权限访问'. For the caller's row, a missing blob gives '文件下载失败: 文件不存在: ' + original name, and an unreadable one '文件下载失败: 无法读取文件: ' + original name. On success the result is the caller's active row with that id and a readable blob. Under the invariant, success holds exactly when that row's blob is readable. |
| FileService.DownloadFileAsAdmin | houduan/src/main/java/com/example/mentalhealth/service/FileService.java:209-227 | Any owner's active row with that id is looked up. An unknown id gives '文件不存在'. The blob failures carry no prefix: '文件不存在: ' + original name for a missing blob, '无法读取文件: ' + original name for an unreadable one. Success holds exactly when the blob is readable. |
| FileService.GetFileInfo | houduan/src/main/java/com/example/mentalhealth/service/FileService.java:187-195 | Fails with '文件不存在或无权限访问' exactly when no active row of the caller has that id. Otherwise returns that row, paired with exactly the download URL of its id. |
| FileService.GetFileInfoAsAdmin | houduan/src/main/java/com/example/mentalhealth/service/FileService.java:200-204 | Fails with '文件不存在' exactly when no active row has that id. Otherwise returns that row of any owner, paired with exactly the download URL of its id. |
| FileService.DeleteFile | houduan/src/main/java/com/example/mentalhealth/service/FileService.java:170-182 | Fails with '文件不存在或无权限删除' exactly when the caller has no active row with that id. Otherwise only that row changes: it becomes inactive with `updatedAt` = now. The invariant is kept. |
| FileService.DeleteFileAsAdmin | houduan/src/main/java/com/example/mentalhealth/service/FileService.java:232-240 | The same soft delete on any owner's active row. An unknown id gives '文件不存在'. |
| FileService.DeleteHidesRow | houduan/src/main/java/com/example/mentalhealth/service/FileService.java:170-182 | After a delete, a second delete of the id fails, the owner's download of it fails as not found, and the owner's list no longer shows it. |
| FileService.NoExistenceLeak | houduan/src/main/java/com/example/mentalhealth/service/FileService.java:98-101 | For a foreign or inactive id, download, info and delete return exactly what they return for an id no row has. |
| FileService.Views | houduan/src/main/java/com/example/mentalhealth/service/FileService.java:124-129 | Each row is paired with its download URL, in the same order. |
| FileService.ViewsOfPage | houduan/src/main/java/com/example/mentalhealth/service/FileService.java:142-145 | Mapping a page of rows to views gives the same page of the mapped list, as `Page.map` does. |
| FileService.GetUserFiles | houduan/src/main/java/com/example/mentalhealth/service/FileService.java:124-129 | Returns the owner's active rows as a permutation of the filtered rows (same rows, same multiplicities), newest first. Each view carries the download URL of its own row. |
| FileService.GetUserFilesPaged | houduan/src/main/java/com/example/mentalhealth/service/FileService.java:142-145 | Returns exactly the requested page of the owner's unpaged list, views included. Each view carries the download URL of its own row. |
| FileService.GetAllFiles | houduan/src/main/java/com/example/mentalhealth/service/FileService.java:134-137 | Returns exactly the requested page of every owner's active rows, newest first. Each view carries the download URL of its own row. |
| FileService.GetUserFilesByCategory | houduan/src/main/java/com/example/mentalhealth/service/FileService.java:150-155 | Returns the owner's active rows of that category as a permutation of the filtered rows (same rows, same multiplicities), newest first. Each view carries the download URL of its own row. |
| FileService.SearchUserFiles | houduan/src/main/java/com/example/mentalhealth/service/FileService.java:160-165 | Returns the owner's active rows whose original name contains the keyword, as a permutation of the filtered rows (same rows, same multiplicities), newest first. Each view carries the download URL of its own row. |
| FileService.UploadListed | houduan/src/main/java/com/example/mentalhealth/service/FileService.java:57-90 | An accepted upload is at once in the owner's list, in its category list and in a search for its original name. `getFileInfo` of the new id returns exactly the upload's view, and a readable blob makes its download succeed. |
| FileService.AppendedRowListed | houduan/src/main/java/com/example/mentalhealth/service/FileService.java:124-165 | Any active row of the owner is in the owner's list, in its category list and in a search for its own original name. |
| FileService.AppendedRowFound | houduan/src/main/java/com/example/mentalhealth/service/FileService.java:95-195 | A row appended under the next id to a valid table is what the owner's info lookup of that id returns, and what the download returns when its blob is readable. |
| FileService.UserFilesPagesCover | houduan/src/main/java/com/example/mentalhealth/service/FileService.java:142-145 | Row i of the owner's unpaged list is on page i / size of the paged list, at offset i % size. |
| FileService.AllFilesPagesCover | houduan/src/main/java/com/example/mentalhealth/service/FileService.java:134-137 | Row i of every owner's active rows, newest first, is on page i / size of the admin listing, at offset i % size. |
| FileService.AdminSeesWhatOwnerSees | houduan/src/main/java/com/example/mentalhealth/service/FileService.java:95-227 | For a row the owner reaches, the admin info and download return what the owner's calls return; and for the owner's own row found by the admin, the owner's info returns the same. |
| FileService.CategoryCountsPartition | houduan/src/main/java/com/example/mentalhealth/service/FileService.java:245-253 | The four per-category counts of the owner's active rows add up to the owner's total. |
| FileService.GetUserFileStatistics | houduan/src/main/java/com/example/mentalhealth/service/FileService.java:245-253 | Each field is its repository query: the total is `countByUploadedByAndIsActiveTrue` (and the owner's list length), each category count is its per-category count, and the size is `sumFileSizeByUser`. document + video + image <= total, with equality when no row is OTHER. The size is non-negative, and 0 when there are no files. |
| FileService.OtherCountZero | houduan/src/main/java/com/example/mentalhealth/service/FileService.java:245-253 | When no row is OTHER, the OTHER count is 0. |
| FileService.UploadKeepsCategoriesKnown | houduan/src/main/java/com/example/mentalhealth/service/FileService.java:62 | An upload never adds an OTHER row. |
| FileService.DeleteKeepsCategoriesKnown | houduan/src/main/java/com/example/mentalhealth/service/FileService.java:170-240 | Both soft deletes keep every category known. |
| QuestionnaireEntity.NewQuestionnaire | houduan/src/main/java/com/example/mentalhealth/entity/Questionnaire.java:83-94 | The seven constructor arguments are stored as given. `createdAt` and `updatedAt` are the constructor's two clock readings. The field initialisers give DRAFT, active, `downloadCount` 0 and no `publishedAt`. |
| QuestionnaireEntity.OnCreate | houduan/src/main/java/com/example/mentalhealth/entity/Questionnaire.java:233-237 | `@PrePersist` sets `createdAt` and `updatedAt` from its two clock readings and changes nothing else. |
| QuestionnaireEntity.Flush | houduan/src/main/java/com/example/mentalhealth/entity/Questionnaire.java:239-242 | Saving writes the current fields. `@PreUpdate` refreshes `updatedAt` only for a changed row. |
| QuestionnaireEntity.IncrementDownloadCount | houduan/src/main/java/com/example/mentalhealth/entity/Questionnaire.java:247-252 | Null counts as 0, and then exactly one is added. The Java `int` wraps from MAX_VALUE to MIN_VALUE. No other field changes. |
| QuestionnaireEntity.Publish | houduan/src/main/java/com/example/mentalhealth/entity/Questionnaire.java:257-260 | The status becomes PUBLISHED from any state, and `publishedAt` becomes now on every call. Nothing else changes. |
| QuestionnaireEntity.Archive | houduan/src/main/java/com/example/mentalhealth/entity/Questionnaire.java:265-267 | The status becomes ARCHIVED from any state, and nothing else changes, `publishedAt` included. |
| QuestionnaireEntity.LifecycleKeepsPublishedDated | houduan/src/main/java/com/example/mentalhealth/entity/Questionnaire.java:233-267 | Every entity step keeps a published questionnaire dated. |
| QuestionnaireEntity.LifecycleTransitions | houduan/src/main/java/com/example/mentalhealth/entity/Questionnaire.java:257-267 | Archived can be republished. A second publish keeps the later time. Archive keeps the publish time, and archiving twice is the same as archiving once. |
| QuestionnaireEntity.DownloadCountAfter | houduan/src/main/java/com/example/mentalhealth/entity/Questionnaire.java:247-252 | n increments below MAX_VALUE raise the count by exactly n and change nothing else. |
| QuestionnaireRepository.FindByIdAndCreatedByAndIsActiveTrue | houduan/src/main/java/com/example/mentalhealth/repository/QuestionnaireRepository.java:20 | Finds a row only when id, creator and active flag all match, and finds none exactly when no row does. |
| QuestionnaireRepository.FindByIdAndIsActiveTrue | houduan/src/main/java/com/example/mentalhealth/repository/QuestionnaireRepository.java:23 | Finds a row only when id and active flag match, for any creator, and finds none exactly when no row does. |
| QuestionnaireRepository.FindByCreatedByAndIsActiveTrueOrderByCreatedAtDesc | houduan/src/main/java/com/example/mentalhealth/repository/QuestionnaireRepository.java:26 | Returns the creator's active rows as a permutation of the filtered rows (same rows, same multiplicities), newest first. The length equals the creator's count. |
| QuestionnaireRepository.FindByCreatedByAndIsActiveTrueOrderByCreatedAtDescPaged | houduan/src/main/java/com/example/mentalhealth/repository/QuestionnaireRepository.java:29 | Returns exactly the requested page of the creator's newest-first list. |
| QuestionnaireRepository.FindByCreatedByAndStatusAndIsActiveTrueOrderByCreatedAtDesc | houduan/src/main/java/com/example/mentalhealth/repository/QuestionnaireRepository.java:32-33 | Returns the creator's active rows in that status as a permutation of the filtered rows (same rows, same multiplicities), newest first. The length equals the status count. |
| QuestionnaireRepository.FindByCategoryAndIsActiveTrueOrderByCreatedAtDesc | houduan/src/main/java/com/example/mentalhealth/repository/QuestionnaireRepository.java:36 | Returns the active rows of that category, for any creator, as a permutation of the filtered rows (same rows, same multiplicities), newest first. |
| QuestionnaireRepository.FindByTitleContaining | houduan/src/main/java/com/example/mentalhealth/repository/QuestionnaireRepository.java:39-40 | Returns the active rows, for any creator, whose title contains the keyword, as a permutation of the filtered rows (same rows, same multiplicities), newest first. |
| QuestionnaireRepository.FindByCreatedByAndTitleContaining | houduan/src/main/java/com/example/mentalhealth/repository/QuestionnaireRepository.java:43-44 | Returns the creator's active rows whose title contains the keyword, as a permutation of the filtered rows (same rows, same multiplicities), newest first. |
| QuestionnaireRepository.FindByStatusAndIsActiveTrueOrderByPublishedAtDesc | houduan/src/main/java/com/example/mentalhealth/repository/QuestionnaireRepository.java:47 | Returns the active rows in that status as a permutation of the filtered rows (same rows, same multiplicities), with `publishedAt` non-increasing and NULL last. |
| QuestionnaireRepository.FindByStatusAndIsActiveTrueOrderByPublishedAtDescPaged | houduan/src/main/java/com/example/mentalhealth/repository/QuestionnaireRepository.java:50-51 | Returns exactly the requested page of that list. |
| QuestionnaireRepository.CountByCreatedByAndIsActiveTrue | houduan/src/main/java/com/example/mentalhealth/repository/QuestionnaireRepository.java:54 | The count is the number of the creator's active rows. It is at most the table size, and 0 exactly when the creator has no active row. |
| QuestionnaireRepository.CountByCreatedByAndStatusAndIsActiveTrue | houduan/src/main/java/com/example/mentalhealth/repository/QuestionnaireRepository.java:57 | The count is the number of the creator's active rows in that status. It never exceeds the creator's total, and it is 0 exactly when there is no such row. |
| QuestionnaireRepository.PublishedByPopularity | houduan/src/main/java/com/example/mentalhealth/repository/QuestionnaireRepository.java:60-61 | The full result behind the popular page: the PUBLISHED active rows as a permutation of the filtered rows (same rows, same multiplicities), `downloadCount` non-increasing. Its length is the number of such rows. |
| QuestionnaireRepository.PublishedNewestFirst | houduan/src/main/java/com/example/mentalhealth/repository/QuestionnaireRepository.java:64-65 | The full result behind the latest page: the same rows, most recently published first. |
| QuestionnaireRepository.FindPopularQuestionnaires | houduan/src/main/java/com/example/mentalhealth/repository/QuestionnaireRepository.java:60-61 | Returns exactly the requested page of the PUBLISHED active rows ordered by `downloadCount`, most first. On the first page, no published active row left off has more downloads than a row on it. |
| QuestionnaireRepository.FindLatestPublishedQuestionnaires | houduan/src/main/java/com/example/mentalhealth/repository/QuestionnaireRepository.java:64-65 | Returns exactly the requested page of the PUBLISHED active rows, most recently published first. |
| QuestionnaireRepository.FindByTagsContaining | houduan/src/main/java/com/example/mentalhealth/repository/QuestionnaireRepository.java:68-69 | Returns the PUBLISHED active rows whose tags contain the tag, as a permutation of the filtered rows (same rows, same multiplicities), newest first. A row without tags never matches. |
| QuestionnaireRepository.IncrementDownloadCount | houduan/src/main/java/com/example/mentalhealth/repository/QuestionnaireRepository.java:72-74 | Each row with the id gets exactly one more download (NULL stays NULL) and `updatedAt` = now; no other field and no other row changes. The active flag is not checked. The statement fails exactly when a targeted count is at MAX_VALUE. |
| QuestionnaireRepository.Bumped | houduan/src/main/java/com/example/mentalhealth/repository/QuestionnaireRepository.java:73 | One row after the UPDATE: count + 1 (NULL stays NULL), `updatedAt` = now, nothing else. |
| QuestionnaireRepository.FindByCreatedByAndCategoryAndIsActiveTrueOrderByCreatedAtDesc | houduan/src/main/java/com/example/mentalhealth/repository/QuestionnaireRepository.java:77 | Returns the creator's active rows of that category as a permutation of the filtered rows (same rows, same multiplicities), newest first. |
| QuestionnaireRepository.FindAllCategories | houduan/src/main/java/com/example/mentalhealth/repository/QuestionnaireRepository.java:80-81 | A category is listed if and only if some active row has it. |
| QuestionnaireRepository.Insert | houduan/src/main/java/com/example/mentalhealth/service/QuestionnaireService.java:98 | An insert fails exactly when the stored name is taken. Otherwise it appends the row with the next id and fresh timestamps, and keeps the invariant. |
| QuestionnaireRepository.SaveAt | houduan/src/main/java/com/example/mentalhealth/service/QuestionnaireService.java:137 | A save replaces only that row, with what the flush writes. It keeps the invariant when id and stored name are unchanged and the row stays dated. |
| QuestionnaireService.IsAllowedFileType | houduan/src/main/java/com/example/mentalhealth/service/QuestionnaireService.java:391-404 | A name is allowed if and only if its lower-cased extension is one of the ten. The empty extension is never allowed. |
| QuestionnaireService.SizeLimitIsInclusive | houduan/src/main/java/com/example/mentalhealth/service/QuestionnaireService.java:371-389 | Same check order as for files: a size equal to the limit passes, one byte more is rejected as too large. |
| QuestionnaireService.QuestionnaireDirectory | houduan/src/main/java/com/example/mentalhealth/service/QuestionnaireService.java:412-416 | The directory lies under the upload root and ends in 'questionnaires'. |
| QuestionnaireService.QuestionnaireDownloadUrl | houduan/src/main/java/com/example/mentalhealth/service/QuestionnaireService.java:418-420 | A saved row's URL parses back to its id under '/api/questionnaires/download/'. |
| QuestionnaireService.StoredFileName | houduan/src/main/java/com/example/mentalhealth/service/QuestionnaireService.java:406-410 | For an allowed name, the stored name starts with 'questionnaire_'. It has 38 + |extension| characters, no separator, and the same extension. |
| QuestionnaireService.AllowedExtensionsHaveNoSeparator | houduan/src/main/java/com/example/mentalhealth/service/QuestionnaireService.java:51-54 | No allowed extension contains a path separator. |
| QuestionnaireService.DefaultTitle | houduan/src/main/java/com/example/mentalhealth/service/QuestionnaireService.java:71-73 | A title with text is kept. A null or blank title becomes the original file name. |
| QuestionnaireService.UploadQuestionnaire | houduan/src/main/java/com/example/mentalhealth/service/QuestionnaireService.java:59-111 | Every failure starts with '问卷上传失败: '. Success holds if and only if validation passes, the write succeeds, the title is not one that `hasText` keeps but `trim` empties (such as U+0001), and the stored name is new. Such a title fails `@NotBlank` at insert, with the prefix and the validation message. On success exactly one DRAFT row is appended. It has the defaulted title, the request's fields, count 0, the `@PrePersist` clock readings and a URL naming its id. The invariant is kept. |
| QuestionnaireService.SaveUpload | houduan/src/main/java/com/example/mentalhealth/service/QuestionnaireService.java:75-105 | After validation, a write error fails with the prefix. A title or original name that `trim` empties fails `@NotBlank` with the prefix and the validation message, and a duplicate stored name fails with the prefix. Otherwise exactly the new row is appended. The stored-name stamp, the constructor and `@PrePersist` each use their own clock readings. |
| QuestionnaireService.InsertUpload | houduan/src/main/java/com/example/mentalhealth/service/QuestionnaireService.java:98-109 | Bean validation runs first: a row with a blank `@NotBlank` field fails with the prefix and the validation message. Otherwise the save fails, with the prefix, exactly when the stored name is taken. Otherwise the persisted row is appended: the next id and the `@PrePersist` readings. It is paired with exactly the download URL of that id. The invariant is kept when the new row meets its rule that a published row is dated. |
| QuestionnaireService.AllowedNameNotBlank | houduan/src/main/java/com/example/mentalhealth/service/QuestionnaireService.java:379-395 | A name that passed validation ends in an allowed extension, so it passes `@NotBlank`. |
| QuestionnaireService.StoredPathNotBlank | houduan/src/main/java/com/example/mentalhealth/service/QuestionnaireService.java:76-82 | The stored name and the path of an upload are never blank. |
| QuestionnaireService.Downloaded | houduan/src/main/java/com/example/mentalhealth/service/QuestionnaireService.java:136-137 | The counted row is the entity increment, saved. `updatedAt` is now, and a count below MAX_VALUE goes up by one. Nothing else changes. |
| QuestionnaireService.DownloadQuestionnaire | houduan/src/main/java/com/example/mentalhealth/service/QuestionnaireService.java:117-149 | The lookup uses id and active flag only. Every failure starts with '问卷下载失败: ' and returns no new table, so the count is unchanged. A missing blob gives '问卷下载失败: 问卷文件不存在: ' + title, and an unreadable one '问卷下载失败: 无法读取问卷文件: ' + title. Success holds exactly when the blob is readable; then only that row is re-saved with the increment. |
| QuestionnaireService.DownloadIgnoresCaller | houduan/src/main/java/com/example/mentalhealth/service/QuestionnaireService.java:117-149 | The caller has no effect on the download's result. |
| QuestionnaireService.GetQuestionnaireInfo | houduan/src/main/java/com/example/mentalhealth/service/QuestionnaireService.java:228-236 | Fails with '问卷不存在' exactly when no active row has the id. Otherwise returns that row of any creator, paired with exactly the download URL of its id. |
| QuestionnaireService.OwnedWrite | houduan/src/main/java/com/example/mentalhealth/service/QuestionnaireService.java:242-291 | Fails with the given message exactly when the caller has no active row with the id. Otherwise only that row changes, to the flushed result of the change. |
| QuestionnaireService.PublishQuestionnaire | houduan/src/main/java/com/example/mentalhealth/service/QuestionnaireService.java:242-254 | Only the creator's active row can be published, and otherwise the call fails with '问卷不存在或无权限操作'. The row becomes PUBLISHED with `publishedAt` = now from any state, and is stored as the flush of `publish()`: `updatedAt` becomes now whenever the status or `publishedAt` changes, including a re-publish of a PUBLISHED row. Nothing else moves, and the invariant is kept. |
| QuestionnaireService.ArchiveQuestionnaire | houduan/src/main/java/com/example/mentalhealth/service/QuestionnaireService.java:260-272 | Only the creator's active row can be archived. It becomes ARCHIVED from any state, with `publishedAt` kept. A row that was already archived leaves the table unchanged. |
| QuestionnaireService.DeleteQuestionnaire | houduan/src/main/java/com/example/mentalhealth/service/QuestionnaireService.java:278-291 | Only the creator's active row can be deleted, and otherwise the call fails with '问卷不存在或无权限删除'. Only that row changes: it becomes inactive with `updatedAt` = now. |
| QuestionnaireService.ApplyUpdate | houduan/src/main/java/com/example/mentalhealth/service/QuestionnaireService.java:312-323 | The title is replaced only by one with text. Description, category and tags are replaced whenever non-null, an empty string included. Nothing else changes. |
| QuestionnaireService.UpdateQuestionnaire | houduan/src/main/java/com/example/mentalhealth/service/QuestionnaireService.java:297-330 | Only the creator's active row can be updated, and otherwise the call fails with '问卷不存在或无权限修改'. A changed row that fails `@NotBlank` aborts the commit: the call fails with the commit's message and no table is returned. Otherwise only that row changes, to the flushed result of the field rule. The returned view is the row as the field rule leaves it before the flush, so it differs from the stored row at most in `updatedAt`, and it carries exactly the download URL of the id. |
| QuestionnaireService.UpdateRejectsBlankTitle | houduan/src/main/java/com/example/mentalhealth/service/QuestionnaireService.java:312-326 | On a row that passed validation, the update fails at commit exactly when the new title has text for `hasText` but `trim` empties it. |
| QuestionnaireService.ControlCharacterTitle | houduan/src/main/java/com/example/mentalhealth/service/QuestionnaireService.java:312-314 | `hasText` and `@NotBlank` disagree: a title of U+0001 has text for `hasText`, and `trim` empties it. |
| QuestionnaireService.EmptyUpdateChangesNothing | houduan/src/main/java/com/example/mentalhealth/service/QuestionnaireService.java:312-325 | An update with nothing to apply succeeds and leaves the table exactly as it was. |
| QuestionnaireService.ArchiveIdempotent | houduan/src/main/java/com/example/mentalhealth/service/QuestionnaireService.java:260-272 | Archiving a second time returns the same table as the first archive. |
| QuestionnaireService.PublishRestamps | houduan/src/main/java/com/example/mentalhealth/service/QuestionnaireService.java:242-254 | Publishing again succeeds and stamps the later time. |
| QuestionnaireService.NoExistenceLeak | houduan/src/main/java/com/example/mentalhealth/service/QuestionnaireService.java:242-291 | For a foreign or inactive id, publish, archive, delete and update return exactly what they return for an id no row has. |
| QuestionnaireService.Views | houduan/src/main/java/com/example/mentalhealth/service/QuestionnaireService.java:154-160 | Each row is paired with its download URL, in the same order. |
| QuestionnaireService.GetUserQuestionnaires | houduan/src/main/java/com/example/mentalhealth/service/QuestionnaireService.java:154-160 | Returns the creator's active rows as a permutation of the filtered rows (same rows, same multiplicities), newest first. Each view carries the download URL of its own row. |
| QuestionnaireService.GetUserQuestionnairesPaged | houduan/src/main/java/com/example/mentalhealth/service/QuestionnaireService.java:165-169 | Returns exactly the requested page of the creator's unpaged list. Each view carries the download URL of its own row. |
| QuestionnaireService.GetPublishedQuestionnaires | houduan/src/main/java/com/example/mentalhealth/service/QuestionnaireService.java:174-180 | Returns the PUBLISHED active rows of every creator as a permutation of the filtered rows (same rows, same multiplicities), most recently published first. Each view carries the download URL of its own row. |
| QuestionnaireService.GetPublishedQuestionnairesPaged | houduan/src/main/java/com/example/mentalhealth/service/QuestionnaireService.java:185-190 | Returns exactly the requested page of the unpaged published list. Each view carries the download URL of its own row. |
| QuestionnaireService.GetUserQuestionnairesByStatus | houduan/src/main/java/com/example/mentalhealth/service/QuestionnaireService.java:195-202 | Returns the creator's active rows in that status as a permutation of the filtered rows (same rows, same multiplicities), newest first. Each view carries the download URL of its own row. |
| QuestionnaireService.SearchQuestionnaires | houduan/src/main/java/com/example/mentalhealth/service/QuestionnaireService.java:207-212 | Returns the active rows of any creator whose title contains the keyword, as a permutation of the filtered rows (same rows, same multiplicities), newest first. The search is not owner-scoped. Each view carries the download URL of its own row. |
| QuestionnaireService.SearchUserQuestionnaires | houduan/src/main/java/com/example/mentalhealth/service/QuestionnaireService.java:217-223 | Returns the creator's active rows whose title contains the keyword, as a permutation of the filtered rows (same rows, same multiplicities). Each view carries the download URL of its own row. |
| QuestionnaireService.GetQuestionnairesByCategory | houduan/src/main/java/com/example/mentalhealth/service/QuestionnaireService.java:350-356 | Returns the active rows of that category as a permutation of the filtered rows (same rows, same multiplicities), newest first. Each view carries the download URL of its own row. |
| QuestionnaireService.GetPopularQuestionnaires | houduan/src/main/java/com/example/mentalhealth/service/QuestionnaireService.java:361-367 | A limit below 1 is rejected. Otherwise the result is exactly the first `limit` rows of the PUBLISHED active rows ordered most downloaded first, so its length is min(limit, number of such rows). No row left out has more downloads than one returned. Each view carries the download URL of its own row. |
| QuestionnaireService.PopularHoldsAll | houduan/src/main/java/com/example/mentalhealth/service/QuestionnaireService.java:361-367 | A limit at least the number of published active rows returns every one of them. |
| QuestionnaireService.UploadListed | houduan/src/main/java/com/example/mentalhealth/service/QuestionnaireService.java:59-111 | An accepted upload is at once in its creator's list, in the creator's and everyone's title search, and in its category when it has one. `getQuestionnaireInfo` of the new id returns exactly the upload's view. |
| QuestionnaireService.RowListed | houduan/src/main/java/com/example/mentalhealth/service/QuestionnaireService.java:154-223 | Any active row is in its creator's list, in both searches for its own title, and in its category. |
| QuestionnaireService.AppendedRowFound | houduan/src/main/java/com/example/mentalhealth/service/QuestionnaireService.java:228-236 | A row appended under the next id to a valid table is what the info lookup of that id returns. |
| QuestionnaireService.PublishListed | houduan/src/main/java/com/example/mentalhealth/service/QuestionnaireService.java:174-291 | A published row is on the public list. After an archive or a delete, no row with that id is on it. |
| QuestionnaireService.OnlyRowWithId | houduan/src/main/java/com/example/mentalhealth/service/QuestionnaireService.java:242-291 | When a write changes only the creator's row and leaves it unpublished or inactive, no published active row has that id. |
| QuestionnaireService.UserQuestionnairesPagesCover | houduan/src/main/java/com/example/mentalhealth/service/QuestionnaireService.java:165-169 | Row i of the creator's unpaged list is on page i / size of the paged list, at offset i % size. |
| QuestionnaireService.PublishedPagesCover | houduan/src/main/java/com/example/mentalhealth/service/QuestionnaireService.java:185-190 | Row i of the published list is on page i / size of the paged list, at offset i % size. |
| QuestionnaireService.GetUserQuestionnaireStatistics | houduan/src/main/java/com/example/mentalhealth/service/QuestionnaireService.java:335-345 | Each count is the length of the matching list, and draft + published + archived = total. |
| QuestionnaireService.StatusCountsPartition | houduan/src/main/java/com/example/mentalhealth/service/QuestionnaireService.java:335-345 | The three status counts of the creator's active rows add up to the creator's total. |
| UserEntity.NewUser | houduan/src/main/java/com/example/mentalhealth/service/AuthService.java:55-59 | A new user has the given username, e-mail and password, no id, role USER, enabled, and no name or affiliation. |
| UserRepository.FindByUsername | houduan/src/main/java/com/example/mentalhealth/repository/UserRepository.java:19 | Finds a row with exactly that username, and finds one if and only if `existsByUsername` holds. Under the invariant the row is unique. |
| UserRepository.FindByEmail | houduan/src/main/java/com/example/mentalhealth/repository/UserRepository.java:26 | Finds a row with exactly that e-mail, and finds one if and only if `existsByEmail` holds. Under the invariant the row is unique. |
| UserRepository.FindById | houduan/src/main/java/com/example/mentalhealth/service/AuthService.java:110-111 | Finds the row with that id, and finds none exactly when no row has it. Under the invariant the row is unique. |
| UserRepository.CountByRole | houduan/src/main/java/com/example/mentalhealth/repository/UserRepository.java:49 | Counts the rows whose role is exactly the given one, at most the table size. |
| UserRepository.CountByEnabled | houduan/src/main/java/com/example/mentalhealth/repository/UserRepository.java:56 | Counts the rows whose flag is exactly the given value, at most the table size. |
| UserRepository.FindByUsernameContainingOrEmailContaining | houduan/src/main/java/com/example/mentalhealth/repository/UserRepository.java:64 | Returns the rows whose username contains the first keyword or whose e-mail contains the second, as a permutation of the filtered rows (same rows, same multiplicities). |
| UserRepository.Insert | houduan/src/main/java/com/example/mentalhealth/service/AuthService.java:61 | Appends the user with the next id. The invariant (unique ids, usernames and e-mails) is kept when username and e-mail are both new. |
| UserRepository.SaveAt | houduan/src/main/java/com/example/mentalhealth/service/AuthService.java:131 | Replaces only that row. The invariant is kept when id and username stay and the e-mail stays or is new. |
| UserRepository.DeleteAt | houduan/src/main/java/com/example/mentalhealth/service/AuthService.java:246 | Removes only that row, and the others keep their order. The invariant is kept. |
| UserRepository.EnabledCountsPartition | houduan/src/main/java/com/example/mentalhealth/service/AuthService.java:300-301 | When every flag is non-null, the enabled count + the disabled count = the table size. |
| UserRepository.RoleCountsPartition | houduan/src/main/java/com/example/mentalhealth/service/AuthService.java:298-299 | When every role is non-null, the admin count + the user count = the table size. |
| AuthService.RegisterUser | houduan/src/main/java/com/example/mentalhealth/service/AuthService.java:38-64 | Checks run in order: a duplicate username, then a duplicate e-mail, then a mismatched confirmation. Success holds if and only if none applies. Success appends exactly one user, with the username, the e-mail and encode(password), as an enabled USER under the next id; the id counter moves on by one, and the call returns '用户注册成功！'. The invariant is kept. |
| AuthService.RegisterTwiceFails | houduan/src/main/java/com/example/mentalhealth/service/AuthService.java:38-64 | Registering a username again fails on the username whatever the e-mail. The registered user is found by name and holds the encoded password. |
| AuthService.CreateUser | houduan/src/main/java/com/example/mentalhealth/service/AuthService.java:173-191 | The same two duplicate checks apply, in the same order, with the admin messages. A null role becomes USER and a given role is kept. Name and affiliation are stored verbatim, along with encode(password). The invariant is kept. |
| AuthService.CreatedUserFound | houduan/src/main/java/com/example/mentalhealth/service/AuthService.java:173-191 | A created user is what `getUserById` of the new id returns, and what `findByUsername` of its username finds. |
| AuthService.EditedUser | houduan/src/main/java/com/example/mentalhealth/service/AuthService.java:209-234 | A non-blank e-mail ends up as the e-mail, and a null or blank one leaves it. Role and enabled change only when given. Name and affiliation: null keeps, blank clears, anything else is stored untrimmed. Id, username and password never change. |
| AuthService.UpdateUser | houduan/src/main/java/com/example/mentalhealth/service/AuthService.java:203-237 | An unknown id fails with '用户不存在'. It fails with '邮箱已被其他用户注册' if and only if the user exists and a new non-blank e-mail is held by some row; this check runs before any change. It succeeds in every other case. Then only that row is replaced by the edited user, keeping the invariant. |
| AuthService.UpdateUserProfile | houduan/src/main/java/com/example/mentalhealth/service/AuthService.java:109-132 | The same e-mail, name and affiliation rules apply, and the call succeeds or fails under the same conditions with the same two messages. The saved user is exactly the edit of the found row with role and enabled left null, so the id, role, enabled flag, username and password never change. Only that row is replaced, and the invariant is kept. |
| AuthService.UpdateIdempotent | houduan/src/main/java/com/example/mentalhealth/service/AuthService.java:203-237 | Applying the same update twice gives the same user as applying it once. |
| AuthService.EmptyUpdateChangesNothing | houduan/src/main/java/com/example/mentalhealth/service/AuthService.java:203-237 | An update with every field null leaves the table as it was. |
| AuthService.GetUserById | houduan/src/main/java/com/example/mentalhealth/service/AuthService.java:158-161 | Fails with '用户不存在' exactly when no row has the id; otherwise returns that row. |
| AuthService.DeleteUser | houduan/src/main/java/com/example/mentalhealth/service/AuthService.java:243-247 | An unknown id fails with '用户不存在'. A delete the database refuses (a file record or questionnaire still references the user) fails with the refusal's message. Otherwise the table loses exactly the user with that id and keeps every other row. The id counter is unchanged, so a deleted id is never reused, and the invariant is kept. |
| AuthService.DeletedUserIsGone | houduan/src/main/java/com/example/mentalhealth/service/AuthService.java:243-247 | After a delete, both a lookup and a second delete of the id fail with '用户不存在'. |
| AuthService.SetEnabled | houduan/src/main/java/com/example/mentalhealth/service/AuthService.java:253-269 | An unknown id fails. Otherwise only that row changes, and only in its flag. |
| AuthService.EnableUser | houduan/src/main/java/com/example/mentalhealth/service/AuthService.java:264-269 | An unknown id fails with '用户不存在'. Otherwise only that user's row changes, and only its enabled flag, which becomes true; every other row stays as it was. |
| AuthService.DisableUser | houduan/src/main/java/com/example/mentalhealth/service/AuthService.java:253-258 | An unknown id fails with '用户不存在'. Otherwise only that user's row changes, and only its enabled flag, which becomes false; every other row stays as it was. |
| AuthService.SetEnabledIdempotent | houduan/src/main/java/com/example/mentalhealth/service/AuthService.java:253-269 | Enabling or disabling twice gives the same table as doing it once. |
| AuthService.ResetUserPassword | houduan/src/main/java/com/example/mentalhealth/service/AuthService.java:276-281 | An unknown id fails. Otherwise only that row changes, and only its password, which becomes encode(newPassword). |
| AuthService.ResetPasswordVisible | houduan/src/main/java/com/example/mentalhealth/service/AuthService.java:276-281 | After a reset, the user found by id and the user found by username both hold encode(newPassword). |
| AuthService.SearchUsers | houduan/src/main/java/com/example/mentalhealth/service/AuthService.java:288-290 | Returns the users whose username or e-mail contains the keyword, as a permutation of the filtered rows (same rows, same multiplicities). |
| AuthService.SearchFinds | houduan/src/main/java/com/example/mentalhealth/service/AuthService.java:288-290 | A user is found by their own username, by their own e-mail, and by the empty keyword. |
| AuthService.GetUserStatistics | houduan/src/main/java/com/example/mentalhealth/service/AuthService.java:296-304 | The total is the table size. Each count is its repository query: `countByRole(ADMIN)`, `countByRole(USER)`, `countByEnabled(true)`, `countByEnabled(false)`. admin + user <= total and enabled + disabled <= total, with equality when every role and flag is non-null. |
| AuthService.StatisticsBounded | houduan/src/main/java/com/example/mentalhealth/service/AuthService.java:296-304 | Rows with a null role or flag fall outside both of the matching counts. |
| ApiResponses.Empty | houduan/src/main/java/com/example/mentalhealth/dto/ApiResponse.java:11-12 | The no-argument constructor leaves false, null, null and 0. |
| ApiResponses.WithMessage | houduan/src/main/java/com/example/mentalhealth/dto/ApiResponse.java:14-17 | The two-argument constructor sets success and message; data stays null and code 0. |
| ApiResponses.WithData | houduan/src/main/java/com/example/mentalhealth/dto/ApiResponse.java:19-23 | The three-argument constructor, which the controllers use, leaves the code at 0. |
| ApiResponses.Full | houduan/src/main/java/com/example/mentalhealth/dto/ApiResponse.java:25-30 | The four-argument constructor stores every field as given. |
| ApiResponses.Success | houduan/src/main/java/com/example/mentalhealth/dto/ApiResponse.java:33-35 | `success(msg)` is (true, msg, null, 200). |
| ApiResponses.SuccessWith | houduan/src/main/java/com/example/mentalhealth/dto/ApiResponse.java:37-39 | `success(msg, data)` is (true, msg, data, 200). |
| ApiResponses.Error | houduan/src/main/java/com/example/mentalhealth/dto/ApiResponse.java:42-44 | `error(msg)` is (false, msg, null, 400). |
| ApiResponses.ErrorWithCode | houduan/src/main/java/com/example/mentalhealth/dto/ApiResponse.java:46-48 | `error(msg, code)` keeps the given code, with null data. |
| ApiResponses.ErrorWithData | houduan/src/main/java/com/example/mentalhealth/dto/ApiResponse.java:50-52 | `error(msg, data, code)` keeps data and code. |
| ApiResponses.FactoriesAgree | houduan/src/main/java/com/example/mentalhealth/dto/ApiResponse.java:19-52 | `error(msg)` is `error(msg, 400)`, and `error(msg, code)` is `error(msg, null, code)`. The controllers' constructor differs from `success(msg, data)` only in its code, 0 instead of 200. |
| ApiResponses.SuccessAndErrorDiffer | houduan/src/main/java/com/example/mentalhealth/dto/ApiResponse.java:33-52 | A success-factory response never equals an error-factory response, and only the success factories set the flag. |

## Left out

- The controllers, `GlobalExceptionHandler` and the DTO classes other than `ApiResponse` are not part of this model. The services' results and messages are modelled, but not their mapping to HTTP responses.
- `AuthService.authenticateUser` (AuthService.java:71-81) delegates to Spring Security's `AuthenticationManager`, which is not part of this model.
- `AuthService.findByUsername` and `AuthService.findByEmail` (lines 88-99) only pass through to the repository. They are modelled as `UserRepository.FindByUsername` and `UserRepository.FindByEmail`.
- `AuthService.getAllUsers` (lines 140-151) only returns `findAll()` or `findAll(pageable)`: the user table's rows, whole or as a `Queries.Page` of them. It has no member of its own.
- `User.java` is not part of this model. Its three-argument constructor is taken to give an enabled user with role USER, and its own timestamps are not modelled.
- Disk I/O becomes parameters:
  - a failure of `Files.createDirectories` or `Files.copy` becomes `UploadEnv.writeError`;
  - `Files.exists`/`isReadable` become `blobAt`;
  - the `Resource` returned by a download is its file path.
- Floating-point formatting of sizes in the DTOs is left out, because it only shapes the display.
- Concurrency is left out. Every call is atomic and sequential, so lost updates between concurrent downloads are not modelled.
- `FileRecordRepository.softDeleteByIdAndUser` (FileRecordRepository.java:67-68) is left out: no service calls it.
- `getAllQuestionnaires` and `deleteQuestionnaireAsAdmin` are called from the admin controller but are not defined in `QuestionnaireService`, so there is nothing to model.
- FileRecordRepository.FindByIdAndIsActiveTrue: the repository interface does not declare `findByIdAndIsActiveTrue`, which `FileService` calls (lines 201, 210, 233). It is modelled with the meaning Spring Data derives from the name.
- JavaText.ToLower: only ASCII letters and the Kelvin sign are lowered. Other Unicode case mappings that `String.toLowerCase` performs are not modelled. `toLowerCase()` uses the default locale, which is taken to be neither Turkish nor Azeri: under those two locales 'I' lowers to a dotless 'ı', so '.GIF' and '.AVI' would be rejected. With that assumption no allowed extension is affected.
- Clock.LocalDateTime: only years 1 to 9999 are modelled, so the timestamp always has four year digits.
- UploadRules.JoinPath: `Paths.get(dir, name)` and `resolve` are modelled as joining with '/'. Normalisation and absolute names are not modelled.
- Queries.Select: SQL `LIKE '%kw%'` is a plain case-sensitive substring test, so collation and the wildcard characters `%` and `_` inside a keyword are not modelled. The order among rows with equal sort keys is not fixed. A NULL key sorts below every value.
- UserRepository.FindByUsernameContainingOrEmailContaining: the query has no ORDER BY, so the model returns table order. The contract states only which rows are returned.
- FileRecordRepository.SumFileSizeByUser: the SQL `SUM` is an unbounded integer, so `Long` overflow of sums and counts is not modelled.
- QuestionnaireService.GetPopularQuestionnaires: `Pageable.ofSize(limit)` rejects a limit below 1 with an exception. The model returns `Err(())` and does not carry that exception's message.
- QuestionnaireRepository.IncrementDownloadCount: the bulk UPDATE is modelled, but no service calls it. A count at the maximum fails the statement, as the column type demands.
- The `isActive` flags are plain booleans. They are never null in rows written through the services.
- The unique-constraint violation on a duplicate stored name is modelled as `Err`. Its driver message is the parameter `UploadEnv.constraintError`.
- Bean validation of the entities' `@NotBlank` fields is modelled at insert (`PassesNotBlank` in `FileRecordEntity` and `QuestionnaireEntity`, failing with `UploadEnv.validationError`) and at the commit of `updateQuestionnaire`, the one write that can change a validated field (failing with the parameter `commitError`). The other writes (soft deletes, publish, archive, the download count) never change a `@NotBlank` field, and every row an upload inserts passes the check, so their own pre-update validation is not modelled. The text of the `ConstraintViolationException` message, which Hibernate composes, is a parameter in both places.
- A soft delete calls `setUpdatedAt(LocalDateTime.now())` and then saves, so `@PreUpdate` reads the clock again. The hook's reading is the one stored, and the model passes that one reading as `now`.
- ApiResponses.WithMessage, WithData, Full and the static factories take a non-null message. Java accepts `null` there; the services always pass a literal or a concatenation, which is never null, so a null message is not modelled. Only the no-argument constructor's null message is.
- AuthService.DeleteUser: `User.java` is not part of this model, so it is unknown whether its mappings cascade to the user's file records and questionnaires. The model takes the non-null foreign keys `uploaded_by` and `created_by` as able to refuse the delete, with the database's message passed in as `refused`. A cascade that removes the user's rows is not modelled.

=== FILE: api_response.dfy ===
/** `ApiResponse<T>`: the envelope every endpoint returns. A field the
    constructor does not set keeps its Java default: `false`, null, or 0. */
module ApiResponses {
  import opened Wrappers

  const Ok200: int := 200
  const BadRequest400: int := 400

  datatype ApiResponse<T> = ApiResponse(success: bool, message: Option<string>, data: Option<T>, code: int)

  /** The no-argument constructor. */
  function Empty<T>(): (r: ApiResponse<T>)
    ensures !r.success && r.message.None? && r.data.None? && r.code == 0
  {
    ApiResponse(false, None, None, 0)
  }

  /** `new ApiResponse(success, message)`. */
  function WithMessage<T>(success: bool, message: string): (r: ApiResponse<T>)
    ensures r == Empty<T>().(success := success, message := Some(message))
  {
    ApiResponse(success, Some(message), None, 0)
  }

  /** `new ApiResponse(success, message, data)`, the form the controllers use:
      the code is left at 0. */
  function WithData<T>(success: bool, message: string, data: Option<T>): (r: ApiResponse<T>)
    ensures r == WithMessage<T>(success, message).(data := data)
    ensures r.code == 0
  {
    ApiResponse(success, Some(message), data, 0)
  }

  /** `new ApiResponse(success, message, data, code)`: every field as given. */
  function Full<T>(success: bool, message: string, data: Option<T>, code: int): (r: ApiResponse<T>)
    ensures r.success == success && r.message == Some(message) && r.data == data && r.code == code
  {
    ApiResponse(success, Some(message), data, code)
  }

  /** `ApiResponse.success(message)`. */
  function Success<T>(message: string): (r: ApiResponse<T>)
    ensures r.success && r.message == Some(message) && r.data.None? && r.code == Ok200
  {
    Full(true, message, None, Ok200)
  }

  /** `ApiResponse.success(message, data)`. */
  function SuccessWith<T>(message: string, data: Option<T>): (r: ApiResponse<T>)
    ensures r.success && r.message == Some(message) && r.data == data && r.code == Ok200
  {
    Full(true, message, data, Ok200)
  }

  /** `ApiResponse.error(message)`. */
  function Error<T>(message: string): (r: ApiResponse<T>)
    ensures !r.success && r.message == Some(message) && r.data.None? && r.code == BadRequest400
  {
    Full(false, message, None, BadRequest400)
  }

  /** `ApiResponse.error(message, code)`. */
  function ErrorWithCode<T>(message: string, code: int): (r: ApiResponse<T>)
    ensures !r.success && r.message == Some(message) && r.data.None? && r.code == code
  {
    Full(false, message, None, code)
  }

  /** `ApiResponse.error(message, data, code)`. */
  function ErrorWithData<T>(message: string, data: Option<T>, code: int): (r: ApiResponse<T>)
    ensures !r.success && r.message == Some(message) && r.data == data && r.code == code
  {
    Full(false, message, data, code)
  }

  /** How the factories relate: `error(message)` is `error(message, 400)`, the
      two-argument `error` is the three-argument one without data, `success`
      without data is `success` with null data, and the constructor the
      controllers call differs from `success(message, data)` only in its code. */
  lemma FactoriesAgree<T>(message: string, data: Option<T>, code: int)
    ensures Error<T>(message) == ErrorWithCode<T>(message, BadRequest400)
    ensures ErrorWithCode<T>(message, code) == ErrorWithData<T>(message, None, code)
    ensures Success<T>(message) == SuccessWith<T>(message, None)
    ensures WithData(true, message, data) == SuccessWith(message, data).(code := 0)
    ensures WithData(false, message, data) == ErrorWithData(message, data, 0)
  {
  }

  /** A response from a success factory and one from an error factory never
      coincide, and the success factories are the only ones that mark success. */
  lemma SuccessAndErrorDiffer<T>(message: string, data: Option<T>, message2: string, data2: Option<T>,
                                 code: int)
    ensures SuccessWith(message, data) != ErrorWithData(message2, data2, code)
    ensures SuccessWith(message, data).success && !ErrorWithData(message2, data2, code).success
    ensures Error<T>(message2).code != SuccessWith(message, data).code
  {
  }
}

=== FILE: auth_service.dfy ===
/** `AuthService`: registration, profile update and the administrator's user
    management over the user table. Every operation returns the new table or
    the message of the exception the Java method throws; on an error no table
    is returned, so the store is unchanged. The password encoder is a
    parameter about which nothing is assumed. */
module AuthService {
  import opened Wrappers
  import opened JavaText
  import opened Queries
  import opened UserEntity
  import opened UserRepository

  const UsernameTaken: string := "用户名已存在！"
  const EmailTaken: string := "邮箱已被注册！"
  const PasswordMismatch: string := "两次输入的密码不一致！"
  const Registered: string := "用户注册成功！"
  const UsernameTakenForAdmin: string := "用户名已存在"
  const EmailTakenForAdmin: string := "邮箱已被注册"
  const EmailTakenByOther: string := "邮箱已被其他用户注册"
  const UserNotFound: string := "用户不存在"

  /** `PasswordEncoder.encode`. */
  type Encoder = string -> string

  /** Every row has a role and an enabled flag: what the operations below
      produce, and what makes the statistics add up. */
  predicate Complete(t: UserTable) {
    forall i :: 0 <= i < |t.rows| ==> t.rows[i].role.Some? && t.rows[i].enabled.Some?
  }

  /** `t'` is `t` with the row at `i` replaced by `u`. */
  ghost predicate ReplacedAt(t: UserTable, t': UserTable, i: nat, u: User) {
    && i < |t.rows| && |t'.rows| == |t.rows| && t'.nextId == t.nextId
    && t'.rows[i] == u
    && (forall k :: 0 <= k < |t.rows| && k != i ==> t'.rows[k] == t.rows[k])
  }

  /** `registerUser`: the username is checked first, then the e-mail, then the
      confirmation. A successful registration appends exactly one user, holding
      the encoded password. */
  function RegisterUser(t: UserTable, username: string, email: string, password: string,
                        confirmPassword: string, encode: Encoder): (r: Result<(UserTable, string), string>)
    ensures ExistsByUsername(t, username) ==> r == Err(UsernameTaken)
    ensures !ExistsByUsername(t, username) && ExistsByEmail(t, email) ==> r == Err(EmailTaken)
    ensures !ExistsByUsername(t, username) && !ExistsByEmail(t, email) && password != confirmPassword
            ==> r == Err(PasswordMismatch)
    ensures r.Ok? <==> !ExistsByUsername(t, username) && !ExistsByEmail(t, email) && password == confirmPassword
    ensures r.Ok? ==> r.value.1 == Registered
    ensures r.Ok? ==> r.value.0.rows == t.rows + [User(Some(t.nextId), username, email, encode(password),
                                                       Some(USER), Some(true), None, None)]
    ensures r.Ok? ==> r.value.0.nextId == t.nextId + 1
    ensures r.Ok? && Valid(t) ==> Valid(r.value.0)
    ensures r.Ok? && Complete(t) ==> Complete(r.value.0)
  {
    if ExistsByUsername(t, username) then Err(UsernameTaken)
    else if ExistsByEmail(t, email) then Err(EmailTaken)
    else if password != confirmPassword then Err(PasswordMismatch)
    else Ok((Insert(t, NewUser(username, email, encode(password))).0, Registered))
  }

  /** Once a username is registered, registering it again fails on the
      username, whatever the e-mail; the registered user can be found by name
      and holds the encoded password. */
  lemma RegisterTwiceFails(t: UserTable, username: string, email: string, password: string,
                           confirmPassword: string, encode: Encoder, email2: string, password2: string,
                           confirm2: string)
    requires RegisterUser(t, username, email, password, confirmPassword, encode).Ok?
    ensures var t' := RegisterUser(t, username, email, password, confirmPassword, encode).value.0;
            && RegisterUser(t', username, email2, password2, confirm2, encode) == Err(UsernameTaken)
            && FindByUsername(t', username).Some?
            && (Valid(t) ==> FindByUsername(t', username).value.password == encode(password))
  {
    var t' := RegisterUser(t, username, email, password, confirmPassword, encode).value.0;
    assert t'.rows[|t.rows|].username == username;
    if Valid(t) {
      var found := FindByUsername(t', username);
      assert t'.rows[|t.rows|] in t'.rows;
    }
  }

  /** `createUser`: the same two duplicate checks in the same order (with the
      messages without the exclamation mark); a null role becomes USER, and
      name and affiliation are stored as given. */
  function CreateUser(t: UserTable, username: string, email: string, password: string, role: Option<Role>,
                      name: Option<string>, affiliation: Option<string>, encode: Encoder)
    : (r: Result<(UserTable, User), string>)
    ensures ExistsByUsername(t, username) ==> r == Err(UsernameTakenForAdmin)
    ensures !ExistsByUsername(t, username) && ExistsByEmail(t, email) ==> r == Err(EmailTakenForAdmin)
    ensures r.Ok? <==> !ExistsByUsername(t, username) && !ExistsByEmail(t, email)
    ensures r.Ok? ==> r.value.0.rows == t.rows + [r.value.1] && r.value.0.nextId == t.nextId + 1
    ensures r.Ok? ==> && r.value.1.id == Some(t.nextId)
                      && r.value.1.username == username && r.value.1.email == email
                      && r.value.1.password == encode(password)
                      && r.value.1.name == name && r.value.1.affiliation == affiliation
                      && r.value.1.enabled == Some(true)
    ensures r.Ok? && role.None? ==> r.value.1.role == Some(USER)
    ensures r.Ok? && role.Some? ==> r.value.1.role == role
    ensures r.Ok? && Valid(t) ==> Valid(r.value.0)
    ensures r.Ok? && Complete(t) ==> Complete(r.value.0)
  {
    if ExistsByUsername(t, username) then Err(UsernameTakenForAdmin)
    else if ExistsByEmail(t, email) then Err(EmailTakenForAdmin)
    else
      var user := NewUser(username, email, encode(password)).(role := Some(role.GetOr(USER)),
                                                              name := name, affiliation := affiliation);
      Ok(Insert(t, user))
  }

  /** The update asks for a new e-mail: one was given, it is not blank, and it
      differs from the current one. */
  predicate ChangesEmail(u: User, email: Option<string>) {
    email.Some? && !TrimsToEmpty(email.value) && email.value != u.email
  }

  /** The rule for `name` and `affiliation`: null keeps the field, a blank
      value clears it, anything else is stored untrimmed. */
  function ClearOrReplace(field: Option<string>, value: Option<string>): (r: Option<string>)
    ensures value.None? ==> r == field
    ensures value.Some? && TrimsToEmpty(value.value) ==> r.None?
    ensures value.Some? && !TrimsToEmpty(value.value) ==> r == value
  {
    match value
    case None => field
    case Some(v) => if TrimsToEmpty(v) then None else value
  }

  /** The user after an update's field rules: a non-blank e-mail ends up as the
      e-mail, a missing or blank one leaves it; role and enabled are replaced
      only when given; id, username and password never change. */
  function EditedUser(u: User, email: Option<string>, role: Option<Role>, enabled: Option<bool>,
                      name: Option<string>, affiliation: Option<string>): (r: User)
    ensures r.id == u.id && r.username == u.username && r.password == u.password
    ensures email.Some? && !TrimsToEmpty(email.value) ==> r.email == email.value
    ensures email.None? || TrimsToEmpty(email.value) ==> r.email == u.email
    ensures r.role == (if role.Some? then role else u.role)
    ensures r.enabled == (if enabled.Some? then enabled else u.enabled)
    ensures r.name == ClearOrReplace(u.name, name)
    ensures r.affiliation == ClearOrReplace(u.affiliation, affiliation)
  {
    u.(email := if ChangesEmail(u, email) then email.value else u.email,
       role := if role.Some? then role else u.role,
       enabled := if enabled.Some? then enabled else u.enabled,
       name := ClearOrReplace(u.name, name),
       affiliation := ClearOrReplace(u.affiliation, affiliation))
  }

  /** `updateUser`: an unknown id fails first; a requested e-mail that some row
      already holds fails next, before any field changes; otherwise the row is
      replaced by the edited user and no other row moves. */
  function UpdateUser(t: UserTable, userId: int, email: Option<string>, role: Option<Role>,
                      enabled: Option<bool>, name: Option<string>, affiliation: Option<string>)
    : (r: Result<(UserTable, User), string>)
    ensures FindById(t, userId).None? ==> r == Err(UserNotFound)
    ensures r.Err? ==> r.error == UserNotFound || r.error == EmailTakenByOther
    ensures r.Ok? <==> && FindById(t, userId).Some?
                       && !(ChangesEmail(t.rows[FindById(t, userId).value], email) && ExistsByEmail(t, email.value))
    ensures r == Err(EmailTakenByOther) <==>
              && FindById(t, userId).Some?
              && ChangesEmail(t.rows[FindById(t, userId).value], email)
              && ExistsByEmail(t, email.value)
    ensures r.Ok? ==> && FindById(t, userId).Some?
                      && r.value.1 == EditedUser(t.rows[FindById(t, userId).value], email, role, enabled,
                                                 name, affiliation)
                      && ReplacedAt(t, r.value.0, FindById(t, userId).value, r.value.1)
    ensures r.Ok? && Valid(t) ==> Valid(r.value.0)
    ensures r.Ok? && Complete(t) ==> Complete(r.value.0)
  {
    match FindById(t, userId)
    case None => Err(UserNotFound)
    case Some(i) =>
      if ChangesEmail(t.rows[i], email) && ExistsByEmail(t, email.value) then Err(EmailTakenByOther)
      else
        var u := EditedUser(t.rows[i], email, role, enabled, name, affiliation);
        Ok((SaveAt(t, i, u), u))
  }

  /** `updateUserProfile`: the same e-mail, name and affiliation rules, in the
      same order, with role and enabled never touched. */
  function UpdateUserProfile(t: UserTable, userId: int, email: Option<string>, affiliation: Option<string>,
                             name: Option<string>): (r: Result<(UserTable, User), string>)
    ensures FindById(t, userId).None? ==> r == Err(UserNotFound)
    ensures r.Err? ==> r.error == UserNotFound || r.error == EmailTakenByOther
    ensures r.Ok? <==> && FindById(t, userId).Some?
                       && !(ChangesEmail(t.rows[FindById(t, userId).value], email) && ExistsByEmail(t, email.value))
    ensures r == Err(EmailTakenByOther) <==>
              && FindById(t, userId).Some?
              && ChangesEmail(t.rows[FindById(t, userId).value], email)
              && ExistsByEmail(t, email.value)
    ensures r.Ok? ==> && FindById(t, userId).Some?
                      && ReplacedAt(t, r.value.0, FindById(t, userId).value, r.value.1)
    ensures r.Ok? ==> var u := t.rows[FindById(t, userId).value];
                      && r.value.1 == EditedUser(u, email, None, None, name, affiliation)
                      && r.value.1.id == u.id
                      && r.value.1.role == u.role && r.value.1.enabled == u.enabled
                      && r.value.1.password == u.password && r.value.1.username == u.username
                      && r.value.1.name == ClearOrReplace(u.name, name)
                      && r.value.1.affiliation == ClearOrReplace(u.affiliation, affiliation)
                      && (email.None? || TrimsToEmpty(email.value) ==> r.value.1.email == u.email)
                      && (email.Some? && !TrimsToEmpty(email.value) ==> r.value.1.email == email.value)
    ensures r.Ok? && Valid(t) ==> Valid(r.value.0)
  {
    UpdateUser(t, userId, email, None, None, name, affiliation)
  }

  /** Repeating an update changes nothing more: the second run finds the e-mail
      already in place and the fields already cleared or replaced. */
  lemma UpdateIdempotent(u: User, email: Option<string>, role: Option<Role>, enabled: Option<bool>,
                         name: Option<string>, affiliation: Option<string>)
    ensures var once := EditedUser(u, email, role, enabled, name, affiliation);
            EditedUser(once, email, role, enabled, name, affiliation) == once
  {
  }

  /** An update that gives no field succeeds on a known id and leaves the table
      exactly as it was. */
  lemma EmptyUpdateChangesNothing(t: UserTable, userId: int)
    requires FindById(t, userId).Some?
    ensures UpdateUser(t, userId, None, None, None, None, None) == Ok((t, t.rows[FindById(t, userId).value]))
  {
    var i := FindById(t, userId).value;
    assert EditedUser(t.rows[i], None, None, None, None, None) == t.rows[i];
    assert t.rows[i := t.rows[i]] == t.rows;
  }

  /** `getUserById`. */
  function GetUserById(t: UserTable, userId: int): (r: Result<User, string>)
    ensures r.Err? <==> forall k :: 0 <= k < |t.rows| ==> t.rows[k].id != Some(userId)
    ensures r.Err? ==> r.error == UserNotFound
    ensures r.Ok? ==> r.value in t.rows && r.value.id == Some(userId)
  {
    match FindById(t, userId)
    case None => Err(UserNotFound)
    case Some(i) => Ok(t.rows[i])
  }

  /** `deleteUser`: a hard delete of the row with that id; every other row stays,
      in order. File records and questionnaires reference their owner through
      a non-null foreign key, so the database may refuse the delete of a user
      who still owns rows: `refused` is the message of that failure, `None`
      when the delete goes through. */
  function DeleteUser(t: UserTable, userId: int, refused: Option<string>): (r: Result<UserTable, string>)
    ensures r.Err? <==> FindById(t, userId).None? || refused.Some?
    ensures FindById(t, userId).None? ==> r == Err(UserNotFound)
    ensures FindById(t, userId).Some? && refused.Some? ==> r == Err(refused.value)
    ensures r.Ok? ==> |r.value.rows| == |t.rows| - 1 && r.value.nextId == t.nextId
    ensures r.Ok? ==> forall x :: x in r.value.rows ==> x in t.rows
    ensures r.Ok? && Valid(t) ==> Valid(r.value)
    ensures r.Ok? && Valid(t) ==> forall x :: x in t.rows ==> (x in r.value.rows <==> x.id != Some(userId))
    ensures r.Ok? && Complete(t) ==> Complete(r.value)
  {
    match FindById(t, userId)
    case None => Err(UserNotFound)
    case Some(i) =>
      if refused.Some? then Err(refused.value)
      else
        var t' := DeleteAt(t, i);
        DeleteKeepsOthers(t, i, userId);
        Ok(t')
  }

  lemma DeleteKeepsOthers(t: UserTable, i: nat, userId: int)
    requires i < |t.rows| && t.rows[i].id == Some(userId)
    ensures forall x :: x in DeleteAt(t, i).rows ==> x in t.rows
    ensures Valid(t) ==> forall x :: x in t.rows ==> (x in DeleteAt(t, i).rows <==> x.id != Some(userId))
  {
    var t' := DeleteAt(t, i);
    forall x | x in t'.rows
      ensures x in t.rows
    {
      var k :| 0 <= k < |t'.rows| && t'.rows[k] == x;
      if k < i { assert t.rows[k] == x; } else { assert t.rows[k + 1] == x; }
    }
    if Valid(t) {
      forall x | x in t.rows
        ensures x in t'.rows <==> x.id != Some(userId)
      {
        var j :| 0 <= j < |t.rows| && t.rows[j] == x;
        if x.id == Some(userId) {
          forall k | 0 <= k < |t'.rows|
            ensures t'.rows[k].id != Some(userId)
          {
            if k < i { assert t'.rows[k] == t.rows[k]; } else { assert t'.rows[k] == t.rows[k + 1]; }
          }
        } else if j < i {
          assert t'.rows[j] == x;
        } else {
          assert t'.rows[j - 1] == x;
        }
      }
    }
  }

  /** After a delete the id resolves to no user any more. */
  lemma DeletedUserIsGone(t: UserTable, userId: int, refused: Option<string>, again: Option<string>)
    requires Valid(t) && DeleteUser(t, userId, refused).Ok?
    ensures GetUserById(DeleteUser(t, userId, refused).value, userId) == Err(UserNotFound)
    ensures DeleteUser(DeleteUser(t, userId, refused).value, userId, again) == Err(UserNotFound)
  {
    var t' := DeleteUser(t, userId, refused).value;
    forall k | 0 <= k < |t'.rows|
      ensures t'.rows[k].id != Some(userId)
    {
      assert t'.rows[k] in t'.rows;
    }
  }

  /** The row with that id, with its enabled flag set to `enabled`. */
  function SetEnabled(t: UserTable, userId: int, enabled: bool): (r: Result<UserTable, string>)
    ensures r.Err? <==> FindById(t, userId).None?
    ensures r.Err? ==> r.error == UserNotFound
    ensures r.Ok? ==> var i := FindById(t, userId).value;
                      ReplacedAt(t, r.value, i, t.rows[i].(enabled := Some(enabled)))
    ensures r.Ok? && Valid(t) ==> Valid(r.value)
    ensures r.Ok? && Complete(t) ==> Complete(r.value)
  {
    match FindById(t, userId)
    case None => Err(UserNotFound)
    case Some(i) => Ok(SaveAt(t, i, t.rows[i].(enabled := Some(enabled))))
  }

  /** `enableUser`. */
  function EnableUser(t: UserTable, userId: int): (r: Result<UserTable, string>)
    ensures r.Err? <==> FindById(t, userId).None?
    ensures r.Err? ==> r.error == UserNotFound
    ensures r.Ok? ==> var i := FindById(t, userId).value;
                      ReplacedAt(t, r.value, i, t.rows[i].(enabled := Some(true)))
    ensures r.Ok? ==> GetUserById(r.value, userId).Ok? && GetUserById(r.value, userId).value.enabled == Some(true)
  {
    var r := SetEnabled(t, userId, true);
    if r.Ok? then FlagLands(t, userId, true); r else r
  }

  /** `disableUser`. */
  function DisableUser(t: UserTable, userId: int): (r: Result<UserTable, string>)
    ensures r.Err? <==> FindById(t, userId).None?
    ensures r.Err? ==> r.error == UserNotFound
    ensures r.Ok? ==> var i := FindById(t, userId).value;
                      ReplacedAt(t, r.value, i, t.rows[i].(enabled := Some(false)))
    ensures r.Ok? ==> GetUserById(r.value, userId).Ok? && GetUserById(r.value, userId).value.enabled == Some(false)
  {
    var r := SetEnabled(t, userId, false);
    if r.Ok? then FlagLands(t, userId, false); r else r
  }

  /** The row the flag was written to is the one the id finds afterwards:
      the rows before it are untouched and still do not match. */
  lemma FlagLands(t: UserTable, userId: int, enabled: bool)
    requires SetEnabled(t, userId, enabled).Ok?
    ensures var t' := SetEnabled(t, userId, enabled).value;
            FindById(t', userId) == FindById(t, userId)
            && t'.rows[FindById(t, userId).value].enabled == Some(enabled)
  {
    var i := FindById(t, userId).value;
    var t' := SetEnabled(t, userId, enabled).value;
    assert FindById(t', userId).Some?;
  }

  /** Enabling or disabling twice is the same as doing it once. */
  lemma SetEnabledIdempotent(t: UserTable, userId: int, enabled: bool)
    requires SetEnabled(t, userId, enabled).Ok?
    ensures SetEnabled(SetEnabled(t, userId, enabled).value, userId, enabled) == SetEnabled(t, userId, enabled)
  {
    FlagLands(t, userId, enabled);
    var i := FindById(t, userId).value;
    var t' := SetEnabled(t, userId, enabled).value;
    assert t'.rows[i := t'.rows[i].(enabled := Some(enabled))] == t'.rows;
  }

  /** `resetUserPassword`: the row's password becomes the encoding of the new
      one; nothing else in the row or the table moves. */
  function ResetUserPassword(t: UserTable, userId: int, newPassword: string, encode: Encoder)
    : (r: Result<UserTable, string>)
    ensures r.Err? <==> FindById(t, userId).None?
    ensures r.Err? ==> r.error == UserNotFound
    ensures r.Ok? ==> var i := FindById(t, userId).value;
                      ReplacedAt(t, r.value, i, t.rows[i].(password := encode(newPassword)))
    ensures r.Ok? && Valid(t) ==> Valid(r.value)
    ensures r.Ok? && Complete(t) ==> Complete(r.value)
  {
    match FindById(t, userId)
    case None => Err(UserNotFound)
    case Some(i) => Ok(SaveAt(t, i, t.rows[i].(password := encode(newPassword))))
  }

  /** `searchUsers`: one keyword matched against both the username and the
      e-mail. */
  function SearchUsers(t: UserTable, keyword: string): (r: seq<User>)
    ensures forall x :: x in r <==> x in t.rows && (Contains(x.username, keyword) || Contains(x.email, keyword))
    ensures multiset(r) == multiset(Filter(t.rows, NameOrEmailContains(keyword, keyword)))
  {
    FindByUsernameContainingOrEmailContaining(t, keyword, keyword)
  }

  /** A created user is the one its id and its username resolve to. */
  lemma CreatedUserFound(t: UserTable, username: string, email: string, password: string, role: Option<Role>,
                         name: Option<string>, affiliation: Option<string>, encode: Encoder)
    requires Valid(t)
    requires CreateUser(t, username, email, password, role, name, affiliation, encode).Ok?
    ensures var (t', u) := CreateUser(t, username, email, password, role, name, affiliation, encode).value;
            && GetUserById(t', t.nextId) == Ok(u)
            && FindByUsername(t', username) == Some(u)
  {
    var (t', u) := CreateUser(t, username, email, password, role, name, affiliation, encode).value;
    var last := |t.rows|;
    assert t'.rows[last] == u;
    forall k | 0 <= k < last
      ensures t'.rows[k].id != Some(t.nextId) && t'.rows[k].username != username
    {
      assert t'.rows[k] == t.rows[k];
    }
    assert FindById(t', t.nextId) == Some(last);
  }

  /** After a reset, the user found by id or by username holds the encoding of
      the new password. */
  lemma ResetPasswordVisible(t: UserTable, userId: int, newPassword: string, encode: Encoder)
    requires Valid(t)
    requires ResetUserPassword(t, userId, newPassword, encode).Ok?
    ensures var t' := ResetUserPassword(t, userId, newPassword, encode).value;
            var u := t.rows[FindById(t, userId).value];
            && GetUserById(t', userId).Ok?
            && GetUserById(t', userId).value.password == encode(newPassword)
            && FindByUsername(t', u.username).Some?
            && FindByUsername(t', u.username).value.password == encode(newPassword)
  {
    var t' := ResetUserPassword(t, userId, newPassword, encode).value;
    var i := FindById(t, userId).value;
    assert Valid(t');
    assert t'.rows[i] in t'.rows;
  }

  /** Searching for a user's own username or e-mail finds that user, and the
      empty keyword finds everyone. */
  lemma SearchFinds(t: UserTable, u: User)
    requires u in t.rows
    ensures u in SearchUsers(t, u.username) && u in SearchUsers(t, u.email)
    ensures u in SearchUsers(t, "")
  {
    assert OccursAt(u.username, u.username, 0);
    assert OccursAt(u.email, u.email, 0);
    assert OccursAt(u.username, "", 0);
  }

  /** `AuthService.UserStatistics`. */
  datatype UserStatistics = UserStatistics(totalUsers: nat, adminCount: nat, userCount: nat,
                                           enabledCount: nat, disabledCount: nat)

  /** `getUserStatistics`: the total is the table size; a row with a null role
      or flag falls outside the matching counts, so the two pairs add up to at
      most the total, and to exactly the total on a complete table. */
  function GetUserStatistics(t: UserTable): (r: UserStatistics)
    ensures r.totalUsers == |t.rows|
    ensures r.adminCount == CountByRole(t, ADMIN) && r.userCount == CountByRole(t, USER)
    ensures r.enabledCount == CountByEnabled(t, true) && r.disabledCount == CountByEnabled(t, false)
    ensures r.adminCount + r.userCount <= r.totalUsers
    ensures r.enabledCount + r.disabledCount <= r.totalUsers
    ensures Complete(t) ==> r.adminCount + r.userCount == r.totalUsers
    ensures Complete(t) ==> r.enabledCount + r.disabledCount == r.totalUsers
  {
    StatisticsBounded(t);
    if Complete(t) then
      EnabledCountsPartition(t);
      RoleCountsPartition(t);
      Statistics(t)
    else
      Statistics(t)
  }

  function Statistics(t: UserTable): UserStatistics {
    UserStatistics(|t.rows|, CountByRole(t, ADMIN), CountByRole(t, USER),
                   CountByEnabled(t, true), CountByEnabled(t, false))
  }

  lemma StatisticsBounded(t: UserTable)
    ensures CountByRole(t, ADMIN) + CountByRole(t, USER) <= |t.rows|
    ensures CountByEnabled(t, true) + CountByEnabled(t, false) <= |t.rows|
  {
    var withRole := (u: User) => u.role == Some(ADMIN) || u.role == Some(USER);
    var flagged := (u: User) => u.enabled == Some(true) || u.enabled == Some(false);
    CountSplit(t.rows, withRole, HasRole(ADMIN), HasRole(USER));
    CountSplit(t.rows, flagged, HasEnabled(true), HasEnabled(false));
  }
}

=== FILE: clock.dfy ===
/** `java.time.LocalDateTime` values as the services read them from the clock,
    their chronological order, and the `yyyyMMdd_HHmmss` stamp that goes into
    stored file names. */
module Clock {
  import opened Wrappers
  import opened Decimal

  predicate IsLeapYear(y: int) {
    y % 4 == 0 && (y % 100 != 0 || y % 400 == 0)
  }

  function DaysInMonth(y: int, m: int): int {
    if m == 2 then (if IsLeapYear(y) then 29 else 28)
    else if m == 4 || m == 6 || m == 9 || m == 11 then 30
    else 31
  }

  datatype DateTime = DateTime(year: int, month: int, day: int,
                               hour: int, minute: int, second: int, nano: int)

  /** A real calendar date and time of day. Years are kept to 1..9999, the range
      in which the `yyyy` pattern prints exactly four digits. */
  predicate InRange(d: DateTime) {
    && 1 <= d.year <= 9999
    && 1 <= d.month <= 12
    && 1 <= d.day <= DaysInMonth(d.year, d.month)
    && 0 <= d.hour < 24
    && 0 <= d.minute < 60
    && 0 <= d.second < 60
    && 0 <= d.nano < 1_000_000_000
  }

  type LocalDateTime = d: DateTime | InRange(d) witness DateTime(2000, 1, 1, 0, 0, 0, 0)

  /** Two separate readings of the clock, one assigned to `createdAt` and the
      next to `updatedAt`, as a constructor or the `@PrePersist` hook takes
      them. Nothing is assumed about how far apart they are. */
  datatype Stamps = Stamps(created: LocalDateTime, updated: LocalDateTime)

  /** The position of `t` on the time line: later instants have larger keys. */
  function Key(t: LocalDateTime): int {
    var days := (t.year * 12 + (t.month - 1)) * 31 + (t.day - 1);
    var seconds := ((days * 24 + t.hour) * 60 + t.minute) * 60 + t.second;
    seconds * 1_000_000_000 + t.nano
  }

  /** `t.format(DateTimeFormatter.ofPattern("yyyyMMdd_HHmmss"))`. */
  function Stamp(t: LocalDateTime): (r: string)
    ensures |r| == 15
    ensures r[8] == '_'
    ensures forall i :: 0 <= i < 15 && i != 8 ==> IsDigit(r[i])
  {
    Padded(t.year, 4) + Padded(t.month, 2) + Padded(t.day, 2) + "_"
      + Padded(t.hour, 2) + Padded(t.minute, 2) + Padded(t.second, 2)
  }

  datatype StampFields = StampFields(year: int, month: int, day: int,
                                     hour: int, minute: int, second: int)

  /** Reads a `yyyyMMdd_HHmmss` stamp back into its six fields. */
  function ParseStamp(s: string): Option<StampFields> {
    if |s| == 15 && s[8] == '_' && AllDigits(s[..8]) && AllDigits(s[9..]) then
      Some(StampFields(Value(s[0..4]), Value(s[4..6]), Value(s[6..8]),
                       Value(s[9..11]), Value(s[11..13]), Value(s[13..15])))
    else None
  }

  /** The stamp keeps every field down to the second: it can be read back. */
  lemma StampRoundTrip(t: LocalDateTime)
    ensures ParseStamp(Stamp(t)) == Some(StampFields(t.year, t.month, t.day, t.hour, t.minute, t.second))
  {
    var s := Stamp(t);
    assert s[0..4] == Padded(t.year, 4);
    assert s[4..6] == Padded(t.month, 2);
    assert s[6..8] == Padded(t.day, 2);
    assert s[9..11] == Padded(t.hour, 2);
    assert s[11..13] == Padded(t.minute, 2);
    assert s[13..15] == Padded(t.second, 2);
    assert AllDigits(s[..8]);
    assert AllDigits(s[9..]);
  }
}

=== FILE: decimal.dfy ===
/** Decimal rendering of numbers, as `Long.toString` and the zero-padded fields
    of a `DateTimeFormatter` pattern produce it, with the parser that reads the
    digits back. */
module Decimal {
  import opened Wrappers

  predicate IsDigit(c: char) {
    '0' <= c <= '9'
  }

  predicate AllDigits(s: string) {
    forall i :: 0 <= i < |s| ==> IsDigit(s[i])
  }

  function DigitChar(d: int): (c: char)
    requires 0 <= d < 10
    ensures IsDigit(c)
  {
    ('0' as int + d) as char
  }

  function DigitValue(c: char): (d: int)
    requires IsDigit(c)
    ensures 0 <= d < 10
  {
    c as int - '0' as int
  }

  /** `10` to the power `n`, the bound of an `n`-digit field; it is positive,
      so every width has room for zero. */
  function Pow10(n: nat): (r: nat)
    ensures r >= 1
  {
    if n == 0 then 1 else 10 * Pow10(n - 1)
  }

  /** The number a string of decimal digits denotes (most significant first). */
  function Value(s: string): nat
    requires AllDigits(s)
  {
    if |s| == 0 then 0 else 10 * Value(s[..|s| - 1]) + DigitValue(s[|s| - 1])
  }

  lemma ValueAppend(s: string, c: char)
    requires AllDigits(s) && IsDigit(c)
    ensures AllDigits(s + [c])
    ensures Value(s + [c]) == 10 * Value(s) + DigitValue(c)
  {
    assert (s + [c])[..|s|] == s;
  }

  /** `n` written with exactly `width` digits, zero-padded on the left (the
      `yyyy`, `MM`, `dd`, ... fields of a date pattern). */
  function Padded(n: nat, width: nat): (r: string)
    requires n < Pow10(width)
    ensures |r| == width
    ensures AllDigits(r)
    ensures Value(r) == n
  {
    if width == 0 then ""
    else
      var front := Padded(n / 10, width - 1);
      ValueAppend(front, DigitChar(n % 10));
      front + [DigitChar(n % 10)]
  }

  /** `Long.toString(n)` for `n >= 0`: the shortest digit string denoting `n`. */
  function NatToString(n: nat): (r: string)
    ensures 1 <= |r|
    ensures AllDigits(r)
    ensures Value(r) == n
    ensures r[0] == '0' ==> r == "0"
  {
    if n < 10 then [DigitChar(n)]
    else
      var front := NatToString(n / 10);
      ValueAppend(front, DigitChar(n % 10));
      front + [DigitChar(n % 10)]
  }

  /** `Long.toString(i)`: a minus sign before the digits of a negative number. */
  function IntToString(i: int): (r: string)
    ensures 1 <= |r|
    ensures r[0] == '-' <==> i < 0
  {
    if i < 0 then "-" + NatToString(-i) else NatToString(i)
  }

  /** `Long.parseLong` restricted to what `IntToString` can produce. */
  function ParseInt(s: string): Option<int> {
    if |s| >= 2 && s[0] == '-' && AllDigits(s[1..]) then Some(0 - Value(s[1..]) as int)
    else if |s| >= 1 && AllDigits(s) then Some(Value(s))
    else None
  }

  /** Reading back a rendered number gives the number: the rendering loses nothing. */
  lemma ParseIntRoundTrip(i: int)
    ensures ParseInt(IntToString(i)) == Some(i)
  {
    var r := IntToString(i);
    if i < 0 {
      assert r[1..] == NatToString(-i);
      assert !IsDigit(r[0]);
    } else {
      assert r == NatToString(i);
    }
  }

  /** Two numbers render alike only when they are equal. */
  lemma IntToStringInjective(i: int, j: int)
    requires IntToString(i) == IntToString(j)
    ensures i == j
  {
    ParseIntRoundTrip(i);
    ParseIntRoundTrip(j);
  }
}

=== FILE: file_record.dfy ===
/** The `FileRecord` entity: the metadata row of an uploaded file. The owning
    user is held by id; `id` is null until the row is first saved. */
module FileRecordEntity {
  import opened Wrappers
  import opened JavaText
  import opened Clock

  /** `FileRecord.FileCategory`. */
  datatype FileCategory = DOCUMENT | VIDEO | IMAGE | OTHER

  /** `category.name()`. */
  function CategoryName(c: FileCategory): string {
    match c
    case DOCUMENT => "DOCUMENT"
    case VIDEO => "VIDEO"
    case IMAGE => "IMAGE"
    case OTHER => "OTHER"
  }

  datatype FileRecord = FileRecord(
    id: Option<int>,
    originalName: string,
    storedName: string,
    filePath: string,
    fileSize: nat,
    fileType: Option<string>,
    category: FileCategory,
    uploadedBy: int,
    createdAt: LocalDateTime,
    updatedAt: LocalDateTime,
    description: Option<string>,
    isActive: bool)

  /** The seven-argument constructor: the arguments are stored as given, each
      timestamp is its own clock reading, there is no id and no description
      yet, and the field initialiser makes the record active. */
  function NewFileRecord(originalName: string, storedName: string, filePath: string, fileSize: nat,
                         fileType: Option<string>, category: FileCategory, uploadedBy: int,
                         built: Stamps): (r: FileRecord)
    ensures r.originalName == originalName && r.storedName == storedName && r.filePath == filePath
    ensures r.fileSize == fileSize && r.fileType == fileType && r.category == category
    ensures r.uploadedBy == uploadedBy
    ensures r.createdAt == built.created && r.updatedAt == built.updated
    ensures r.id.None? && r.description.None? && r.isActive
  {
    FileRecord(None, originalName, storedName, filePath, fileSize, fileType, category, uploadedBy,
               built.created, built.updated, None, true)
  }

  /** The `@PrePersist` hook: each timestamp becomes a fresh clock reading of
      its own, overwriting what the constructor stored; nothing else moves. */
  function OnCreate(r: FileRecord, at: Stamps): (r': FileRecord)
    ensures r'.createdAt == at.created && r'.updatedAt == at.updated
    ensures r'.(createdAt := r.createdAt, updatedAt := r.updatedAt) == r
  {
    r.(createdAt := at.created, updatedAt := at.updated)
  }

  /** The bean validation JPA runs before every insert and every update of a
      changed record: `originalName`, `storedName` and `filePath` carry
      `@NotBlank`, which keeps a string only if something is left after
      `trim`. */
  predicate PassesNotBlank(r: FileRecord) {
    && !TrimsToEmpty(r.originalName)
    && !TrimsToEmpty(r.storedName)
    && !TrimsToEmpty(r.filePath)
  }

  /** What saving a loaded record writes back. The `@PreUpdate` hook refreshes
      `updatedAt` only, and the persistence provider calls it only for a record
      that changed since it was loaded. */
  function Flush(loaded: FileRecord, current: FileRecord, now: LocalDateTime): (r: FileRecord)
    ensures r.(updatedAt := current.updatedAt) == current
    ensures current == loaded ==> r == loaded
    ensures current != loaded ==> r.updatedAt == now
  {
    if current == loaded then loaded else current.(updatedAt := now)
  }
}

=== FILE: file_repository.dfy ===
/** `FileRecordRepository`: the `file_records` table as a sequence of rows, and
    each derived query as a filter, an optional newest-first sort and an
    optional page. Owners are compared by user id. */
module FileRecordRepository {
  import opened Wrappers
  import opened JavaText
  import opened Clock
  import opened Queries
  import opened FileRecordEntity

  /** The rows in insertion order and the next identity value. */
  datatype FileTable = FileTable(rows: seq<FileRecord>, nextId: int)

  const EmptyTable: FileTable := FileTable([], 1)

  /** Saved rows have positive identity ids below the next one to be issued;
      ids and stored names are unique (the latter is the column's unique
      constraint). */
  predicate Valid(t: FileTable) {
    && t.nextId >= 1
    && (forall i :: 0 <= i < |t.rows| ==> t.rows[i].id.Some? && 1 <= t.rows[i].id.value < t.nextId)
    && (forall i, j :: 0 <= i < j < |t.rows| ==>
          t.rows[i].id != t.rows[j].id && t.rows[i].storedName != t.rows[j].storedName)
  }

  function CreatedKey(r: FileRecord): int {
    Key(r.createdAt)
  }

  function OwnedActive(user: int): FileRecord -> bool {
    (r: FileRecord) => r.uploadedBy == user && r.isActive
  }

  function OwnedActiveIn(user: int, category: FileCategory): FileRecord -> bool {
    (r: FileRecord) => r.uploadedBy == user && r.category == category && r.isActive
  }

  function Active(r: FileRecord): bool {
    r.isActive
  }

  function ActiveIn(category: FileCategory): FileRecord -> bool {
    (r: FileRecord) => r.category == category && r.isActive
  }

  function ActiveOfType(fileType: string): FileRecord -> bool {
    (r: FileRecord) => r.fileType == Some(fileType) && r.isActive
  }

  function ActiveNamed(filename: string): FileRecord -> bool {
    (r: FileRecord) => Contains(r.originalName, filename) && r.isActive
  }

  function OwnedActiveNamed(user: int, filename: string): FileRecord -> bool {
    (r: FileRecord) => r.uploadedBy == user && Contains(r.originalName, filename) && r.isActive
  }

  function ActiveCreatedBetween(startDate: LocalDateTime, endDate: LocalDateTime): FileRecord -> bool {
    (r: FileRecord) => Key(startDate) <= Key(r.createdAt) <= Key(endDate) && r.isActive
  }

  function FileSize(r: FileRecord): int {
    r.fileSize
  }

  /** `findByStoredNameAndIsActiveTrue`. */
  function FindByStoredNameAndIsActiveTrue(t: FileTable, storedName: string): (r: Option<FileRecord>)
    ensures r.Some? ==> r.value in t.rows && r.value.storedName == storedName && r.value.isActive
    ensures r.None? <==> forall x :: x in t.rows ==> !(x.storedName == storedName && x.isActive)
  {
    match FindFirst(t.rows, (x: FileRecord) => x.storedName == storedName && x.isActive)
    case Some(i) => Some(t.rows[i])
    case None => None
  }

  /** `findByUploadedByAndIsActiveTrueOrderByCreatedAtDesc(user)`: exactly the
      owner's active rows, newest first. */
  function FindByUploadedByAndIsActiveTrueOrderByCreatedAtDesc(t: FileTable, user: int): (r: seq<FileRecord>)
    ensures forall x :: x in r <==> x in t.rows && x.uploadedBy == user && x.isActive
    ensures multiset(r) == multiset(Filter(t.rows, OwnedActive(user)))
    ensures SortedDesc(r, CreatedKey)
    ensures |r| == CountByUploadedByAndIsActiveTrue(t, user)
  {
    Select(t.rows, OwnedActive(user), CreatedKey)
  }

  /** The pageable overload: one page of the list above. */
  function FindByUploadedByAndIsActiveTrueOrderByCreatedAtDescPaged(t: FileTable, user: int, pageable: Pageable): (r: seq<FileRecord>)
    ensures IsPage(r, FindByUploadedByAndIsActiveTrueOrderByCreatedAtDesc(t, user), pageable)
    ensures |r| <= pageable.size
    ensures forall x :: x in r ==> x in t.rows && x.uploadedBy == user && x.isActive
    ensures SortedDesc(r, CreatedKey)
  {
    var all := FindByUploadedByAndIsActiveTrueOrderByCreatedAtDesc(t, user);
    PageOfSorted(all, pageable, CreatedKey);
    Page(all, pageable)
  }

  /** `findByCategoryAndIsActiveTrueOrderByCreatedAtDesc`: every owner. */
  function FindByCategoryAndIsActiveTrueOrderByCreatedAtDesc(t: FileTable, category: FileCategory): (r: seq<FileRecord>)
    ensures forall x :: x in r <==> x in t.rows && x.category == category && x.isActive
    ensures multiset(r) == multiset(Filter(t.rows, ActiveIn(category)))
    ensures SortedDesc(r, CreatedKey)
  {
    Select(t.rows, ActiveIn(category), CreatedKey)
  }

  /** `findByUploadedByAndCategoryAndIsActiveTrueOrderByCreatedAtDesc`. */
  function FindByUploadedByAndCategoryAndIsActiveTrueOrderByCreatedAtDesc(t: FileTable, user: int, category: FileCategory): (r: seq<FileRecord>)
    ensures forall x :: x in r <==> x in t.rows && x.uploadedBy == user && x.category == category && x.isActive
    ensures multiset(r) == multiset(Filter(t.rows, OwnedActiveIn(user, category)))
    ensures SortedDesc(r, CreatedKey)
    ensures |r| == CountByUploadedByAndCategoryAndIsActiveTrue(t, user, category)
  {
    Select(t.rows, OwnedActiveIn(user, category), CreatedKey)
  }

  /** `findByFileTypeAndIsActiveTrueOrderByCreatedAtDesc`. */
  function FindByFileTypeAndIsActiveTrueOrderByCreatedAtDesc(t: FileTable, fileType: string): (r: seq<FileRecord>)
    ensures forall x :: x in r <==> x in t.rows && x.fileType == Some(fileType) && x.isActive
    ensures multiset(r) == multiset(Filter(t.rows, ActiveOfType(fileType)))
    ensures SortedDesc(r, CreatedKey)
  {
    Select(t.rows, ActiveOfType(fileType), CreatedKey)
  }

  /** `findByOriginalNameContaining`: active rows of every owner whose original
      name contains `filename`, newest first. */
  function FindByOriginalNameContaining(t: FileTable, filename: string): (r: seq<FileRecord>)
    ensures forall x :: x in r <==> x in t.rows && Contains(x.originalName, filename) && x.isActive
    ensures multiset(r) == multiset(Filter(t.rows, ActiveNamed(filename)))
    ensures SortedDesc(r, CreatedKey)
  {
    Select(t.rows, ActiveNamed(filename), CreatedKey)
  }

  /** `findByUploadedByAndOriginalNameContaining`: the same, for one owner. */
  function FindByUploadedByAndOriginalNameContaining(t: FileTable, user: int, filename: string): (r: seq<FileRecord>)
    ensures forall x :: x in r <==>
              x in t.rows && x.uploadedBy == user && Contains(x.originalName, filename) && x.isActive
    ensures multiset(r) == multiset(Filter(t.rows, OwnedActiveNamed(user, filename)))
    ensures SortedDesc(r, CreatedKey)
  {
    Select(t.rows, OwnedActiveNamed(user, filename), CreatedKey)
  }

  /** `findByCreatedAtBetween`: SQL BETWEEN includes both ends. */
  function FindByCreatedAtBetween(t: FileTable, startDate: LocalDateTime, endDate: LocalDateTime): (r: seq<FileRecord>)
    ensures forall x :: x in r <==>
              x in t.rows && Key(startDate) <= Key(x.createdAt) <= Key(endDate) && x.isActive
    ensures multiset(r) == multiset(Filter(t.rows, ActiveCreatedBetween(startDate, endDate)))
    ensures SortedDesc(r, CreatedKey)
  {
    Select(t.rows, ActiveCreatedBetween(startDate, endDate), CreatedKey)
  }

  /** `countByUploadedByAndIsActiveTrue`. */
  function CountByUploadedByAndIsActiveTrue(t: FileTable, user: int): (r: nat)
    ensures r == |Filter(t.rows, OwnedActive(user))|
    ensures r <= |t.rows|
    ensures r == 0 <==> forall x :: x in t.rows ==> !(x.uploadedBy == user && x.isActive)
  {
    Count(t.rows, OwnedActive(user))
  }

  /** `countByUploadedByAndCategoryAndIsActiveTrue`. */
  function CountByUploadedByAndCategoryAndIsActiveTrue(t: FileTable, user: int, category: FileCategory): (r: nat)
    ensures r == |Filter(t.rows, OwnedActiveIn(user, category))|
    ensures r <= CountByUploadedByAndIsActiveTrue(t, user)
    ensures r == 0 <==> forall x :: x in t.rows ==> !(x.uploadedBy == user && x.category == category && x.isActive)
  {
    CountMonotone(t.rows, OwnedActive(user), OwnedActiveIn(user, category));
    Count(t.rows, OwnedActiveIn(user, category))
  }

  /** `sumFileSizeByUser`: `COALESCE(SUM(fileSize), 0)` over the owner's active rows. */
  function SumFileSizeByUser(t: FileTable, user: int): (r: int)
    ensures r == SumBy(Filter(t.rows, OwnedActive(user)), FileSize)
    ensures r >= 0
    ensures CountByUploadedByAndIsActiveTrue(t, user) == 0 ==> r == 0
    ensures forall x :: x in t.rows && x.uploadedBy == user && x.isActive ==> x.fileSize <= r
  {
    var owned := Filter(t.rows, OwnedActive(user));
    SumByNonNegative(owned, FileSize);
    SumBoundsEach(owned);
    SumBy(owned, FileSize)
  }

  lemma {:induction false} SumBoundsEach(xs: seq<FileRecord>)
    ensures forall x :: x in xs ==> x.fileSize <= SumBy(xs, FileSize)
  {
    if |xs| > 0 {
      SumBoundsEach(xs[1..]);
      SumByNonNegative(xs[1..], FileSize);
      forall x | x in xs
        ensures x.fileSize <= SumBy(xs, FileSize)
      {
        if x != xs[0] {
          assert x in xs[1..];
        }
      }
    }
  }

  /** Every owner's active rows, newest first: the listing the admin pages
      through. */
  function ActiveNewestFirst(t: FileTable): (r: seq<FileRecord>)
    ensures forall x :: x in r <==> x in t.rows && x.isActive
    ensures multiset(r) == multiset(Filter(t.rows, Active))
    ensures SortedDesc(r, CreatedKey)
  {
    Select(t.rows, Active, CreatedKey)
  }

  /** `findByIsActiveTrueOrderByCreatedAtDesc(pageable)`: the admin listing,
      one page of every owner's active rows, newest first. */
  function FindByIsActiveTrueOrderByCreatedAtDesc(t: FileTable, pageable: Pageable): (r: seq<FileRecord>)
    ensures IsPage(r, ActiveNewestFirst(t), pageable)
    ensures |r| <= pageable.size
    ensures forall x :: x in r ==> x in t.rows && x.isActive
    ensures SortedDesc(r, CreatedKey)
    ensures pageable.page == 0 && pageable.size >= |t.rows| ==>
              forall x :: x in t.rows && x.isActive ==> x in r
  {
    var all := ActiveNewestFirst(t);
    PageOfSorted(all, pageable, CreatedKey);
    if pageable.page == 0 && pageable.size >= |t.rows| then
      PageWhole(all, pageable);
      Page(all, pageable)
    else
      Page(all, pageable)
  }

  /** `findByIdAndUploadedByAndIsActiveTrue`: the position of the row with this
      id, this owner and the active flag set. */
  function FindByIdAndUploadedByAndIsActiveTrue(t: FileTable, id: int, user: int): (r: Option<nat>)
    ensures r.Some? ==> r.value < |t.rows| && t.rows[r.value].id == Some(id)
                        && t.rows[r.value].uploadedBy == user && t.rows[r.value].isActive
    ensures r.None? <==> forall k :: 0 <= k < |t.rows| ==>
                          !(t.rows[k].id == Some(id) && t.rows[k].uploadedBy == user && t.rows[k].isActive)
  {
    FindFirst(t.rows, (x: FileRecord) => x.id == Some(id) && x.uploadedBy == user && x.isActive)
  }

  /** `findByIdAndIsActiveTrue`, which the admin paths call: id and active flag
      only. */
  function FindByIdAndIsActiveTrue(t: FileTable, id: int): (r: Option<nat>)
    ensures r.Some? ==> r.value < |t.rows| && t.rows[r.value].id == Some(id) && t.rows[r.value].isActive
    ensures r.None? <==> forall k :: 0 <= k < |t.rows| ==> !(t.rows[k].id == Some(id) && t.rows[k].isActive)
  {
    FindFirst(t.rows, (x: FileRecord) => x.id == Some(id) && x.isActive)
  }

  /** `save` of a new record: the `@PrePersist` hook runs, the row gets the next
      identity value, and a stored name already in the table violates the
      unique constraint. */
  function Insert(t: FileTable, record: FileRecord, at: Stamps): (r: Result<(FileTable, FileRecord), ()>)
    ensures r.Err? <==> exists x :: x in t.rows && x.storedName == record.storedName
    ensures r.Ok? ==> r.value.1 == OnCreate(record, at).(id := Some(t.nextId))
    ensures r.Ok? ==> r.value.0 == FileTable(t.rows + [r.value.1], t.nextId + 1)
    ensures r.Ok? && Valid(t) ==> Valid(r.value.0)
  {
    if exists x :: x in t.rows && x.storedName == record.storedName then Err(())
    else
      var saved := OnCreate(record, at).(id := Some(t.nextId));
      Ok((FileTable(t.rows + [saved], t.nextId + 1), saved))
  }

  /** `save` of the loaded row at position `i`, now holding `current`: what the
      flush writes replaces that row and no other. */
  function SaveAt(t: FileTable, i: nat, current: FileRecord, now: LocalDateTime): (r: FileTable)
    requires i < |t.rows|
    ensures |r.rows| == |t.rows| && r.nextId == t.nextId
    ensures r.rows[i] == Flush(t.rows[i], current, now)
    ensures forall k :: 0 <= k < |t.rows| && k != i ==> r.rows[k] == t.rows[k]
    ensures Valid(t) && current.id == t.rows[i].id && current.storedName == t.rows[i].storedName ==> Valid(r)
  {
    t.(rows := t.rows[i := Flush(t.rows[i], current, now)])
  }
}

=== FILE: file_service.dfy ===
/** `FileService`: upload with validation, classification and naming;
    owner-scoped download, info and soft delete with their admin variants;
    listings and per-owner statistics. The clock, the UUID, the disk and the
    outcome of writing the bytes are parameters. */
module FileService {
  import opened Wrappers
  import opened JavaText
  import opened Clock
  import opened Queries
  import opened UploadRules
  import opened FileRecordEntity
  import opened FileRecordRepository

  const DocumentExtensions: seq<string> := [".pdf", ".doc", ".docx"]
  const VideoExtensions: seq<string> := [".mp4", ".avi", ".mov", ".wmv", ".flv", ".mkv"]
  const ImageExtensions: seq<string> := [".jpg", ".jpeg", ".png", ".gif", ".bmp", ".webp"]
  const AllowedExtensions: seq<string> := DocumentExtensions + VideoExtensions + ImageExtensions

  /** The formats the unsupported-type message advertises. */
  const SupportedFormats: string := "PDF, DOC, DOCX, MP4, AVI, MOV, WMV, FLV, MKV, JPG, JPEG, PNG, GIF, BMP, WEBP"

  const UploadFailed: string := "文件上传失败: "
  const DownloadFailed: string := "文件下载失败: "
  const NotFoundOrNoAccess: string := "文件不存在或无权限访问"
  const NotFoundOrNoDelete: string := "文件不存在或无权限删除"
  const NotFound: string := "文件不存在"
  const FileMissing: string := "文件不存在: "
  const FileUnreadable: string := "无法读取文件: "

  /** `isAllowedFileType`: the lower-cased extension is on one of the three lists. */
  function IsAllowedFileType(filename: string): (r: bool)
    ensures r <==> ToLower(Extension(filename)) in AllowedExtensions
    ensures r ==> |Extension(filename)| >= 4
  {
    ExtensionIn(filename, DocumentExtensions) || ExtensionIn(filename, VideoExtensions)
      || ExtensionIn(filename, ImageExtensions)
  }

  /** `determineFileCategory`: the list the lower-cased extension is on, or OTHER. */
  function DetermineFileCategory(filename: string): (r: FileCategory)
    ensures r == DOCUMENT <==> ToLower(Extension(filename)) in DocumentExtensions
    ensures r == VIDEO <==> ToLower(Extension(filename)) in VideoExtensions
    ensures r == IMAGE <==> ToLower(Extension(filename)) in ImageExtensions
    ensures r == OTHER <==> !IsAllowedFileType(filename)
  {
    ExtensionListsDisjoint();
    if ExtensionIn(filename, DocumentExtensions) then DOCUMENT
    else if ExtensionIn(filename, VideoExtensions) then VIDEO
    else if ExtensionIn(filename, ImageExtensions) then IMAGE
    else OTHER
  }

  /** No extension is on two lists, so the order of the checks does not matter. */
  lemma ExtensionListsDisjoint()
    ensures forall e :: e in DocumentExtensions ==> e !in VideoExtensions && e !in ImageExtensions
    ensures forall e :: e in VideoExtensions ==> e !in ImageExtensions
  {
  }

  /** `validateFile` with this service's allow-list. */
  function ValidateFile(cfg: Config, file: MultipartFile): Result<string, ValidationError> {
    Validate(file, cfg.maxFileSize, AllowedExtensions)
  }

  /** A file that passes validation is never classified OTHER, and a name with
      no extension never passes. */
  lemma ValidatedNeverOther(cfg: Config, file: MultipartFile)
    ensures ValidateFile(cfg, file).Ok? ==> DetermineFileCategory(ValidateFile(cfg, file).value) != OTHER
    ensures file.originalFilename.Some? && Extension(file.originalFilename.value) == [] ==>
              ValidateFile(cfg, file).Err?
  {
  }

  /** The size limit is inclusive: a well-named file of exactly `maxFileSize`
      bytes passes, one byte more is rejected as too large. */
  lemma SizeLimitIsInclusive(cfg: Config, name: string, contentType: Option<string>)
    requires cfg.maxFileSize > 0
    requires HasText(Some(name)) && IsAllowedFileType(name)
    ensures ValidateFile(cfg, MultipartFile(Some(name), cfg.maxFileSize, contentType)) == Ok(name)
    ensures ValidateFile(cfg, MultipartFile(Some(name), cfg.maxFileSize + 1, contentType)).Err?
    ensures ValidateFile(cfg, MultipartFile(Some(name), cfg.maxFileSize + 1, contentType)).error.FileTooLarge?
  {
  }

  /** `createUploadDirectory`: the upload root joined with the category's name
      in lower case. */
  function CategoryDirectory(uploadDir: string, category: FileCategory): (r: string)
    ensures r == JoinPath(uploadDir, CategoryFolder(category))
  {
    LowerCategoryName(category);
    JoinPath(uploadDir, ToLower(CategoryName(category)))
  }

  function CategoryFolder(category: FileCategory): string {
    match category
    case DOCUMENT => "document"
    case VIDEO => "video"
    case IMAGE => "image"
    case OTHER => "other"
  }

  /** The enum names lower-case to the four folder names. */
  lemma LowerCategoryName(category: FileCategory)
    ensures ToLower(CategoryName(category)) == CategoryFolder(category)
  {
    var name := CategoryName(category);
    var folder := CategoryFolder(category);
    forall i | 0 <= i < |name|
      ensures ToLower(name)[i] == folder[i]
    {
      assert ToLower(name)[i] == LowerChar(name[i]);
    }
  }

  /** `generateDownloadUrl`. */
  function FileDownloadUrl(cfg: Config, id: Option<int>): (r: string)
    ensures id.Some? ==> ParseDownloadUrl(r, cfg.serverPort, "files") == id
  {
    if id.Some? then
      DownloadUrlRoundTrip(cfg.serverPort, "files", id.value);
      DownloadUrl(cfg.serverPort, "files", id)
    else
      DownloadUrl(cfg.serverPort, "files", id)
  }

  type FileView = View<FileRecord>


  /** The stored name and path an accepted upload gets. */
  function StoredPath(cfg: Config, name: string, env: UploadEnv): string {
    JoinPath(CategoryDirectory(cfg.uploadDir, DetermineFileCategory(name)), StoredName("", env.now, env.uuid, name))
  }

  /** `uploadFile`. Every failure, validation included, surfaces as one
      exception whose message starts with the upload prefix. */
  function UploadFile(cfg: Config, t: FileTable, file: MultipartFile, description: Option<string>,
                      user: int, env: UploadEnv): (r: Result<(FileTable, FileView), string>)
    ensures r.Err? ==> StartsWith(r.error, UploadFailed)
    ensures ValidateFile(cfg, file).Err? ==>
              r == Err(UploadFailed + ValidationMessage(ValidateFile(cfg, file).error, SupportedFormats))
    ensures r.Ok? <==>
              && ValidateFile(cfg, file).Ok?
              && env.writeError.None?
              && forall x :: x in t.rows ==> x.storedName != StoredName("", env.now, env.uuid, file.originalFilename.value)
    ensures r.Ok? ==>
              && Some(r.value.1.record.originalName) == file.originalFilename
              && Saved(cfg, t, r.value, file.size, file.contentType, description, user,
                       DetermineFileCategory(r.value.1.record.originalName), env)
    ensures r.Ok? && Valid(t) ==> Valid(r.value.0)
  {
    match ValidateFile(cfg, file)
    case Err(e) => PrefixStarts(UploadFailed, ValidationMessage(e, SupportedFormats));
      Err(UploadFailed + ValidationMessage(e, SupportedFormats))
    case Ok(name) =>
      ExtensionNotBlank(name);
      SaveUpload(cfg, t, name, DetermineFileCategory(name), file.size, file.contentType, description, user, env)
  }

  /** What a successful upload of `size` bytes named `saved.originalName`
      leaves: the table gains exactly the new row, which carries the request's
      fields, the next id, the category it was filed under, a stored name
      built from the clock and the UUID, a path in that category's directory,
      and a URL naming its id. */
  ghost predicate Saved(cfg: Config, t: FileTable, result: (FileTable, FileView), size: nat,
                        contentType: Option<string>, description: Option<string>, user: int,
                        category: FileCategory, env: UploadEnv) {
    var saved := result.1.record;
    && result.0.rows == t.rows + [saved]
    && result.0.nextId == t.nextId + 1
    && saved.id == Some(t.nextId)
    && saved.fileSize == size && saved.fileType == contentType
    && saved.uploadedBy == user && saved.description == description && saved.isActive
    && saved.createdAt == env.persisted.created && saved.updatedAt == env.persisted.updated
    && saved.category == category
    && saved.storedName == StoredName("", env.now, env.uuid, saved.originalName)
    && saved.filePath == JoinPath(CategoryDirectory(cfg.uploadDir, category), saved.storedName)
    && result.1.downloadUrl == FileDownloadUrl(cfg, Some(t.nextId))
    && ParseDownloadUrl(result.1.downloadUrl, cfg.serverPort, "files") == Some(t.nextId)
  }

  /** The part of `uploadFile` after validation and classification: write the
      bytes, then insert the row. */
  function SaveUpload(cfg: Config, t: FileTable, name: string, category: FileCategory, size: nat,
                      contentType: Option<string>, description: Option<string>, user: int,
                      env: UploadEnv): (r: Result<(FileTable, FileView), string>)
    ensures r.Err? ==> StartsWith(r.error, UploadFailed)
    ensures r.Ok? <==>
              && env.writeError.None? && !TrimsToEmpty(name)
              && forall x :: x in t.rows ==> x.storedName != StoredName("", env.now, env.uuid, name)
    ensures env.writeError.None? && TrimsToEmpty(name) ==> r == Err(UploadFailed + env.validationError)
    ensures r.Ok? ==> r.value.1.record.originalName == name
                      && Saved(cfg, t, r.value, size, contentType, description, user, category, env)
    ensures r.Ok? && Valid(t) ==> Valid(r.value.0)
  {
    var storedName := StoredName("", env.now, env.uuid, name);
    var filePath := JoinPath(CategoryDirectory(cfg.uploadDir, category), storedName);
    if env.writeError.Some? then
      PrefixStarts(UploadFailed, env.writeError.value);
      Err(UploadFailed + env.writeError.value)
    else
      var record := NewFileRecord(name, storedName, filePath, size, contentType, category, user, env.built)
                      .(description := description);
      StoredNameNotBlank("", env.now, env.uuid, name);
      JoinedNotBlank(CategoryDirectory(cfg.uploadDir, category), storedName);
      InsertUpload(cfg, t, record, env)
  }

  /** The insert step of an upload: bean validation first, then the insert,
      where a stored name already in the table fails; both failures carry the
      upload prefix. A saved row is paired with its URL. */
  function InsertUpload(cfg: Config, t: FileTable, record: FileRecord, env: UploadEnv): (r: Result<(FileTable, FileView), string>)
    ensures r.Err? ==> StartsWith(r.error, UploadFailed)
    ensures !PassesNotBlank(record) ==> r == Err(UploadFailed + env.validationError)
    ensures r.Ok? <==> PassesNotBlank(record) && forall x :: x in t.rows ==> x.storedName != record.storedName
    ensures r.Ok? ==> && r.value.1.record == OnCreate(record, env.persisted).(id := Some(t.nextId))
                      && r.value.0 == FileTable(t.rows + [r.value.1.record], t.nextId + 1)
                      && r.value.1.downloadUrl == FileDownloadUrl(cfg, Some(t.nextId))
                      && ParseDownloadUrl(r.value.1.downloadUrl, cfg.serverPort, "files") == Some(t.nextId)
    ensures r.Ok? && Valid(t) ==> Valid(r.value.0)
  {
    if !PassesNotBlank(record) then
      PrefixStarts(UploadFailed, env.validationError);
      Err(UploadFailed + env.validationError)
    else
      match Insert(t, record, env.persisted)
      case Err(_) =>
        PrefixStarts(UploadFailed, env.constraintError);
        Err(UploadFailed + env.constraintError)
      case Ok(saved) => Ok((saved.0, View(saved.1, FileDownloadUrl(cfg, saved.1.id))))
  }

  /** No allowed extension holds a path separator. */
  lemma AllowedExtensionsHaveNoSeparator()
    ensures forall a :: a in AllowedExtensions ==> NoSeparator(a)
  {
    forall a | a in AllowedExtensions
      ensures NoSeparator(a)
    {
      assert a in DocumentExtensions || a in VideoExtensions || a in ImageExtensions;
    }
  }

  /** The category depends on the extension alone. */
  lemma CategoryByExtension(a: string, b: string)
    requires Extension(a) == Extension(b)
    ensures DetermineFileCategory(a) == DetermineFileCategory(b)
  {
  }

  /** The stored name of an allowed file: 24 characters plus the extension, no
      path separator, and the same extension, hence the same category, as the
      original. */
  lemma StoredFileName(name: string, env: UploadEnv)
    requires IsAllowedFileType(name)
    ensures var stored := StoredName("", env.now, env.uuid, name);
            && |stored| == 24 + |Extension(name)|
            && NoSeparator(stored)
            && Extension(stored) == Extension(name)
            && DetermineFileCategory(stored) == DetermineFileCategory(name)
  {
    var stored := StoredName("", env.now, env.uuid, name);
    AllowedExtensionsHaveNoSeparator();
    StoredNameHasNoSeparator("", env.now, env.uuid, name, AllowedExtensions);
    StoredNameKeepsExtension("", env.now, env.uuid, name);
    CategoryByExtension(stored, name);
  }

  /** What an accepted upload stores: a known category, a stored name as above,
      and a path directly inside the category directory. */
  lemma UploadedRecordShape(cfg: Config, t: FileTable, file: MultipartFile, description: Option<string>,
                            user: int, env: UploadEnv)
    requires UploadFile(cfg, t, file, description, user, env).Ok?
    ensures var saved := UploadFile(cfg, t, file, description, user, env).value.1.record;
            && saved.category != OTHER
            && |saved.storedName| == 24 + |Extension(saved.originalName)|
            && NoSeparator(saved.storedName)
            && DetermineFileCategory(saved.storedName) == saved.category
            && StartsWith(saved.filePath, CategoryDirectory(cfg.uploadDir, saved.category) + "/")
  {
    var saved := UploadFile(cfg, t, file, description, user, env).value.1.record;
    var name := saved.originalName;
    assert ValidateFile(cfg, file).Ok?;
    ValidatedNeverOther(cfg, file);
    assert IsAllowedFileType(name);
    StoredFileName(name, env);
    var dir := CategoryDirectory(cfg.uploadDir, saved.category);
    assert |dir| >= |CategoryFolder(saved.category)| > 0;
  }

  /** `downloadFile`: the owner's active row, then the blob. Every failure is
      rethrown with the download prefix. */
  function DownloadFile(t: FileTable, id: int, user: int, blobAt: string -> BlobState): (r: Result<FileRecord, string>)
    ensures r.Err? ==> StartsWith(r.error, DownloadFailed)
    ensures FindByIdAndUploadedByAndIsActiveTrue(t, id, user).None? ==> r == Err(DownloadFailed + NotFoundOrNoAccess)
    ensures r.Ok? ==> r.value in t.rows && r.value.id == Some(id) && r.value.uploadedBy == user
                      && r.value.isActive && blobAt(r.value.filePath) == Readable
    ensures Valid(t) ==>
              forall k :: 0 <= k < |t.rows| && t.rows[k].id == Some(id) && t.rows[k].uploadedBy == user && t.rows[k].isActive
                ==> (r.Ok? <==> blobAt(t.rows[k].filePath) == Readable)
    ensures FindByIdAndUploadedByAndIsActiveTrue(t, id, user).Some? ==>
              var x := t.rows[FindByIdAndUploadedByAndIsActiveTrue(t, id, user).value];
              && (blobAt(x.filePath) == Missing ==> r == Err(DownloadFailed + FileMissing + x.originalName))
              && (blobAt(x.filePath) == Unreadable ==> r == Err(DownloadFailed + FileUnreadable + x.originalName))
  {
    match FindByIdAndUploadedByAndIsActiveTrue(t, id, user)
    case None => Err(DownloadFailed + NotFoundOrNoAccess)
    case Some(i) =>
      var record := t.rows[i];
      match blobAt(record.filePath)
      case Missing => Err(DownloadFailed + FileMissing + record.originalName)
      case Unreadable => Err(DownloadFailed + FileUnreadable + record.originalName)
      case Readable => Ok(record)
  }

  /** `downloadFileAsAdmin`: any owner's active row. Its blob failures escape the
      `IOException` handler, so they carry no prefix. */
  function DownloadFileAsAdmin(t: FileTable, id: int, blobAt: string -> BlobState): (r: Result<FileRecord, string>)
    ensures FindByIdAndIsActiveTrue(t, id).None? ==> r == Err(NotFound)
    ensures r.Ok? ==> r.value in t.rows && r.value.id == Some(id) && r.value.isActive
                      && blobAt(r.value.filePath) == Readable
    ensures Valid(t) ==> forall k :: 0 <= k < |t.rows| && t.rows[k].id == Some(id) && t.rows[k].isActive ==>
                                     (r.Ok? <==> blobAt(t.rows[k].filePath) == Readable)
    ensures FindByIdAndIsActiveTrue(t, id).Some? ==>
              var x := t.rows[FindByIdAndIsActiveTrue(t, id).value];
              && (blobAt(x.filePath) == Missing ==> r == Err(FileMissing + x.originalName))
              && (blobAt(x.filePath) == Unreadable ==> r == Err(FileUnreadable + x.originalName))
  {
    match FindByIdAndIsActiveTrue(t, id)
    case None => Err(NotFound)
    case Some(i) =>
      var record := t.rows[i];
      match blobAt(record.filePath)
      case Missing => Err(FileMissing + record.originalName)
      case Unreadable => Err(FileUnreadable + record.originalName)
      case Readable => Ok(record)
  }

  /** `getFileInfo`: the owner's active row with its URL. */
  function GetFileInfo(cfg: Config, t: FileTable, id: int, user: int): (r: Result<FileView, string>)
    ensures r.Err? <==> FindByIdAndUploadedByAndIsActiveTrue(t, id, user).None?
    ensures r.Err? ==> r.error == NotFoundOrNoAccess
    ensures r.Ok? ==> r.value.record in t.rows && r.value.record.id == Some(id)
                      && r.value.record.uploadedBy == user && r.value.record.isActive
                      && ParseDownloadUrl(r.value.downloadUrl, cfg.serverPort, "files") == Some(id)
                      && r.value.downloadUrl == FileDownloadUrl(cfg, Some(id))
  {
    match FindByIdAndUploadedByAndIsActiveTrue(t, id, user)
    case None => Err(NotFoundOrNoAccess)
    case Some(i) => Ok(View(t.rows[i], FileDownloadUrl(cfg, t.rows[i].id)))
  }

  /** `getFileInfoAsAdmin`: any owner's active row with its URL. */
  function GetFileInfoAsAdmin(cfg: Config, t: FileTable, id: int): (r: Result<FileView, string>)
    ensures r.Err? <==> FindByIdAndIsActiveTrue(t, id).None?
    ensures r.Err? ==> r.error == NotFound
    ensures r.Ok? ==> r.value.record in t.rows && r.value.record.id == Some(id) && r.value.record.isActive
                      && ParseDownloadUrl(r.value.downloadUrl, cfg.serverPort, "files") == Some(id)
                      && r.value.downloadUrl == FileDownloadUrl(cfg, Some(id))
  {
    match FindByIdAndIsActiveTrue(t, id)
    case None => Err(NotFound)
    case Some(i) => Ok(View(t.rows[i], FileDownloadUrl(cfg, t.rows[i].id)))
  }

  /** `deleteFile`: soft delete of the owner's active row. The row becomes
      inactive with `updatedAt` refreshed; no other field and no other row
      changes. */
  function DeleteFile(t: FileTable, id: int, user: int, now: LocalDateTime): (r: Result<FileTable, string>)
    ensures r.Err? <==> FindByIdAndUploadedByAndIsActiveTrue(t, id, user).None?
    ensures r.Err? ==> r.error == NotFoundOrNoDelete
    ensures r.Ok? ==>
              var i := FindByIdAndUploadedByAndIsActiveTrue(t, id, user).value;
              && |r.value.rows| == |t.rows| && r.value.nextId == t.nextId
              && r.value.rows[i] == t.rows[i].(isActive := false, updatedAt := now)
              && forall k :: 0 <= k < |t.rows| && k != i ==> r.value.rows[k] == t.rows[k]
    ensures r.Ok? && Valid(t) ==> Valid(r.value)
  {
    match FindByIdAndUploadedByAndIsActiveTrue(t, id, user)
    case None => Err(NotFoundOrNoDelete)
    case Some(i) => Ok(SaveAt(t, i, t.rows[i].(isActive := false, updatedAt := now), now))
  }

  /** `deleteFileAsAdmin`: the same soft delete on any owner's active row. */
  function DeleteFileAsAdmin(t: FileTable, id: int, now: LocalDateTime): (r: Result<FileTable, string>)
    ensures r.Err? <==> FindByIdAndIsActiveTrue(t, id).None?
    ensures r.Err? ==> r.error == NotFound
    ensures r.Ok? ==>
              var i := FindByIdAndIsActiveTrue(t, id).value;
              && |r.value.rows| == |t.rows| && r.value.nextId == t.nextId
              && r.value.rows[i] == t.rows[i].(isActive := false, updatedAt := now)
              && forall k :: 0 <= k < |t.rows| && k != i ==> r.value.rows[k] == t.rows[k]
    ensures r.Ok? && Valid(t) ==> Valid(r.value)
  {
    match FindByIdAndIsActiveTrue(t, id)
    case None => Err(NotFound)
    case Some(i) => Ok(SaveAt(t, i, t.rows[i].(isActive := false, updatedAt := now), now))
  }

  /** After a soft delete the row is gone for its owner: a second delete, a
      download and an info lookup of the same id all fail, and the owner's
      list no longer shows it. */
  lemma DeleteHidesRow(t: FileTable, id: int, user: int, now: LocalDateTime, later: LocalDateTime,
                       blobAt: string -> BlobState)
    requires Valid(t)
    requires DeleteFile(t, id, user, now).Ok?
    ensures var t' := DeleteFile(t, id, user, now).value;
            && DeleteFile(t', id, user, later) == Err(NotFoundOrNoDelete)
            && DownloadFile(t', id, user, blobAt) == Err(DownloadFailed + NotFoundOrNoAccess)
            && forall x :: x in FindByUploadedByAndIsActiveTrueOrderByCreatedAtDesc(t', user) ==> x.id != Some(id)
  {
    var t' := DeleteFile(t, id, user, now).value;
    var i := FindByIdAndUploadedByAndIsActiveTrue(t, id, user).value;
    forall k | 0 <= k < |t'.rows| && t'.rows[k].id == Some(id)
      ensures !t'.rows[k].isActive
    {
    }
  }

  /** A row that belongs to someone else, or is inactive, is indistinguishable
      through the owner-scoped paths from an id that no row has. */
  lemma NoExistenceLeak(cfg: Config, t: FileTable, id: int, absent: int, user: int, now: LocalDateTime,
                        blobAt: string -> BlobState)
    requires forall x :: x in t.rows ==> x.id != Some(absent)
    requires forall x :: x in t.rows && x.id == Some(id) ==> x.uploadedBy != user || !x.isActive
    ensures DownloadFile(t, id, user, blobAt) == DownloadFile(t, absent, user, blobAt)
    ensures GetFileInfo(cfg, t, id, user) == GetFileInfo(cfg, t, absent, user)
    ensures DeleteFile(t, id, user, now) == DeleteFile(t, absent, user, now)
  {
  }

  /** Each row with its download URL, in the same order. */
  function Views(cfg: Config, records: seq<FileRecord>): (r: seq<FileView>)
    ensures Records(r) == records
    ensures forall i :: 0 <= i < |r| ==> r[i].downloadUrl == FileDownloadUrl(cfg, records[i].id)
    ensures Linked(cfg, r)
  {
    seq(|records|, i requires 0 <= i < |records| => View(records[i], FileDownloadUrl(cfg, records[i].id)))
  }

  /** Every view carries the download URL of its own row. */
  predicate Linked(cfg: Config, views: seq<FileView>) {
    forall i :: 0 <= i < |views| ==> views[i].downloadUrl == FileDownloadUrl(cfg, views[i].record.id)
  }

  /** Attaching URLs to a page of the rows gives the same page of the
      rows with their URLs attached, as `Page.map` does. */
  lemma ViewsOfPage(cfg: Config, all: seq<FileRecord>, rows: seq<FileRecord>, pageable: Pageable)
    requires IsPage(rows, all, pageable)
    ensures IsPage(Views(cfg, rows), Views(cfg, all), pageable)
  {
    var view := (x: FileRecord) => View(x, FileDownloadUrl(cfg, x.id));
    forall i | 0 <= i < |rows|
      ensures Views(cfg, rows)[i] == view(rows[i])
    {
      ViewAt(cfg, rows, i);
    }
    forall i | 0 <= i < |all|
      ensures Views(cfg, all)[i] == view(all[i])
    {
      ViewAt(cfg, all, i);
    }
    PageMapped(rows, all, Views(cfg, rows), Views(cfg, all), view, pageable);
  }

  /** The view at position `i` is row `i` with its URL. */
  lemma ViewAt(cfg: Config, records: seq<FileRecord>, i: nat)
    requires i < |records|
    ensures i < |Views(cfg, records)|
    ensures Views(cfg, records)[i] == View(records[i], FileDownloadUrl(cfg, records[i].id))
  {
  }

  /** `getUserFiles(user)`: the owner's active rows, newest first. */
  function GetUserFiles(cfg: Config, t: FileTable, user: int): (r: seq<FileView>)
    ensures forall x :: x in Records(r) <==> x in t.rows && x.uploadedBy == user && x.isActive
    ensures multiset(Records(r)) == multiset(Filter(t.rows, OwnedActive(user)))
    ensures SortedDesc(Records(r), CreatedKey)
    ensures Linked(cfg, r)
  {
    Views(cfg, FindByUploadedByAndIsActiveTrueOrderByCreatedAtDesc(t, user))
  }

  /** `getUserFiles(user, pageable)`. */
  function GetUserFilesPaged(cfg: Config, t: FileTable, user: int, pageable: Pageable): (r: seq<FileView>)
    ensures IsPage(r, GetUserFiles(cfg, t, user), pageable)
    ensures |r| <= pageable.size
    ensures forall x :: x in Records(r) ==> x in t.rows && x.uploadedBy == user && x.isActive
    ensures SortedDesc(Records(r), CreatedKey)
    ensures Linked(cfg, r)
  {
    ViewsOfPage(cfg, FindByUploadedByAndIsActiveTrueOrderByCreatedAtDesc(t, user),
                FindByUploadedByAndIsActiveTrueOrderByCreatedAtDescPaged(t, user, pageable), pageable);
    Views(cfg, FindByUploadedByAndIsActiveTrueOrderByCreatedAtDescPaged(t, user, pageable))
  }

  /** `getAllFiles(pageable)`: the admin listing, every owner's active rows. */
  function GetAllFiles(cfg: Config, t: FileTable, pageable: Pageable): (r: seq<FileView>)
    ensures IsPage(Records(r), ActiveNewestFirst(t), pageable)
    ensures |r| <= pageable.size
    ensures forall x :: x in Records(r) ==> x in t.rows && x.isActive
    ensures SortedDesc(Records(r), CreatedKey)
    ensures Linked(cfg, r)
  {
    Views(cfg, FindByIsActiveTrueOrderByCreatedAtDesc(t, pageable))
  }

  /** `getUserFilesByCategory`. */
  function GetUserFilesByCategory(cfg: Config, t: FileTable, user: int, category: FileCategory): (r: seq<FileView>)
    ensures forall x :: x in Records(r) <==>
              x in t.rows && x.uploadedBy == user && x.category == category && x.isActive
    ensures multiset(Records(r)) == multiset(Filter(t.rows, OwnedActiveIn(user, category)))
    ensures SortedDesc(Records(r), CreatedKey)
    ensures Linked(cfg, r)
  {
    Views(cfg, FindByUploadedByAndCategoryAndIsActiveTrueOrderByCreatedAtDesc(t, user, category))
  }

  /** `searchUserFiles`: the owner's active rows whose original name contains
      the keyword, newest first. */
  function SearchUserFiles(cfg: Config, t: FileTable, user: int, filename: string): (r: seq<FileView>)
    ensures forall x :: x in Records(r) <==>
              x in t.rows && x.uploadedBy == user && Contains(x.originalName, filename) && x.isActive
    ensures multiset(Records(r)) == multiset(Filter(t.rows, OwnedActiveNamed(user, filename)))
    ensures SortedDesc(Records(r), CreatedKey)
    ensures Linked(cfg, r)
  {
    Views(cfg, FindByUploadedByAndOriginalNameContaining(t, user, filename))
  }

  /** An accepted upload is visible to its owner at once: in the full list, in
      its category, in a search for its own name, through the info lookup of
      the new id, and, while its bytes are readable, through download. */
  lemma UploadListed(cfg: Config, t: FileTable, file: MultipartFile, description: Option<string>,
                     user: int, env: UploadEnv, blobAt: string -> BlobState)
    requires Valid(t)
    requires UploadFile(cfg, t, file, description, user, env).Ok?
    ensures var (t', v) := UploadFile(cfg, t, file, description, user, env).value;
            && v.record in Records(GetUserFiles(cfg, t', user))
            && v.record in Records(GetUserFilesByCategory(cfg, t', user, v.record.category))
            && v.record in Records(SearchUserFiles(cfg, t', user, v.record.originalName))
            && GetFileInfo(cfg, t', t.nextId, user) == Ok(v)
            && (blobAt(v.record.filePath) == Readable ==> DownloadFile(t', t.nextId, user, blobAt) == Ok(v.record))
  {
    var (t', v) := UploadFile(cfg, t, file, description, user, env).value;
    AppendedRowListed(cfg, t', v.record, user);
    AppendedRowFound(cfg, t, t', v, user, blobAt);
  }

  /** A row of the owner's that is active shows in the owner's three lists. */
  lemma AppendedRowListed(cfg: Config, t': FileTable, x: FileRecord, user: int)
    requires x in t'.rows && x.uploadedBy == user && x.isActive
    ensures x in Records(GetUserFiles(cfg, t', user))
    ensures x in Records(GetUserFilesByCategory(cfg, t', user, x.category))
    ensures x in Records(SearchUserFiles(cfg, t', user, x.originalName))
  {
    ContainsSelf(x.originalName);
  }

  /** A row appended to a valid table under the next id is the one the owner's
      lookups by that id find. */
  lemma AppendedRowFound(cfg: Config, t: FileTable, t': FileTable, v: FileView, user: int,
                         blobAt: string -> BlobState)
    requires Valid(t)
    requires t'.rows == t.rows + [v.record]
    requires v.record.id == Some(t.nextId) && v.record.uploadedBy == user && v.record.isActive
    requires v.downloadUrl == FileDownloadUrl(cfg, Some(t.nextId))
    ensures GetFileInfo(cfg, t', t.nextId, user) == Ok(v)
    ensures blobAt(v.record.filePath) == Readable ==> DownloadFile(t', t.nextId, user, blobAt) == Ok(v.record)
  {
    AppendedAt(t, t', v.record);
    assert t'.rows[|t.rows|] == v.record;
  }

  /** In a valid table no row has the next id, so after an append the owner's
      lookup of that id finds the appended row. */
  lemma AppendedAt(t: FileTable, t': FileTable, x: FileRecord)
    requires Valid(t)
    requires t'.rows == t.rows + [x] && x.id == Some(t.nextId) && x.isActive
    ensures FindByIdAndUploadedByAndIsActiveTrue(t', t.nextId, x.uploadedBy) == Some(|t.rows|)
  {
    forall k | 0 <= k < |t.rows|
      ensures t'.rows[k].id != Some(t.nextId)
    {
      assert t'.rows[k] == t.rows[k];
    }
    assert t'.rows[|t.rows|] == x;
  }

  /** Row `i` of the owner's full list is on page `PageOf(i, size)`: paging
      through the list reaches every row. */
  lemma UserFilesPagesCover(cfg: Config, t: FileTable, user: int, size: nat, i: nat)
    requires size >= 1 && i < |GetUserFiles(cfg, t, user)|
    ensures var page := GetUserFilesPaged(cfg, t, user, PageOf(i, size));
            OffsetOf(i, size) < |page| && page[OffsetOf(i, size)] == GetUserFiles(cfg, t, user)[i]
  {
    PageCovers(GetUserFilesPaged(cfg, t, user, PageOf(i, size)), GetUserFiles(cfg, t, user), size, i);
  }

  /** Every active row of every owner sits at some position of the admin
      listing, and paging reaches that position. */
  lemma AllFilesPagesCover(cfg: Config, t: FileTable, size: nat, i: nat)
    requires size >= 1 && i < |ActiveNewestFirst(t)|
    ensures var page := Records(GetAllFiles(cfg, t, PageOf(i, size)));
            OffsetOf(i, size) < |page| && page[OffsetOf(i, size)] == ActiveNewestFirst(t)[i]
  {
    PageCovers(Records(GetAllFiles(cfg, t, PageOf(i, size))), ActiveNewestFirst(t), size, i);
  }

  /** The admin paths return what the owner's paths return for a row the owner
      can reach, and the owner's paths return what the admin sees for a row
      that is the owner's. */
  lemma AdminSeesWhatOwnerSees(cfg: Config, t: FileTable, id: int, user: int, blobAt: string -> BlobState)
    requires Valid(t)
    ensures GetFileInfo(cfg, t, id, user).Ok? ==> GetFileInfoAsAdmin(cfg, t, id) == GetFileInfo(cfg, t, id, user)
    ensures GetFileInfoAsAdmin(cfg, t, id).Ok? && GetFileInfoAsAdmin(cfg, t, id).value.record.uploadedBy == user ==>
              GetFileInfo(cfg, t, id, user) == GetFileInfoAsAdmin(cfg, t, id)
    ensures DownloadFile(t, id, user, blobAt).Ok? ==> DownloadFileAsAdmin(t, id, blobAt) == DownloadFile(t, id, user, blobAt)
  {
    match FindByIdAndIsActiveTrue(t, id)
    case None =>
    case Some(i) =>
      forall k | 0 <= k < |t.rows| && t.rows[k].id == Some(id)
        ensures k == i
      {
      }
  }

  datatype FileStatistics = FileStatistics(totalFiles: nat, documentCount: nat, videoCount: nat,
                                           imageCount: nat, totalSize: int)

  /** The four per-category counts of an owner's active rows add up to their total. */
  lemma CategoryCountsPartition(t: FileTable, user: int)
    ensures CountByUploadedByAndCategoryAndIsActiveTrue(t, user, DOCUMENT)
            + CountByUploadedByAndCategoryAndIsActiveTrue(t, user, VIDEO)
            + CountByUploadedByAndCategoryAndIsActiveTrue(t, user, IMAGE)
            + CountByUploadedByAndCategoryAndIsActiveTrue(t, user, OTHER)
            == CountByUploadedByAndIsActiveTrue(t, user)
  {
    var notDocument := (x: FileRecord) => x.uploadedBy == user && x.isActive && x.category != DOCUMENT;
    var neither := (x: FileRecord) => x.uploadedBy == user && x.isActive && x.category != DOCUMENT && x.category != VIDEO;
    CountSplit(t.rows, OwnedActive(user), OwnedActiveIn(user, DOCUMENT), notDocument);
    CountSplit(t.rows, notDocument, OwnedActiveIn(user, VIDEO), neither);
    CountSplit(t.rows, neither, OwnedActiveIn(user, IMAGE), OwnedActiveIn(user, OTHER));
  }

  /** Every row has a known category: what uploads alone produce. */
  predicate CategoriesKnown(t: FileTable) {
    forall x :: x in t.rows ==> x.category != OTHER
  }

  /** `getUserFileStatistics`. The category counts never exceed the total, and
      the total size is 0 when the owner has no active row. */
  function GetUserFileStatistics(t: FileTable, user: int): (r: FileStatistics)
    ensures r.totalFiles == |FindByUploadedByAndIsActiveTrueOrderByCreatedAtDesc(t, user)|
    ensures r.totalFiles == CountByUploadedByAndIsActiveTrue(t, user)
    ensures r.documentCount == CountByUploadedByAndCategoryAndIsActiveTrue(t, user, DOCUMENT)
    ensures r.videoCount == CountByUploadedByAndCategoryAndIsActiveTrue(t, user, VIDEO)
    ensures r.imageCount == CountByUploadedByAndCategoryAndIsActiveTrue(t, user, IMAGE)
    ensures r.totalSize == SumFileSizeByUser(t, user)
    ensures r.documentCount + r.videoCount + r.imageCount <= r.totalFiles
    ensures CategoriesKnown(t) ==> r.documentCount + r.videoCount + r.imageCount == r.totalFiles
    ensures r.totalSize >= 0
    ensures r.totalFiles == 0 ==> r.totalSize == 0
  {
    CategoryCountsPartition(t, user);
    if CategoriesKnown(t) then OtherCountZero(t, user); Statistics(t, user) else Statistics(t, user)
  }

  function Statistics(t: FileTable, user: int): FileStatistics {
    FileStatistics(CountByUploadedByAndIsActiveTrue(t, user),
                   CountByUploadedByAndCategoryAndIsActiveTrue(t, user, DOCUMENT),
                   CountByUploadedByAndCategoryAndIsActiveTrue(t, user, VIDEO),
                   CountByUploadedByAndCategoryAndIsActiveTrue(t, user, IMAGE),
                   SumFileSizeByUser(t, user))
  }

  lemma OtherCountZero(t: FileTable, user: int)
    requires CategoriesKnown(t)
    ensures CountByUploadedByAndCategoryAndIsActiveTrue(t, user, OTHER) == 0
  {
    forall i | 0 <= i < |t.rows|
      ensures !OwnedActiveIn(user, OTHER)(t.rows[i])
    {
      assert t.rows[i] in t.rows;
    }
    CountNone(t.rows, OwnedActiveIn(user, OTHER));
  }

  /** Uploads keep every category known. */
  lemma UploadKeepsCategoriesKnown(cfg: Config, t: FileTable, file: MultipartFile, description: Option<string>,
                                   user: int, env: UploadEnv)
    requires CategoriesKnown(t)
    requires UploadFile(cfg, t, file, description, user, env).Ok?
    ensures CategoriesKnown(UploadFile(cfg, t, file, description, user, env).value.0)
  {
    var result := UploadFile(cfg, t, file, description, user, env).value;
    UploadedRecordShape(cfg, t, file, description, user, env);
    AppendKeepsCategoriesKnown(t, result.0, result.1.record);
  }

  lemma AppendKeepsCategoriesKnown(t: FileTable, t': FileTable, saved: FileRecord)
    requires CategoriesKnown(t) && saved.category != OTHER
    requires t'.rows == t.rows + [saved]
    ensures CategoriesKnown(t')
  {
    forall x | x in t'.rows
      ensures x.category != OTHER
    {
      if x != saved {
        assert x in t.rows;
      }
    }
  }

  /** Soft deletes, the owner's and the administrator's, keep every category
      known. */
  lemma DeleteKeepsCategoriesKnown(t: FileTable, id: int, user: int, now: LocalDateTime)
    requires CategoriesKnown(t)
    ensures DeleteFile(t, id, user, now).Ok? ==> CategoriesKnown(DeleteFile(t, id, user, now).value)
    ensures DeleteFileAsAdmin(t, id, now).Ok? ==> CategoriesKnown(DeleteFileAsAdmin(t, id, now).value)
  {
    if DeleteFile(t, id, user, now).Ok? {
      RowwiseKeepsCategoriesKnown(t, DeleteFile(t, id, user, now).value);
    }
    if DeleteFileAsAdmin(t, id, now).Ok? {
      RowwiseKeepsCategoriesKnown(t, DeleteFileAsAdmin(t, id, now).value);
    }
  }

  lemma RowwiseKeepsCategoriesKnown(t: FileTable, t': FileTable)
    requires CategoriesKnown(t)
    requires |t'.rows| == |t.rows|
    requires forall k :: 0 <= k < |t.rows| ==> t'.rows[k].category == t.rows[k].category
    ensures CategoriesKnown(t')
  {
    forall x | x in t'.rows
      ensures x.category != OTHER
    {
      var k :| 0 <= k < |t'.rows| && t'.rows[k] == x;
      assert t.rows[k] in t.rows;
    }
  }
}

=== FILE: java_text.dfy ===
/** The few `java.lang.String` and Spring `StringUtils` operations the services
    rely on, over Dafny strings (sequences of Unicode scalar values). */
module JavaText {
  import opened Wrappers

  /** `s.lastIndexOf(c)`: the position of the last `c` in `s`, or -1. */
  function LastIndexOf(s: string, c: char): (r: int)
    ensures -1 <= r < |s|
    ensures r >= 0 ==> s[r] == c
    ensures forall k :: r < k < |s| ==> s[k] != c
  {
    if |s| == 0 then -1
    else if s[|s| - 1] == c then |s| - 1
    else LastIndexOf(s[..|s| - 1], c)
  }

  /** `Character.toLowerCase` for the characters whose lower case is ASCII:
      A-Z and U+212A KELVIN SIGN (which lowers to 'k'). */
  function LowerChar(c: char): char {
    if 'A' <= c <= 'Z' then (c as int + 32) as char
    else if c == '\U{212A}' then 'k'
    else c
  }

  /** `s.toLowerCase()` in the root locale, character by character. */
  function ToLower(s: string): (r: string)
    ensures |r| == |s|
    ensures forall i :: 0 <= i < |s| ==> r[i] == LowerChar(s[i])
  {
    seq(|s|, i requires 0 <= i < |s| => LowerChar(s[i]))
  }

  /** `Character.isWhitespace`: the Unicode space, line and paragraph separators
      other than the non-breaking ones, and the ASCII controls TAB, LF, VT, FF,
      CR and FS, GS, RS, US. */
  predicate IsJavaWhitespace(c: char) {
    || c == ' '
    || '\t' <= c <= '\r'
    || '\U{1C}' <= c <= '\U{1F}'
    || c == '\U{1680}'
    || '\U{2000}' <= c <= '\U{2006}'
    || '\U{2008}' <= c <= '\U{200A}'
    || c == '\U{2028}' || c == '\U{2029}'
    || c == '\U{205F}' || c == '\U{3000}'
  }

  /** Spring's `StringUtils.hasText`: not null and holding a character that is
      not whitespace. */
  predicate HasText(s: Option<string>) {
    s.Some? && exists i :: 0 <= i < |s.value| && !IsJavaWhitespace(s.value[i])
  }

  /** `s.trim().isEmpty()`: `trim` strips every character up to U+0020 from both
      ends, so the result is empty exactly when no character is above U+0020. */
  predicate TrimsToEmpty(s: string) {
    forall i :: 0 <= i < |s| ==> s[i] <= ' '
  }

  /** A string that ends with a string `trim` cannot empty cannot be emptied
      either. */
  lemma EndsNotBlank(s: string, tail: string)
    requires |tail| <= |s| && s[|s| - |tail|..] == tail
    requires !TrimsToEmpty(tail)
    ensures !TrimsToEmpty(s)
  {
    var k :| 0 <= k < |tail| && tail[k] > ' ';
    assert s[|s| - |tail| + k] == tail[k];
  }

  /** `s.contains(k)`, and SQL `LIKE %k%` read as a plain substring test. */
  predicate Contains(s: string, k: string) {
    exists i :: 0 <= i <= |s| - |k| && OccursAt(s, k, i)
  }

  /** `k` appears in `s` starting at position `i`. */
  predicate OccursAt(s: string, k: string, i: int) {
    0 <= i <= |s| - |k| && s[i..i + |k|] == k
  }

  /** Every string contains itself. */
  lemma ContainsSelf(s: string)
    ensures Contains(s, s)
  {
    assert OccursAt(s, s, 0);
  }

  predicate StartsWith(s: string, p: string) {
    |p| <= |s| && s[..|p|] == p
  }

  /** A concatenation starts with its first part. */
  lemma PrefixStarts(prefix: string, rest: string)
    ensures StartsWith(prefix + rest, prefix)
  {
    assert (prefix + rest)[..|prefix|] == prefix;
  }
}

=== FILE: queries.dfy ===
/** The building blocks of the derived repository queries: a WHERE clause is a
    filter, ORDER BY ... DESC is a stable sort on a key, a page is a slice, and
    COUNT and SUM fold over the selected rows. */
module Queries {
  import opened Wrappers

  /** The rows of `xs` that satisfy `p`, in their original order. */
  function Filter<T(==,!new)>(xs: seq<T>, p: T -> bool): (r: seq<T>)
    ensures |r| <= |xs|
    ensures forall x :: x in r <==> x in xs && p(x)
    ensures forall i :: 0 <= i < |r| ==> p(r[i])
  {
    if |xs| == 0 then []
    else if p(xs[0]) then [xs[0]] + Filter(xs[1..], p)
    else Filter(xs[1..], p)
  }

  /** `SELECT COUNT(*) ... WHERE p`. */
  function Count<T(==,!new)>(xs: seq<T>, p: T -> bool): (r: nat)
    ensures r <= |xs|
    ensures r == 0 <==> forall x :: x in xs ==> !p(x)
  {
    var selected := Filter(xs, p);
    assert |selected| > 0 ==> selected[0] in selected;
    |selected|
  }

  ghost predicate SortedDesc<T>(xs: seq<T>, key: T -> int) {
    forall i, j :: 0 <= i < j < |xs| ==> key(xs[i]) >= key(xs[j])
  }

  /** Puts `x` in front of the first row whose key is not larger. */
  function InsertDesc<T>(x: T, xs: seq<T>, key: T -> int): (r: seq<T>)
    requires SortedDesc(xs, key)
    ensures SortedDesc(r, key)
    ensures multiset(r) == multiset(xs) + multiset{x}
  {
    if |xs| == 0 then [x]
    else if key(x) >= key(xs[0]) then [x] + xs
    else
      var rest := InsertDesc(x, xs[1..], key);
      assert xs == [xs[0]] + xs[1..];
      forall k | 0 <= k < |rest|
        ensures key(rest[k]) <= key(xs[0])
      {
        assert rest[k] in multiset(xs[1..]) + multiset{x};
        if rest[k] != x {
          assert rest[k] in xs[1..];
          var j :| 0 <= j < |xs[1..]| && xs[1..][j] == rest[k];
          assert xs[j + 1] == rest[k];
        }
      }
      [xs[0]] + rest
  }

  /** `ORDER BY key DESC`: the same rows, largest key first. Rows with equal keys
      keep their relative order, one of the orders a database may return. */
  function SortDesc<T>(xs: seq<T>, key: T -> int): (r: seq<T>)
    ensures SortedDesc(r, key)
    ensures multiset(r) == multiset(xs)
  {
    if |xs| == 0 then []
    else
      assert xs == [xs[0]] + xs[1..];
      InsertDesc(xs[0], SortDesc(xs[1..], key), key)
  }

  /** `SELECT ... WHERE p ORDER BY key DESC`. */
  function Select<T(==,!new)>(xs: seq<T>, p: T -> bool, key: T -> int): (r: seq<T>)
    ensures SortedDesc(r, key)
    ensures multiset(r) == multiset(Filter(xs, p))
    ensures |r| == Count(xs, p)
    ensures forall x :: x in r <==> x in xs && p(x)
  {
    var r := SortDesc(Filter(xs, p), key);
    assert forall x :: x in r <==> x in multiset(Filter(xs, p));
    r
  }

  /** Spring's `PageRequest`: a zero-based page number and a positive size. */
  datatype PageRequest = PageRequest(page: nat, size: nat)
  type Pageable = p: PageRequest | p.size >= 1 witness PageRequest(0, 1)

  /** How many rows `LIMIT size OFFSET page * size` leaves of `n`: none past
      the end, a full page while rows last, the remainder on the last page. */
  function PageLength(n: nat, pageable: Pageable): nat {
    var lo := pageable.page * pageable.size;
    if lo >= n then 0
    else if n - lo < pageable.size then n - lo
    else pageable.size
  }

  /** `r` is page `pageable` of the full result `xs`: the rows at positions
      `page * size` onwards, as many as `PageLength` allows. */
  ghost predicate IsPage<T>(r: seq<T>, xs: seq<T>, pageable: Pageable) {
    && |r| == PageLength(|xs|, pageable)
    && forall i :: 0 <= i < |r| ==>
         pageable.page * pageable.size + i < |xs| && r[i] == xs[pageable.page * pageable.size + i]
  }

  /** `LIMIT size OFFSET page * size`. */
  function Page<T>(xs: seq<T>, pageable: Pageable): (r: seq<T>)
    ensures |r| <= pageable.size
    ensures IsPage(r, xs, pageable)
    ensures pageable.page * pageable.size + pageable.size <= |xs| ==> |r| == pageable.size
  {
    var lo := pageable.page * pageable.size;
    if lo >= |xs| then []
    else if lo + pageable.size <= |xs| then xs[lo..lo + pageable.size]
    else xs[lo..]
  }

  /** The page of `size` rows that row `i` of the full result falls on. */
  function PageOf(i: nat, size: nat): (r: Pageable)
    requires size >= 1
    ensures r.size == size
    ensures r.page * size <= i < r.page * size + size
  {
    PageRequest(i / size, size)
  }

  /** Row `i`'s position on its page. */
  function OffsetOf(i: nat, size: nat): (r: nat)
    requires size >= 1
    ensures r < size && PageOf(i, size).page * size + r == i
  {
    i % size
  }

  /** Row `i` of the full result is row `OffsetOf(i, size)` of page
      `PageOf(i, size)`: every row is reachable by paging. */
  lemma PagesCover<T>(xs: seq<T>, size: nat, i: nat)
    requires size >= 1 && i < |xs|
    ensures OffsetOf(i, size) < |Page(xs, PageOf(i, size))|
    ensures Page(xs, PageOf(i, size))[OffsetOf(i, size)] == xs[i]
  {
    PageCovers(Page(xs, PageOf(i, size)), xs, size, i);
  }

  /** The same, for any sequence that is that page of the full result. */
  lemma PageCovers<T>(r: seq<T>, xs: seq<T>, size: nat, i: nat)
    requires size >= 1 && i < |xs|
    requires IsPage(r, xs, PageOf(i, size))
    ensures OffsetOf(i, size) < |r| && r[OffsetOf(i, size)] == xs[i]
  {
    var p := PageOf(i, size);
    var lo := p.page * size;
    assert lo + OffsetOf(i, size) == i;
    assert lo <= i < |xs|;
  }

  /** Pages `0 .. n - 1` of the full result, one after the other. */
  function PagesUpTo<T>(xs: seq<T>, size: nat, n: nat): seq<T>
    requires size >= 1
  {
    if n == 0 then [] else PagesUpTo(xs, size, n - 1) + Page(xs, PageRequest(n - 1, size))
  }

  /** The first `n` pages, concatenated, are the first `n * size` rows of the
      full result (all of it once `n * size` reaches its length). */
  lemma {:induction false} PagesConcatenate<T>(xs: seq<T>, size: nat, n: nat)
    requires size >= 1
    ensures PagesUpTo(xs, size, n) == xs[..Clip(n * size, |xs|)]
  {
    if n > 0 {
      var m := n - 1;
      PagesConcatenate(xs, size, m);
      NextPage(xs, size, m);
      SliceSplit(xs, Clip(m * size, |xs|), Clip(m * size + size, |xs|));
    }
  }

  /** Page `m` continues where page `m - 1` ended. */
  lemma NextPage<T>(xs: seq<T>, size: nat, m: nat)
    requires size >= 1
    ensures (m + 1) * size == m * size + size
    ensures PagesUpTo(xs, size, m + 1)
            == PagesUpTo(xs, size, m) + xs[Clip(m * size, |xs|)..Clip(m * size + size, |xs|)]
  {
    PageIsSlice(xs, PageRequest(m, size));
  }

  lemma SliceSplit<T>(xs: seq<T>, a: nat, b: nat)
    requires a <= b <= |xs|
    ensures xs[..b] == xs[..a] + xs[a..b]
  {
  }

  /** `a`, or `n` when `a` runs past it. */
  function Clip(a: nat, n: nat): (r: nat)
    ensures r <= n && r <= a && (r == a || r == n)
  {
    if a <= n then a else n
  }

  /** A page is the slice of the full result between its two clipped ends. */
  lemma PageIsSlice<T>(xs: seq<T>, pageable: Pageable)
    ensures var lo := pageable.page * pageable.size;
            Page(xs, pageable) == xs[Clip(lo, |xs|)..Clip(lo + pageable.size, |xs|)]
  {
  }

  /** Mapping every row through `f` commutes with paging: the mapped page is
      the same page of the mapped result. */
  lemma PageMapped<A, B>(rows: seq<A>, all: seq<A>, mappedRows: seq<B>, mappedAll: seq<B>,
                         f: A -> B, pageable: Pageable)
    requires IsPage(rows, all, pageable)
    requires |mappedRows| == |rows| && forall i :: 0 <= i < |rows| ==> mappedRows[i] == f(rows[i])
    requires |mappedAll| == |all| && forall i :: 0 <= i < |all| ==> mappedAll[i] == f(all[i])
    ensures IsPage(mappedRows, mappedAll, pageable)
  {
  }

  /** A page is determined by the full result and the request. */
  lemma PageUnique<T>(r: seq<T>, xs: seq<T>, pageable: Pageable)
    requires IsPage(r, xs, pageable)
    ensures r == Page(xs, pageable)
  {
    var p := Page(xs, pageable);
    assert |r| == |p|;
    forall i | 0 <= i < |r|
      ensures r[i] == p[i]
    {
    }
  }

  /** A page holds only rows of the full result, in the full result's order. */
  lemma PageOfSorted<T>(xs: seq<T>, pageable: Pageable, key: T -> int)
    requires SortedDesc(xs, key)
    ensures forall x :: x in Page(xs, pageable) ==> x in xs
    ensures SortedDesc(Page(xs, pageable), key)
  {
    var r := Page(xs, pageable);
    var lo := pageable.page * pageable.size;
    forall x | x in r
      ensures x in xs
    {
      var i :| 0 <= i < |r| && r[i] == x;
      assert xs[lo + i] == x;
    }
    forall i, j | 0 <= i < j < |r|
      ensures key(r[i]) >= key(r[j])
    {
      assert r[i] == xs[lo + i] && r[j] == xs[lo + j];
    }
  }

  /** The first page holds rows of the full result, each at most as often. */
  lemma FirstPageMultiset<T>(xs: seq<T>, pageable: Pageable)
    requires pageable.page == 0
    ensures multiset(Page(xs, pageable)) <= multiset(xs)
  {
    var r := Page(xs, pageable);
    assert xs == r + xs[|r|..];
  }

  /** The first page of a size that covers everything is the whole result. */
  lemma PageWhole<T>(xs: seq<T>, pageable: Pageable)
    requires pageable.page == 0 && pageable.size >= |xs|
    ensures Page(xs, pageable) == xs
  {
  }

  /** The first page of a descending result holds its largest keys: no row left
      off the page has a larger key than a row on it. */
  lemma FirstPageIsTop<T>(xs: seq<T>, pageable: Pageable, key: T -> int)
    requires SortedDesc(xs, key) && pageable.page == 0
    ensures forall j :: 0 <= j < |xs| && xs[j] !in Page(xs, pageable) ==>
              forall i :: 0 <= i < |Page(xs, pageable)| ==> key(Page(xs, pageable)[i]) >= key(xs[j])
  {
    var r := Page(xs, pageable);
    forall j, i | 0 <= j < |xs| && xs[j] !in r && 0 <= i < |r|
      ensures key(r[i]) >= key(xs[j])
    {
      assert r[i] == xs[i];
    }
  }

  /** `SELECT SUM(f) ... WHERE p`, with COALESCE turning the empty sum into 0. */
  function SumBy<T>(xs: seq<T>, f: T -> int): int {
    if |xs| == 0 then 0 else f(xs[0]) + SumBy(xs[1..], f)
  }

  /** The position of the first row satisfying `p`, if any. */
  function FindFirst<T>(xs: seq<T>, p: T -> bool): (r: Option<nat>)
    ensures r.Some? ==> r.value < |xs| && p(xs[r.value])
    ensures r.Some? ==> forall k :: 0 <= k < r.value ==> !p(xs[k])
    ensures r.None? <==> forall k :: 0 <= k < |xs| ==> !p(xs[k])
  {
    if |xs| == 0 then None
    else if p(xs[0]) then Some(0)
    else match FindFirst(xs[1..], p)
      case None => None
      case Some(i) => Some(i + 1)
  }

  /** Counting over a predicate that splits into two disjoint cases adds up. */
  lemma {:induction false} CountSplit<T(!new)>(xs: seq<T>, p: T -> bool, q: T -> bool, r: T -> bool)
    requires forall x :: p(x) <==> q(x) || r(x)
    requires forall x :: !(q(x) && r(x))
    ensures Count(xs, p) == Count(xs, q) + Count(xs, r)
  {
    if |xs| > 0 {
      CountSplit(xs[1..], p, q, r);
    }
  }

  /** A narrower predicate never counts more rows. */
  lemma {:induction false} CountMonotone<T(!new)>(xs: seq<T>, p: T -> bool, q: T -> bool)
    requires forall x :: q(x) ==> p(x)
    ensures Count(xs, q) <= Count(xs, p)
  {
    if |xs| > 0 {
      CountMonotone(xs[1..], p, q);
    }
  }

  /** A predicate that holds of every row counts all of them. */
  lemma {:induction false} CountAll<T(!new)>(xs: seq<T>, p: T -> bool)
    requires forall i :: 0 <= i < |xs| ==> p(xs[i])
    ensures Count(xs, p) == |xs|
  {
    if |xs| > 0 {
      CountAll(xs[1..], p);
    }
  }

  /** A predicate that holds of no row counts none. */
  lemma {:induction false} CountNone<T(!new)>(xs: seq<T>, p: T -> bool)
    requires forall i :: 0 <= i < |xs| ==> !p(xs[i])
    ensures Count(xs, p) == 0
  {
    if |xs| > 0 {
      CountNone(xs[1..], p);
    }
  }

  /** Summing a non-negative column gives a non-negative total. */
  lemma {:induction false} SumByNonNegative<T>(xs: seq<T>, f: T -> int)
    requires forall i :: 0 <= i < |xs| ==> f(xs[i]) >= 0
    ensures SumBy(xs, f) >= 0
  {
    if |xs| > 0 {
      SumByNonNegative(xs[1..], f);
    }
  }
}

=== FILE: questionnaire.dfy ===
/** The `Questionnaire` entity and its small lifecycle: DRAFT when created,
    PUBLISHED by `publish`, ARCHIVED by `archive`, with no guard on either
    transition. */
module QuestionnaireEntity {
  import opened Wrappers
  import opened JavaText
  import opened Clock

  const IntegerMax: int := 0x7FFF_FFFF
  const IntegerMin: int := -0x8000_0000

  /** A Java `int`, the unboxed value of the `Integer downloadCount` column. */
  type Int32 = x: int | IntegerMin <= x <= IntegerMax

  /** `Questionnaire.QuestionnaireStatus`. */
  datatype Status = DRAFT | PUBLISHED | ARCHIVED

  datatype Questionnaire = Questionnaire(
    id: Option<int>,
    title: string,
    description: Option<string>,
    originalName: string,
    storedName: string,
    filePath: string,
    fileSize: nat,
    fileType: Option<string>,
    status: Status,
    createdBy: int,
    createdAt: LocalDateTime,
    updatedAt: LocalDateTime,
    publishedAt: Option<LocalDateTime>,
    isActive: bool,
    category: Option<string>,
    tags: Option<string>,
    downloadCount: Option<Int32>)

  /** The seven-argument constructor: the arguments are stored as given, each
      timestamp is its own clock reading, and the field initialisers give a
      DRAFT, active row with no downloads, never published. */
  function NewQuestionnaire(title: string, originalName: string, storedName: string, filePath: string,
                            fileSize: nat, fileType: Option<string>, createdBy: int,
                            built: Stamps): (r: Questionnaire)
    ensures r.title == title && r.originalName == originalName && r.storedName == storedName
    ensures r.filePath == filePath && r.fileSize == fileSize && r.fileType == fileType
    ensures r.createdBy == createdBy
    ensures r.createdAt == built.created && r.updatedAt == built.updated
    ensures r.status == DRAFT && r.isActive && r.downloadCount == Some(0) && r.publishedAt.None?
    ensures r.id.None? && r.description.None? && r.category.None? && r.tags.None?
  {
    Questionnaire(None, title, None, originalName, storedName, filePath, fileSize, fileType,
                  DRAFT, createdBy, built.created, built.updated, None, true, None, None, Some(0))
  }

  /** The `@PrePersist` hook: each timestamp becomes a fresh clock reading of
      its own, overwriting what the constructor stored; nothing else moves. */
  function OnCreate(q: Questionnaire, at: Stamps): (r: Questionnaire)
    ensures r.createdAt == at.created && r.updatedAt == at.updated
    ensures r.(createdAt := q.createdAt, updatedAt := q.updatedAt) == q
  {
    q.(createdAt := at.created, updatedAt := at.updated)
  }

  /** What saving a loaded questionnaire writes back: the `@PreUpdate` hook
      refreshes `updatedAt` only, and only for a row that changed. */
  function Flush(loaded: Questionnaire, current: Questionnaire, now: LocalDateTime): (r: Questionnaire)
    ensures r.(updatedAt := current.updatedAt) == current
    ensures current == loaded ==> r == loaded
    ensures current != loaded ==> r.updatedAt == now
  {
    if current == loaded then loaded else current.(updatedAt := now)
  }

  /** `incrementDownloadCount`: null counts as 0, then `++` on a Java `int`,
      which wraps from `Integer.MAX_VALUE` to `Integer.MIN_VALUE`. */
  function IncrementDownloadCount(q: Questionnaire): (r: Questionnaire)
    ensures r.downloadCount.Some?
    ensures q.downloadCount.GetOr(0) < IntegerMax ==> r.downloadCount.value == q.downloadCount.GetOr(0) + 1
    ensures q.downloadCount.GetOr(0) == IntegerMax ==> r.downloadCount.value == IntegerMin
    ensures r.(downloadCount := q.downloadCount) == q
  {
    var n: Int32 := q.downloadCount.GetOr(0);
    var next: Int32 := if n == IntegerMax then IntegerMin else n + 1;
    q.(downloadCount := Some(next))
  }

  /** `publish`: PUBLISHED from any state, and `publishedAt` stamped on every call. */
  function Publish(q: Questionnaire, now: LocalDateTime): (r: Questionnaire)
    ensures r.status == PUBLISHED && r.publishedAt == Some(now)
    ensures r.(status := q.status, publishedAt := q.publishedAt) == q
  {
    q.(status := PUBLISHED, publishedAt := Some(now))
  }

  /** `archive`: ARCHIVED from any state; `publishedAt` and the rest stay. */
  function Archive(q: Questionnaire): (r: Questionnaire)
    ensures r.status == ARCHIVED
    ensures r.(status := q.status) == q
  {
    q.(status := ARCHIVED)
  }

  /** The bean validation JPA runs before every insert and every update of a
      changed row: `title`, `originalName`, `storedName` and `filePath` carry
      `@NotBlank`, which keeps a string only if something is left after
      `trim`. */
  predicate PassesNotBlank(q: Questionnaire) {
    && !TrimsToEmpty(q.title)
    && !TrimsToEmpty(q.originalName)
    && !TrimsToEmpty(q.storedName)
    && !TrimsToEmpty(q.filePath)
  }

  /** A published questionnaire carries its publication time. */
  predicate PublishedHasDate(q: Questionnaire) {
    q.status == PUBLISHED ==> q.publishedAt.Some?
  }

  /** Every lifecycle step keeps a published questionnaire dated, and a new one
      starts out satisfying it. */
  lemma LifecycleKeepsPublishedDated(q: Questionnaire, now: LocalDateTime, at: Stamps)
    requires PublishedHasDate(q)
    ensures PublishedHasDate(Publish(q, now))
    ensures PublishedHasDate(Archive(q))
    ensures PublishedHasDate(IncrementDownloadCount(q))
    ensures PublishedHasDate(OnCreate(q, at))
  {
  }

  /** No transition is closed off: an archived questionnaire can be published
      again, and publishing twice keeps the later time. Archiving twice is the
      same as archiving once. */
  lemma LifecycleTransitions(q: Questionnaire, t1: LocalDateTime, t2: LocalDateTime)
    ensures Publish(Archive(q), t1).status == PUBLISHED
    ensures Publish(Publish(q, t1), t2).publishedAt == Some(t2)
    ensures Archive(Publish(q, t1)).publishedAt == Some(t1)
    ensures Archive(Archive(q)) == Archive(q)
  {
  }

  /** Downloads below `Integer.MAX_VALUE` raise the count by exactly one. */
  lemma {:induction false} DownloadCountAfter(q: Questionnaire, n: nat)
    requires q.downloadCount.GetOr(0) >= 0
    requires q.downloadCount.GetOr(0) + n <= IntegerMax
    ensures Repeat(q, n).downloadCount.GetOr(0) == q.downloadCount.GetOr(0) + n
    ensures n > 0 ==> Repeat(q, n).(downloadCount := q.downloadCount) == q
  {
    if n > 0 {
      DownloadCountAfter(q, n - 1);
    }
  }

  /** `n` successive calls of `incrementDownloadCount`. */
  function Repeat(q: Questionnaire, n: nat): Questionnaire {
    if n == 0 then q else IncrementDownloadCount(Repeat(q, n - 1))
  }
}

=== FILE: questionnaire_repository.dfy ===
/** `QuestionnaireRepository`: the `questionnaires` table as a sequence of rows,
    its derived and annotated queries as filters, descending sorts and pages,
    and its bulk increment. Owners are compared by user id. */
module QuestionnaireRepository {
  import opened Wrappers
  import opened JavaText
  import opened Clock
  import opened Queries
  import opened QuestionnaireEntity

  /** The rows in insertion order and the next identity value. */
  datatype QuestionnaireTable = QuestionnaireTable(rows: seq<Questionnaire>, nextId: int)

  const EmptyTable: QuestionnaireTable := QuestionnaireTable([], 1)

  /** Saved rows have positive identity ids below the next one to be issued;
      ids and stored names (a unique column) are unique; a published row has
      a publication time. */
  predicate Valid(t: QuestionnaireTable) {
    && t.nextId >= 1
    && (forall i :: 0 <= i < |t.rows| ==> t.rows[i].id.Some? && 1 <= t.rows[i].id.value < t.nextId)
    && (forall i :: 0 <= i < |t.rows| ==> PublishedHasDate(t.rows[i]))
    && (forall i, j :: 0 <= i < j < |t.rows| ==>
          t.rows[i].id != t.rows[j].id && t.rows[i].storedName != t.rows[j].storedName)
  }

  function CreatedKey(q: Questionnaire): int {
    Key(q.createdAt)
  }

  /** The `publishedAt` order; a NULL sorts below every time, so last when
      descending. */
  function PublishedKey(q: Questionnaire): int {
    match q.publishedAt
    case Some(t) => Key(t)
    case None => -1
  }

  /** The `downloadCount` order; a NULL sorts below every count. */
  function PopularKey(q: Questionnaire): int {
    match q.downloadCount
    case Some(n) => n
    case None => IntegerMin - 1
  }

  function OwnedActive(user: int): Questionnaire -> bool {
    (q: Questionnaire) => q.createdBy == user && q.isActive
  }

  function OwnedActiveWith(user: int, status: Status): Questionnaire -> bool {
    (q: Questionnaire) => q.createdBy == user && q.status == status && q.isActive
  }

  function PublishedActive(q: Questionnaire): bool {
    q.status == PUBLISHED && q.isActive
  }

  function ActiveWith(status: Status): Questionnaire -> bool {
    (q: Questionnaire) => q.status == status && q.isActive
  }

  function ActiveIn(category: string): Questionnaire -> bool {
    (q: Questionnaire) => q.category == Some(category) && q.isActive
  }

  function OwnedActiveIn(user: int, category: string): Questionnaire -> bool {
    (q: Questionnaire) => q.createdBy == user && q.category == Some(category) && q.isActive
  }

  function ActiveTitled(title: string): Questionnaire -> bool {
    (q: Questionnaire) => Contains(q.title, title) && q.isActive
  }

  function OwnedActiveTitled(user: int, title: string): Questionnaire -> bool {
    (q: Questionnaire) => q.createdBy == user && Contains(q.title, title) && q.isActive
  }

  function PublishedTagged(tag: string): Questionnaire -> bool {
    (q: Questionnaire) => q.tags.Some? && Contains(q.tags.value, tag) && PublishedActive(q)
  }

  /** `findByIdAndCreatedByAndIsActiveTrue`: the position of the row with this
      id, this creator and the active flag set. */
  function FindByIdAndCreatedByAndIsActiveTrue(t: QuestionnaireTable, id: int, user: int): (r: Option<nat>)
    ensures r.Some? ==> r.value < |t.rows| && t.rows[r.value].id == Some(id)
                        && t.rows[r.value].createdBy == user && t.rows[r.value].isActive
    ensures r.None? <==> forall k :: 0 <= k < |t.rows| ==>
                          !(t.rows[k].id == Some(id) && t.rows[k].createdBy == user && t.rows[k].isActive)
  {
    FindFirst(t.rows, (q: Questionnaire) => q.id == Some(id) && q.createdBy == user && q.isActive)
  }

  /** `findByIdAndIsActiveTrue`: id and active flag only, any creator. */
  function FindByIdAndIsActiveTrue(t: QuestionnaireTable, id: int): (r: Option<nat>)
    ensures r.Some? ==> r.value < |t.rows| && t.rows[r.value].id == Some(id) && t.rows[r.value].isActive
    ensures r.None? <==> forall k :: 0 <= k < |t.rows| ==> !(t.rows[k].id == Some(id) && t.rows[k].isActive)
  {
    FindFirst(t.rows, (q: Questionnaire) => q.id == Some(id) && q.isActive)
  }

  /** `findByCreatedByAndIsActiveTrueOrderByCreatedAtDesc(user)`. */
  function FindByCreatedByAndIsActiveTrueOrderByCreatedAtDesc(t: QuestionnaireTable, user: int): (r: seq<Questionnaire>)
    ensures forall q :: q in r <==> q in t.rows && q.createdBy == user && q.isActive
    ensures multiset(r) == multiset(Filter(t.rows, OwnedActive(user)))
    ensures SortedDesc(r, CreatedKey)
    ensures |r| == CountByCreatedByAndIsActiveTrue(t, user)
  {
    Select(t.rows, OwnedActive(user), CreatedKey)
  }

  /** The pageable overload: one page of the list above. */
  function FindByCreatedByAndIsActiveTrueOrderByCreatedAtDescPaged(t: QuestionnaireTable, user: int,
                                                                   pageable: Pageable): (r: seq<Questionnaire>)
    ensures IsPage(r, FindByCreatedByAndIsActiveTrueOrderByCreatedAtDesc(t, user), pageable)
    ensures |r| <= pageable.size
    ensures forall q :: q in r ==> q in t.rows && q.createdBy == user && q.isActive
    ensures SortedDesc(r, CreatedKey)
  {
    var all := FindByCreatedByAndIsActiveTrueOrderByCreatedAtDesc(t, user);
    PageOfSorted(all, pageable, CreatedKey);
    Page(all, pageable)
  }

  /** `findByCreatedByAndStatusAndIsActiveTrueOrderByCreatedAtDesc`. */
  function FindByCreatedByAndStatusAndIsActiveTrueOrderByCreatedAtDesc(t: QuestionnaireTable, user: int,
                                                                       status: Status): (r: seq<Questionnaire>)
    ensures forall q :: q in r <==> q in t.rows && q.createdBy == user && q.status == status && q.isActive
    ensures multiset(r) == multiset(Filter(t.rows, OwnedActiveWith(user, status)))
    ensures SortedDesc(r, CreatedKey)
    ensures |r| == CountByCreatedByAndStatusAndIsActiveTrue(t, user, status)
  {
    Select(t.rows, OwnedActiveWith(user, status), CreatedKey)
  }

  /** `findByCategoryAndIsActiveTrueOrderByCreatedAtDesc`: every creator. */
  function FindByCategoryAndIsActiveTrueOrderByCreatedAtDesc(t: QuestionnaireTable, category: string): (r: seq<Questionnaire>)
    ensures forall q :: q in r <==> q in t.rows && q.category == Some(category) && q.isActive
    ensures multiset(r) == multiset(Filter(t.rows, ActiveIn(category)))
    ensures SortedDesc(r, CreatedKey)
  {
    Select(t.rows, ActiveIn(category), CreatedKey)
  }

  /** `findByTitleContaining`: active rows of every creator whose title
      contains the keyword, newest first. */
  function FindByTitleContaining(t: QuestionnaireTable, title: string): (r: seq<Questionnaire>)
    ensures forall q :: q in r <==> q in t.rows && Contains(q.title, title) && q.isActive
    ensures multiset(r) == multiset(Filter(t.rows, ActiveTitled(title)))
    ensures SortedDesc(r, CreatedKey)
  {
    Select(t.rows, ActiveTitled(title), CreatedKey)
  }

  /** `findByCreatedByAndTitleContaining`: the same, for one creator. */
  function FindByCreatedByAndTitleContaining(t: QuestionnaireTable, user: int, title: string): (r: seq<Questionnaire>)
    ensures forall q :: q in r <==> q in t.rows && q.createdBy == user && Contains(q.title, title) && q.isActive
    ensures multiset(r) == multiset(Filter(t.rows, OwnedActiveTitled(user, title)))
    ensures SortedDesc(r, CreatedKey)
  {
    Select(t.rows, OwnedActiveTitled(user, title), CreatedKey)
  }

  /** `findByStatusAndIsActiveTrueOrderByPublishedAtDesc(status)`. */
  function FindByStatusAndIsActiveTrueOrderByPublishedAtDesc(t: QuestionnaireTable, status: Status): (r: seq<Questionnaire>)
    ensures forall q :: q in r <==> q in t.rows && q.status == status && q.isActive
    ensures multiset(r) == multiset(Filter(t.rows, ActiveWith(status)))
    ensures SortedDesc(r, PublishedKey)
  {
    Select(t.rows, ActiveWith(status), PublishedKey)
  }

  /** The pageable overload. */
  function FindByStatusAndIsActiveTrueOrderByPublishedAtDescPaged(t: QuestionnaireTable, status: Status,
                                                                  pageable: Pageable): (r: seq<Questionnaire>)
    ensures IsPage(r, FindByStatusAndIsActiveTrueOrderByPublishedAtDesc(t, status), pageable)
    ensures |r| <= pageable.size
    ensures forall q :: q in r ==> q in t.rows && q.status == status && q.isActive
    ensures SortedDesc(r, PublishedKey)
  {
    var all := FindByStatusAndIsActiveTrueOrderByPublishedAtDesc(t, status);
    PageOfSorted(all, pageable, PublishedKey);
    Page(all, pageable)
  }

  /** `countByCreatedByAndIsActiveTrue`. */
  function CountByCreatedByAndIsActiveTrue(t: QuestionnaireTable, user: int): (r: nat)
    ensures r == |Filter(t.rows, OwnedActive(user))|
    ensures r <= |t.rows|
    ensures r == 0 <==> forall q :: q in t.rows ==> !(q.createdBy == user && q.isActive)
  {
    Count(t.rows, OwnedActive(user))
  }

  /** `countByCreatedByAndStatusAndIsActiveTrue`. */
  function CountByCreatedByAndStatusAndIsActiveTrue(t: QuestionnaireTable, user: int, status: Status): (r: nat)
    ensures r == |Filter(t.rows, OwnedActiveWith(user, status))|
    ensures r <= CountByCreatedByAndIsActiveTrue(t, user)
    ensures r == 0 <==> forall q :: q in t.rows ==> !(q.createdBy == user && q.status == status && q.isActive)
  {
    CountMonotone(t.rows, OwnedActive(user), OwnedActiveWith(user, status));
    Count(t.rows, OwnedActiveWith(user, status))
  }

  /** The published, active rows, most downloaded first: the listing
      `findPopularQuestionnaires` pages through. */
  function PublishedByPopularity(t: QuestionnaireTable): (r: seq<Questionnaire>)
    ensures forall q :: q in r <==> q in t.rows && q.status == PUBLISHED && q.isActive
    ensures multiset(r) == multiset(Filter(t.rows, PublishedActive))
    ensures |r| == Count(t.rows, PublishedActive)
    ensures SortedDesc(r, PopularKey)
  {
    Select(t.rows, PublishedActive, PopularKey)
  }

  /** The published, active rows, most recently published first: the listing
      `findLatestPublishedQuestionnaires` pages through. */
  function PublishedNewestFirst(t: QuestionnaireTable): (r: seq<Questionnaire>)
    ensures forall q :: q in r <==> q in t.rows && q.status == PUBLISHED && q.isActive
    ensures multiset(r) == multiset(Filter(t.rows, PublishedActive))
    ensures |r| == Count(t.rows, PublishedActive)
    ensures SortedDesc(r, PublishedKey)
  {
    Select(t.rows, PublishedActive, PublishedKey)
  }

  /** `findPopularQuestionnaires`: one page of the published, active rows, most
      downloaded first. On the first page no row left off has more downloads
      than a row on it. */
  function FindPopularQuestionnaires(t: QuestionnaireTable, pageable: Pageable): (r: seq<Questionnaire>)
    ensures IsPage(r, PublishedByPopularity(t), pageable)
    ensures |r| <= pageable.size
    ensures forall q :: q in r ==> q in t.rows && q.status == PUBLISHED && q.isActive
    ensures SortedDesc(r, PopularKey)
    ensures pageable.page == 0 ==>
              forall q :: q in t.rows && PublishedActive(q) && q !in r ==>
                forall i :: 0 <= i < |r| ==> PopularKey(r[i]) >= PopularKey(q)
  {
    var all := PublishedByPopularity(t);
    PageOfSorted(all, pageable, PopularKey);
    if pageable.page == 0 then
      FirstPageIsTop(all, pageable, PopularKey);
      assert forall q :: q in t.rows && PublishedActive(q) ==> q in all;
      Page(all, pageable)
    else
      Page(all, pageable)
  }

  /** `findLatestPublishedQuestionnaires`: one page of the published, active
      rows, most recently published first. */
  function FindLatestPublishedQuestionnaires(t: QuestionnaireTable, pageable: Pageable): (r: seq<Questionnaire>)
    ensures IsPage(r, PublishedNewestFirst(t), pageable)
    ensures |r| <= pageable.size
    ensures forall q :: q in r ==> q in t.rows && q.status == PUBLISHED && q.isActive
    ensures SortedDesc(r, PublishedKey)
  {
    var all := PublishedNewestFirst(t);
    PageOfSorted(all, pageable, PublishedKey);
    Page(all, pageable)
  }

  /** `findByTagsContaining`: published, active rows whose tags contain the
      tag; a row without tags never matches. */
  function FindByTagsContaining(t: QuestionnaireTable, tag: string): (r: seq<Questionnaire>)
    ensures forall q :: q in r <==>
              q in t.rows && q.tags.Some? && Contains(q.tags.value, tag) && q.status == PUBLISHED && q.isActive
    ensures multiset(r) == multiset(Filter(t.rows, PublishedTagged(tag)))
    ensures SortedDesc(r, CreatedKey)
  {
    Select(t.rows, PublishedTagged(tag), CreatedKey)
  }

  /** `findByCreatedByAndCategoryAndIsActiveTrueOrderByCreatedAtDesc`. */
  function FindByCreatedByAndCategoryAndIsActiveTrueOrderByCreatedAtDesc(t: QuestionnaireTable, user: int,
                                                                         category: string): (r: seq<Questionnaire>)
    ensures forall q :: q in r <==> q in t.rows && q.createdBy == user && q.category == Some(category) && q.isActive
    ensures multiset(r) == multiset(Filter(t.rows, OwnedActiveIn(user, category)))
    ensures SortedDesc(r, CreatedKey)
  {
    Select(t.rows, OwnedActiveIn(user, category), CreatedKey)
  }

  /** `findAllCategories`: the distinct non-null categories of active rows. */
  function FindAllCategories(t: QuestionnaireTable): (r: set<string>)
    ensures forall c :: c in r <==> exists q :: q in t.rows && q.isActive && q.category == Some(c)
  {
    set q | q in t.rows && q.isActive && q.category.Some? :: q.category.value
  }

  /** `incrementDownloadCount(id)`, a bulk UPDATE by id alone: the active flag
      is not consulted, the entity hooks do not run, a NULL count stays NULL,
      and `updatedAt` becomes the database's current time. A count already at `Integer.MAX_VALUE`
      does not fit the column, and the statement fails. */
  function IncrementDownloadCount(t: QuestionnaireTable, id: int, now: LocalDateTime): (r: Result<QuestionnaireTable, ()>)
    ensures r.Err? <==> exists q :: q in t.rows && q.id == Some(id) && q.downloadCount == Some(IntegerMax)
    ensures r.Ok? ==> |r.value.rows| == |t.rows| && r.value.nextId == t.nextId
    ensures r.Ok? ==> forall k :: 0 <= k < |t.rows| && t.rows[k].id == Some(id) ==>
              && r.value.rows[k].downloadCount.Some? == t.rows[k].downloadCount.Some?
              && (t.rows[k].downloadCount.Some? ==>
                    r.value.rows[k].downloadCount.value == t.rows[k].downloadCount.value + 1)
              && r.value.rows[k].updatedAt == now
              && r.value.rows[k].(downloadCount := t.rows[k].downloadCount, updatedAt := t.rows[k].updatedAt)
                 == t.rows[k]
    ensures r.Ok? ==> forall k :: 0 <= k < |t.rows| && t.rows[k].id != Some(id) ==> r.value.rows[k] == t.rows[k]
    ensures r.Ok? && Valid(t) ==> Valid(r.value)
  {
    if exists q :: q in t.rows && q.id == Some(id) && q.downloadCount == Some(IntegerMax) then Err(())
    else
      var rows := BumpRows(t.rows, id, now);
      RowwiseKeepsValid(t, rows);
      Ok(t.(rows := rows))
  }

  /** Replacing rows one for one, each keeping its id and stored name and
      keeping a published row dated, keeps the invariant. */
  lemma RowwiseKeepsValid(t: QuestionnaireTable, rows: seq<Questionnaire>)
    requires |rows| == |t.rows|
    requires forall k :: 0 <= k < |t.rows| ==>
               && rows[k].id == t.rows[k].id
               && rows[k].storedName == t.rows[k].storedName
               && (PublishedHasDate(t.rows[k]) ==> PublishedHasDate(rows[k]))
    ensures Valid(t) ==> Valid(t.(rows := rows))
  {
  }

  /** The rows after the UPDATE: those with the id bumped, the rest as they were. */
  function BumpRows(rows: seq<Questionnaire>, id: int, now: LocalDateTime): (r: seq<Questionnaire>)
    requires forall q :: q in rows && q.id == Some(id) ==> q.downloadCount != Some(IntegerMax)
    ensures |r| == |rows|
    ensures forall k :: 0 <= k < |rows| ==> r[k] == if rows[k].id == Some(id) then Bumped(rows[k], now) else rows[k]
  {
    seq(|rows|, k requires 0 <= k < |rows| => if rows[k].id == Some(id) then Bumped(rows[k], now) else rows[k])
  }

  /** One row after the UPDATE, for a count below the maximum. */
  function Bumped(q: Questionnaire, now: LocalDateTime): (r: Questionnaire)
    requires q.downloadCount != Some(IntegerMax)
    ensures r.(downloadCount := q.downloadCount, updatedAt := q.updatedAt) == q
    ensures r.updatedAt == now
    ensures q.downloadCount.None? ==> r.downloadCount.None?
    ensures q.downloadCount.Some? ==> r.downloadCount == Some(q.downloadCount.value + 1)
  {
    match q.downloadCount
    case Some(n) => q.(downloadCount := Some(n + 1), updatedAt := now)
    case None => q.(updatedAt := now)
  }

  /** `save` of a new questionnaire: the `@PrePersist` hook runs, the row gets
      the next identity value, and a stored name already in the table violates
      the unique constraint. */
  function Insert(t: QuestionnaireTable, q: Questionnaire, at: Stamps): (r: Result<(QuestionnaireTable, Questionnaire), ()>)
    ensures r.Err? <==> exists x :: x in t.rows && x.storedName == q.storedName
    ensures r.Ok? ==> r.value.1 == OnCreate(q, at).(id := Some(t.nextId))
    ensures r.Ok? ==> r.value.0 == QuestionnaireTable(t.rows + [r.value.1], t.nextId + 1)
    ensures r.Ok? && Valid(t) && PublishedHasDate(q) ==> Valid(r.value.0)
  {
    if exists x :: x in t.rows && x.storedName == q.storedName then Err(())
    else
      var saved := OnCreate(q, at).(id := Some(t.nextId));
      Ok((QuestionnaireTable(t.rows + [saved], t.nextId + 1), saved))
  }

  /** `save` of the loaded row at position `i`, now holding `current`: what the
      flush writes replaces that row and no other. */
  function SaveAt(t: QuestionnaireTable, i: nat, current: Questionnaire, now: LocalDateTime): (r: QuestionnaireTable)
    requires i < |t.rows|
    ensures |r.rows| == |t.rows| && r.nextId == t.nextId
    ensures r.rows[i] == Flush(t.rows[i], current, now)
    ensures forall k :: 0 <= k < |t.rows| && k != i ==> r.rows[k] == t.rows[k]
    ensures Valid(t) && current.id == t.rows[i].id && current.storedName == t.rows[i].storedName
              && PublishedHasDate(current)
            ==> Valid(r)
  {
    t.(rows := t.rows[i := Flush(t.rows[i], current, now)])
  }
}

=== FILE: questionnaire_service.dfy ===
/** `QuestionnaireService`: upload with validation and a default title;
    download by id for any caller, counting successful downloads; the
    creator-scoped lifecycle operations publish, archive, soft delete and
    update; listings, search and per-creator statistics. */
module QuestionnaireService {
  import opened Wrappers
  import opened JavaText
  import opened Clock
  import opened Queries
  import opened UploadRules
  import opened QuestionnaireEntity
  import opened QuestionnaireRepository

  const AllowedExtensions: seq<string> := [".pdf", ".doc", ".docx", ".xls", ".xlsx", ".txt", ".jpg", ".jpeg", ".png", ".gif"]

  /** The formats the unsupported-type message advertises. */
  const SupportedFormats: string := "PDF, DOC, DOCX, XLS, XLSX, TXT, JPG, JPEG, PNG, GIF"

  const NamePrefix: string := "questionnaire_"
  const UploadFailed: string := "问卷上传失败: "
  const DownloadFailed: string := "问卷下载失败: "
  const NotFound: string := "问卷不存在"
  const NotFoundOrNoOperate: string := "问卷不存在或无权限操作"
  const NotFoundOrNoDelete: string := "问卷不存在或无权限删除"
  const NotFoundOrNoModify: string := "问卷不存在或无权限修改"
  const FileMissing: string := "问卷文件不存在: "
  const FileUnreadable: string := "无法读取问卷文件: "

  type QuestionnaireView = View<Questionnaire>

  /** `isAllowedFileType`: the lower-cased extension is one of the ten. */
  function IsAllowedFileType(filename: string): (r: bool)
    ensures r <==> ToLower(Extension(filename)) in AllowedExtensions
    ensures r ==> |Extension(filename)| >= 4
  {
    ExtensionIn(filename, AllowedExtensions)
  }

  /** `validateFile` with this service's allow-list. */
  function ValidateFile(cfg: Config, file: MultipartFile): Result<string, ValidationError> {
    Validate(file, cfg.maxFileSize, AllowedExtensions)
  }

  /** The size limit is inclusive, as for plain files. */
  lemma SizeLimitIsInclusive(cfg: Config, name: string, contentType: Option<string>)
    requires cfg.maxFileSize > 0
    requires HasText(Some(name)) && IsAllowedFileType(name)
    ensures ValidateFile(cfg, MultipartFile(Some(name), cfg.maxFileSize, contentType)) == Ok(name)
    ensures ValidateFile(cfg, MultipartFile(Some(name), cfg.maxFileSize + 1, contentType)).Err?
    ensures ValidateFile(cfg, MultipartFile(Some(name), cfg.maxFileSize + 1, contentType)).error.FileTooLarge?
  {
  }

  /** `createQuestionnaireDirectory`. */
  function QuestionnaireDirectory(cfg: Config): (r: string)
    ensures cfg.uploadDir != [] ==> StartsWith(r, cfg.uploadDir + "/")
    ensures |r| >= 14 && r[|r| - 14..] == "questionnaires"
  {
    JoinPath(cfg.uploadDir, "questionnaires")
  }

  /** `generateDownloadUrl`. */
  function QuestionnaireDownloadUrl(cfg: Config, id: Option<int>): (r: string)
    ensures id.Some? ==> ParseDownloadUrl(r, cfg.serverPort, "questionnaires") == id
  {
    if id.Some? then
      DownloadUrlRoundTrip(cfg.serverPort, "questionnaires", id.value);
      DownloadUrl(cfg.serverPort, "questionnaires", id)
    else
      DownloadUrl(cfg.serverPort, "questionnaires", id)
  }

  /** No allowed extension holds a path separator. */
  lemma AllowedExtensionsHaveNoSeparator()
    ensures forall a :: a in AllowedExtensions ==> NoSeparator(a)
  {
    forall a | a in AllowedExtensions
      ensures NoSeparator(a)
    {
    }
  }

  /** The stored name of an allowed file: the prefix, 24 characters, and the
      original extension; no path separator. */
  lemma StoredFileName(name: string, env: UploadEnv)
    requires IsAllowedFileType(name)
    ensures var stored := StoredName(NamePrefix, env.now, env.uuid, name);
            && |stored| == 38 + |Extension(name)|
            && StartsWith(stored, NamePrefix)
            && NoSeparator(stored)
            && Extension(stored) == Extension(name)
  {
    var stored := StoredName(NamePrefix, env.now, env.uuid, name);
    AllowedExtensionsHaveNoSeparator();
    PrefixHasNoSeparator();
    assert ExtensionIn(name, AllowedExtensions);
    StoredNameHasNoSeparator(NamePrefix, env.now, env.uuid, name, AllowedExtensions);
    StoredNameKeepsExtension(NamePrefix, env.now, env.uuid, name);
    assert |stored| == |NamePrefix| + 24 + |Extension(name)|;
  }

  lemma PrefixHasNoSeparator()
    ensures NoSeparator(NamePrefix)
  {
    forall i | 0 <= i < |NamePrefix|
      ensures !IsSeparator(NamePrefix[i])
    {
    }
  }

  /** The title an upload records: the given one when it has text, otherwise
      the original file name. */
  function DefaultTitle(title: Option<string>, originalName: string): (r: string)
    ensures HasText(title) ==> r == title.value
    ensures !HasText(title) ==> r == originalName
  {
    if HasText(title) then title.value else originalName
  }

  /** What a successful upload leaves: the table gains exactly the new row,
      a DRAFT with the request's fields, the next id, a stored name built from
      the clock and the UUID in the questionnaire directory, and a URL naming
      its id. */
  ghost predicate Saved(cfg: Config, t: QuestionnaireTable, result: (QuestionnaireTable, QuestionnaireView),
                        title: string, size: nat, contentType: Option<string>, description: Option<string>,
                        category: Option<string>, tags: Option<string>, user: int, env: UploadEnv) {
    var saved := result.1.record;
    && result.0.rows == t.rows + [saved]
    && result.0.nextId == t.nextId + 1
    && saved.id == Some(t.nextId)
    && saved.title == title
    && saved.fileSize == size && saved.fileType == contentType
    && saved.description == description && saved.category == category && saved.tags == tags
    && saved.createdBy == user
    && saved.status == DRAFT && saved.isActive && saved.downloadCount == Some(0) && saved.publishedAt.None?
    && saved.createdAt == env.persisted.created && saved.updatedAt == env.persisted.updated
    && saved.storedName == StoredName(NamePrefix, env.now, env.uuid, saved.originalName)
    && saved.filePath == JoinPath(QuestionnaireDirectory(cfg), saved.storedName)
    && result.1.downloadUrl == QuestionnaireDownloadUrl(cfg, Some(t.nextId))
    && ParseDownloadUrl(result.1.downloadUrl, cfg.serverPort, "questionnaires") == Some(t.nextId)
  }

  /** `uploadQuestionnaire`. Every failure, validation included, surfaces as
      one exception whose message starts with the upload prefix. */
  function UploadQuestionnaire(cfg: Config, t: QuestionnaireTable, file: MultipartFile, title: Option<string>,
                               description: Option<string>, category: Option<string>, tags: Option<string>,
                               user: int, env: UploadEnv): (r: Result<(QuestionnaireTable, QuestionnaireView), string>)
    ensures r.Err? ==> StartsWith(r.error, UploadFailed)
    ensures ValidateFile(cfg, file).Err? ==>
              r == Err(UploadFailed + ValidationMessage(ValidateFile(cfg, file).error, SupportedFormats))
    ensures r.Ok? <==>
              && ValidateFile(cfg, file).Ok?
              && env.writeError.None?
              && !(HasText(title) && TrimsToEmpty(title.value))
              && forall q :: q in t.rows ==>
                   q.storedName != StoredName(NamePrefix, env.now, env.uuid, file.originalFilename.value)
    ensures ValidateFile(cfg, file).Ok? && env.writeError.None? && HasText(title) && TrimsToEmpty(title.value) ==>
              r == Err(UploadFailed + env.validationError)
    ensures r.Ok? ==>
              && Some(r.value.1.record.originalName) == file.originalFilename
              && Saved(cfg, t, r.value, DefaultTitle(title, r.value.1.record.originalName), file.size,
                       file.contentType, description, category, tags, user, env)
    ensures r.Ok? && Valid(t) ==> Valid(r.value.0)
  {
    match ValidateFile(cfg, file)
    case Err(e) =>
      PrefixStarts(UploadFailed, ValidationMessage(e, SupportedFormats));
      Err(UploadFailed + ValidationMessage(e, SupportedFormats))
    case Ok(name) =>
      AllowedNameNotBlank(name);
      SaveUpload(cfg, t, DefaultTitle(title, name), name, file.size, file.contentType, description, category,
                 tags, user, env)
  }

  /** The part of `uploadQuestionnaire` after validation and the title default:
      write the bytes, then insert the row. */
  function SaveUpload(cfg: Config, t: QuestionnaireTable, title: string, name: string, size: nat,
                      contentType: Option<string>, description: Option<string>, category: Option<string>,
                      tags: Option<string>, user: int, env: UploadEnv): (r: Result<(QuestionnaireTable, QuestionnaireView), string>)
    ensures r.Err? ==> StartsWith(r.error, UploadFailed)
    ensures r.Ok? <==>
              && env.writeError.None?
              && !TrimsToEmpty(title) && !TrimsToEmpty(name)
              && forall q :: q in t.rows ==> q.storedName != StoredName(NamePrefix, env.now, env.uuid, name)
    ensures env.writeError.None? && (TrimsToEmpty(title) || TrimsToEmpty(name)) ==>
              r == Err(UploadFailed + env.validationError)
    ensures r.Ok? ==> r.value.1.record.originalName == name
                      && Saved(cfg, t, r.value, title, size, contentType, description, category, tags, user, env)
    ensures r.Ok? && Valid(t) ==> Valid(r.value.0)
  {
    var storedName := StoredName(NamePrefix, env.now, env.uuid, name);
    var filePath := JoinPath(QuestionnaireDirectory(cfg), storedName);
    if env.writeError.Some? then
      PrefixStarts(UploadFailed, env.writeError.value);
      Err(UploadFailed + env.writeError.value)
    else
      var q := NewQuestionnaire(title, name, storedName, filePath, size, contentType, user, env.built)
                 .(description := description, category := category, tags := tags);
      StoredPathNotBlank(cfg, name, env);
      InsertUpload(cfg, t, q, env)
  }

  /** The insert step of an upload: bean validation first, then the insert,
      where a stored name already in the table fails; both failures carry the
      upload prefix. A saved row is paired with its URL. */
  function InsertUpload(cfg: Config, t: QuestionnaireTable, q: Questionnaire, env: UploadEnv)
    : (r: Result<(QuestionnaireTable, QuestionnaireView), string>)
    ensures r.Err? ==> StartsWith(r.error, UploadFailed)
    ensures !PassesNotBlank(q) ==> r == Err(UploadFailed + env.validationError)
    ensures r.Ok? <==> PassesNotBlank(q) && forall x :: x in t.rows ==> x.storedName != q.storedName
    ensures r.Ok? ==> && r.value.1.record == OnCreate(q, env.persisted).(id := Some(t.nextId))
                      && r.value.0 == QuestionnaireTable(t.rows + [r.value.1.record], t.nextId + 1)
                      && r.value.1.downloadUrl == QuestionnaireDownloadUrl(cfg, Some(t.nextId))
                      && ParseDownloadUrl(r.value.1.downloadUrl, cfg.serverPort, "questionnaires") == Some(t.nextId)
    ensures r.Ok? && Valid(t) && PublishedHasDate(q) ==> Valid(r.value.0)
  {
    if !PassesNotBlank(q) then
      PrefixStarts(UploadFailed, env.validationError);
      Err(UploadFailed + env.validationError)
    else
      match Insert(t, q, env.persisted)
      case Err(_) =>
        PrefixStarts(UploadFailed, env.constraintError);
        Err(UploadFailed + env.constraintError)
      case Ok(saved) => Ok((saved.0, View(saved.1, QuestionnaireDownloadUrl(cfg, saved.1.id))))
  }

  /** A name that passed validation ends in an allowed extension, so it holds a
      '.', and `trim` cannot empty it. */
  lemma AllowedNameNotBlank(name: string)
    requires IsAllowedFileType(name)
    ensures !TrimsToEmpty(name)
  {
    ExtensionNotBlank(name);
  }

  /** The stored name holds the stamp and the path ends with the stored name,
      so neither is ever blank. */
  lemma StoredPathNotBlank(cfg: Config, name: string, env: UploadEnv)
    ensures !TrimsToEmpty(StoredName(NamePrefix, env.now, env.uuid, name))
    ensures !TrimsToEmpty(JoinPath(QuestionnaireDirectory(cfg), StoredName(NamePrefix, env.now, env.uuid, name)))
  {
    StoredNameNotBlank(NamePrefix, env.now, env.uuid, name);
    JoinedNotBlank(QuestionnaireDirectory(cfg), StoredName(NamePrefix, env.now, env.uuid, name));
  }

  /** The row a download counts: the loaded row with the entity's increment
      applied and, since the count always changes, `updatedAt` refreshed. */
  function Downloaded(q: Questionnaire, now: LocalDateTime): (r: Questionnaire)
    ensures r == Flush(q, QuestionnaireEntity.IncrementDownloadCount(q), now)
    ensures r.updatedAt == now
    ensures 0 <= q.downloadCount.GetOr(0) < IntegerMax ==> r.downloadCount == Some(q.downloadCount.GetOr(0) + 1)
    ensures r.(downloadCount := q.downloadCount, updatedAt := q.updatedAt) == q
  {
    assert QuestionnaireEntity.IncrementDownloadCount(q).downloadCount != q.downloadCount;
    QuestionnaireEntity.IncrementDownloadCount(q).(updatedAt := now)
  }

  /** `downloadQuestionnaire`: any caller may download any active
      questionnaire; the caller is only logged. On success the table holds the
      counted row and the result is the path of the file streamed. Every
      failure is rethrown with the download prefix, and leaves the table as it
      was. */
  function DownloadQuestionnaire(t: QuestionnaireTable, id: int, user: int, blobAt: string -> BlobState,
                                 now: LocalDateTime): (r: Result<(QuestionnaireTable, string), string>)
    ensures r.Err? ==> StartsWith(r.error, DownloadFailed)
    ensures FindByIdAndIsActiveTrue(t, id).None? ==> r == Err(DownloadFailed + NotFound)
    ensures r.Ok? ==>
              var i := FindByIdAndIsActiveTrue(t, id).value;
              && blobAt(t.rows[i].filePath) == Readable
              && r.value.1 == t.rows[i].filePath
              && r.value.0 == SaveAt(t, i, QuestionnaireEntity.IncrementDownloadCount(t.rows[i]), now)
              && r.value.0.rows[i] == Downloaded(t.rows[i], now)
    ensures Valid(t) ==>
              forall k :: 0 <= k < |t.rows| && t.rows[k].id == Some(id) && t.rows[k].isActive
                ==> (r.Ok? <==> blobAt(t.rows[k].filePath) == Readable)
    ensures FindByIdAndIsActiveTrue(t, id).Some? ==>
              var x := t.rows[FindByIdAndIsActiveTrue(t, id).value];
              && (blobAt(x.filePath) == Missing ==> r == Err(DownloadFailed + (FileMissing + x.title)))
              && (blobAt(x.filePath) == Unreadable ==> r == Err(DownloadFailed + (FileUnreadable + x.title)))
    ensures r.Ok? && Valid(t) ==> Valid(r.value.0)
  {
    match FindByIdAndIsActiveTrue(t, id)
    case None =>
      PrefixStarts(DownloadFailed, NotFound);
      Err(DownloadFailed + NotFound)
    case Some(i) =>
      var q := t.rows[i];
      match blobAt(q.filePath)
      case Missing =>
        PrefixStarts(DownloadFailed, FileMissing + q.title);
        Err(DownloadFailed + (FileMissing + q.title))
      case Unreadable =>
        PrefixStarts(DownloadFailed, FileUnreadable + q.title);
        Err(DownloadFailed + (FileUnreadable + q.title))
      case Readable =>
        Ok((SaveAt(t, i, QuestionnaireEntity.IncrementDownloadCount(q), now), q.filePath))
  }

  /** The download is not scoped to the creator: who asks makes no difference. */
  lemma DownloadIgnoresCaller(t: QuestionnaireTable, id: int, u1: int, u2: int, blobAt: string -> BlobState,
                              now: LocalDateTime)
    ensures DownloadQuestionnaire(t, id, u1, blobAt, now) == DownloadQuestionnaire(t, id, u2, blobAt, now)
  {
  }

  /** `getQuestionnaireInfo`: any active questionnaire, by id. */
  function GetQuestionnaireInfo(cfg: Config, t: QuestionnaireTable, id: int): (r: Result<QuestionnaireView, string>)
    ensures r.Err? <==> FindByIdAndIsActiveTrue(t, id).None?
    ensures r.Err? ==> r.error == NotFound
    ensures r.Ok? ==> r.value.record in t.rows && r.value.record.id == Some(id) && r.value.record.isActive
                      && ParseDownloadUrl(r.value.downloadUrl, cfg.serverPort, "questionnaires") == Some(id)
                      && r.value.downloadUrl == QuestionnaireDownloadUrl(cfg, Some(id))
  {
    match FindByIdAndIsActiveTrue(t, id)
    case None => Err(NotFound)
    case Some(i) => Ok(View(t.rows[i], QuestionnaireDownloadUrl(cfg, t.rows[i].id)))
  }

  /** The shape every creator-scoped write shares: look the row up by id,
      creator and active flag, fail with `message` when there is none, and
      otherwise save the row `change` makes of it. */
  function OwnedWrite(t: QuestionnaireTable, id: int, user: int, message: string,
                      change: Questionnaire -> Questionnaire, now: LocalDateTime): (r: Result<QuestionnaireTable, string>)
    ensures r.Err? <==> FindByIdAndCreatedByAndIsActiveTrue(t, id, user).None?
    ensures r.Err? ==> r.error == message
    ensures r.Ok? ==>
              var i := FindByIdAndCreatedByAndIsActiveTrue(t, id, user).value;
              && |r.value.rows| == |t.rows| && r.value.nextId == t.nextId
              && r.value.rows[i] == Flush(t.rows[i], change(t.rows[i]), now)
              && forall k :: 0 <= k < |t.rows| && k != i ==> r.value.rows[k] == t.rows[k]
  {
    match FindByIdAndCreatedByAndIsActiveTrue(t, id, user)
    case None => Err(message)
    case Some(i) => Ok(SaveAt(t, i, change(t.rows[i]), now))
  }

  /** `publishQuestionnaire`: PUBLISHED and stamped, from any state. */
  function PublishQuestionnaire(t: QuestionnaireTable, id: int, user: int, now: LocalDateTime): (r: Result<QuestionnaireTable, string>)
    ensures r.Err? <==> FindByIdAndCreatedByAndIsActiveTrue(t, id, user).None?
    ensures r.Err? ==> r.error == NotFoundOrNoOperate
    ensures r.Ok? ==>
              var i := FindByIdAndCreatedByAndIsActiveTrue(t, id, user).value;
              && |r.value.rows| == |t.rows| && r.value.nextId == t.nextId
              && r.value.rows[i].status == PUBLISHED && r.value.rows[i].publishedAt == Some(now)
              && r.value.rows[i] == Flush(t.rows[i], Publish(t.rows[i], now), now)
              && (t.rows[i].status != PUBLISHED || t.rows[i].publishedAt != Some(now) ==>
                    r.value.rows[i].updatedAt == now)
              && r.value.rows[i].(status := t.rows[i].status, publishedAt := t.rows[i].publishedAt,
                                  updatedAt := t.rows[i].updatedAt) == t.rows[i]
              && forall k :: 0 <= k < |t.rows| && k != i ==> r.value.rows[k] == t.rows[k]
    ensures r.Ok? && Valid(t) ==> Valid(r.value)
  {
    OwnedWrite(t, id, user, NotFoundOrNoOperate, (q: Questionnaire) => Publish(q, now), now)
  }

  /** `archiveQuestionnaire`: ARCHIVED from any state; `updatedAt` moves only
      when the status did. */
  function ArchiveQuestionnaire(t: QuestionnaireTable, id: int, user: int, now: LocalDateTime): (r: Result<QuestionnaireTable, string>)
    ensures r.Err? <==> FindByIdAndCreatedByAndIsActiveTrue(t, id, user).None?
    ensures r.Err? ==> r.error == NotFoundOrNoOperate
    ensures r.Ok? ==>
              var i := FindByIdAndCreatedByAndIsActiveTrue(t, id, user).value;
              && |r.value.rows| == |t.rows| && r.value.nextId == t.nextId
              && r.value.rows[i].status == ARCHIVED
              && r.value.rows[i].(status := t.rows[i].status, updatedAt := t.rows[i].updatedAt) == t.rows[i]
              && (t.rows[i].status == ARCHIVED ==> r.value == t)
              && (t.rows[i].status != ARCHIVED ==> r.value.rows[i].updatedAt == now)
              && forall k :: 0 <= k < |t.rows| && k != i ==> r.value.rows[k] == t.rows[k]
    ensures r.Ok? && Valid(t) ==> Valid(r.value)
  {
    var r := OwnedWrite(t, id, user, NotFoundOrNoOperate, (q: Questionnaire) => Archive(q), now);
    if r.Ok? && t.rows[FindByIdAndCreatedByAndIsActiveTrue(t, id, user).value].status == ARCHIVED then
      assert r.value.rows == t.rows;
      r
    else
      r
  }

  /** `deleteQuestionnaire`: the soft delete; the row becomes inactive with
      `updatedAt` refreshed, nothing else moves. */
  function DeleteQuestionnaire(t: QuestionnaireTable, id: int, user: int, now: LocalDateTime): (r: Result<QuestionnaireTable, string>)
    ensures r.Err? <==> FindByIdAndCreatedByAndIsActiveTrue(t, id, user).None?
    ensures r.Err? ==> r.error == NotFoundOrNoDelete
    ensures r.Ok? ==>
              var i := FindByIdAndCreatedByAndIsActiveTrue(t, id, user).value;
              && |r.value.rows| == |t.rows| && r.value.nextId == t.nextId
              && r.value.rows[i] == t.rows[i].(isActive := false, updatedAt := now)
              && forall k :: 0 <= k < |t.rows| && k != i ==> r.value.rows[k] == t.rows[k]
    ensures r.Ok? && Valid(t) ==> Valid(r.value)
  {
    OwnedWrite(t, id, user, NotFoundOrNoDelete, (q: Questionnaire) => q.(isActive := false, updatedAt := now), now)
  }

  /** The field rule of `updateQuestionnaire`: the title only when the new
      one has text; description, category and tags whenever given, the empty
      string included. */
  function ApplyUpdate(q: Questionnaire, title: Option<string>, description: Option<string>,
                       category: Option<string>, tags: Option<string>): (r: Questionnaire)
    ensures HasText(title) ==> r.title == title.value
    ensures !HasText(title) ==> r.title == q.title
    ensures description.Some? ==> r.description == description
    ensures description.None? ==> r.description == q.description
    ensures category.Some? ==> r.category == category
    ensures category.None? ==> r.category == q.category
    ensures tags.Some? ==> r.tags == tags
    ensures tags.None? ==> r.tags == q.tags
    ensures r.(title := q.title, description := q.description, category := q.category, tags := q.tags) == q
  {
    q.(title := if HasText(title) then title.value else q.title,
       description := if description.Some? then description else q.description,
       category := if category.Some? then category else q.category,
       tags := if tags.Some? then tags else q.tags)
  }

  /** `updateQuestionnaire`: the creator's active row with the field rule
      applied, and its view. The view is built inside the transaction, before
      the flush runs `@PreUpdate`, so it carries the row's previous
      `updatedAt`; the table holds the flushed row. A changed row that fails
      bean validation aborts the commit: the call fails with `commitError`,
      the message of the exception the rollback raises, and the table keeps
      its rows. */
  function UpdateQuestionnaire(cfg: Config, t: QuestionnaireTable, id: int, title: Option<string>,
                               description: Option<string>, category: Option<string>, tags: Option<string>,
                               user: int, now: LocalDateTime, commitError: string)
    : (r: Result<(QuestionnaireTable, QuestionnaireView), string>)
    ensures FindByIdAndCreatedByAndIsActiveTrue(t, id, user).None? ==> r == Err(NotFoundOrNoModify)
    ensures FindByIdAndCreatedByAndIsActiveTrue(t, id, user).Some? ==>
              var i := FindByIdAndCreatedByAndIsActiveTrue(t, id, user).value;
              var updated := ApplyUpdate(t.rows[i], title, description, category, tags);
              && (r.Err? <==> updated != t.rows[i] && !PassesNotBlank(updated))
              && (r.Err? ==> r.error == commitError)
    ensures r.Ok? ==>
              var i := FindByIdAndCreatedByAndIsActiveTrue(t, id, user).value;
              && |r.value.0.rows| == |t.rows| && r.value.0.nextId == t.nextId
              && r.value.0.rows[i] == Flush(t.rows[i], ApplyUpdate(t.rows[i], title, description, category, tags), now)
              && r.value.1.record == ApplyUpdate(t.rows[i], title, description, category, tags)
              && r.value.1.record.(updatedAt := r.value.0.rows[i].updatedAt) == r.value.0.rows[i]
              && ParseDownloadUrl(r.value.1.downloadUrl, cfg.serverPort, "questionnaires") == Some(id)
              && r.value.1.downloadUrl == QuestionnaireDownloadUrl(cfg, Some(id))
              && forall k :: 0 <= k < |t.rows| && k != i ==> r.value.0.rows[k] == t.rows[k]
    ensures r.Ok? && Valid(t) ==> Valid(r.value.0)
  {
    match OwnedWrite(t, id, user, NotFoundOrNoModify,
                     (q: Questionnaire) => ApplyUpdate(q, title, description, category, tags), now)
    case Err(e) => Err(e)
    case Ok(t') =>
      var i := FindByIdAndCreatedByAndIsActiveTrue(t, id, user).value;
      var updated := ApplyUpdate(t.rows[i], title, description, category, tags);
      if updated != t.rows[i] && !PassesNotBlank(updated) then Err(commitError)
      else Ok((t', View(updated, QuestionnaireDownloadUrl(cfg, updated.id))))
  }

  /** On a row that passed validation when it was saved, the update fails at
      commit exactly when the new title has text for `hasText` but nothing
      left after `trim`, such as a lone U+0001. */
  lemma UpdateRejectsBlankTitle(cfg: Config, t: QuestionnaireTable, id: int, title: Option<string>,
                                description: Option<string>, category: Option<string>, tags: Option<string>,
                                user: int, now: LocalDateTime, commitError: string)
    requires FindByIdAndCreatedByAndIsActiveTrue(t, id, user).Some?
    requires PassesNotBlank(t.rows[FindByIdAndCreatedByAndIsActiveTrue(t, id, user).value])
    ensures UpdateQuestionnaire(cfg, t, id, title, description, category, tags, user, now, commitError).Err?
            <==> HasText(title) && TrimsToEmpty(title.value)
  {
    var i := FindByIdAndCreatedByAndIsActiveTrue(t, id, user).value;
    var updated := ApplyUpdate(t.rows[i], title, description, category, tags);
    if HasText(title) && TrimsToEmpty(title.value) {
      assert updated.title != t.rows[i].title;
    }
  }

  /** `hasText` and `@NotBlank` disagree on a title of control characters:
      U+0001 is not whitespace, but `trim` removes it. */
  lemma ControlCharacterTitle()
    ensures HasText(Some("\U{1}")) && TrimsToEmpty("\U{1}")
  {
    assert !IsJavaWhitespace("\U{1}"[0]);
  }

  /** An update that supplies nothing (no title with text, every other field
      null) succeeds on the creator's row and writes nothing: `updatedAt` does
      not move. */
  lemma EmptyUpdateChangesNothing(cfg: Config, t: QuestionnaireTable, id: int, title: Option<string>,
                                  user: int, now: LocalDateTime, commitError: string)
    requires !HasText(title)
    requires FindByIdAndCreatedByAndIsActiveTrue(t, id, user).Some?
    ensures UpdateQuestionnaire(cfg, t, id, title, None, None, None, user, now, commitError).Ok?
    ensures UpdateQuestionnaire(cfg, t, id, title, None, None, None, user, now, commitError).value.0 == t
  {
    var i := FindByIdAndCreatedByAndIsActiveTrue(t, id, user).value;
    assert ApplyUpdate(t.rows[i], title, None, None, None) == t.rows[i];
    assert t.rows[i := t.rows[i]] == t.rows;
  }

  /** Archiving twice is archiving once: the second call succeeds and writes
      nothing. */
  lemma ArchiveIdempotent(t: QuestionnaireTable, id: int, user: int, now: LocalDateTime, later: LocalDateTime)
    requires Valid(t)
    requires ArchiveQuestionnaire(t, id, user, now).Ok?
    ensures ArchiveQuestionnaire(ArchiveQuestionnaire(t, id, user, now).value, id, user, later)
            == ArchiveQuestionnaire(t, id, user, now)
  {
    var t1 := ArchiveQuestionnaire(t, id, user, now).value;
    var i := FindByIdAndCreatedByAndIsActiveTrue(t, id, user).value;
    SameRowFound(t, t1, id, user, i);
  }

  /** Publishing again re-stamps: the later call's time is the one kept. */
  lemma PublishRestamps(t: QuestionnaireTable, id: int, user: int, now: LocalDateTime, later: LocalDateTime)
    requires Valid(t)
    requires PublishQuestionnaire(t, id, user, now).Ok?
    ensures var t1 := PublishQuestionnaire(t, id, user, now).value;
            && PublishQuestionnaire(t1, id, user, later).Ok?
            && var i := FindByIdAndCreatedByAndIsActiveTrue(t, id, user).value;
               PublishQuestionnaire(t1, id, user, later).value.rows[i].publishedAt == Some(later)
  {
    var t1 := PublishQuestionnaire(t, id, user, now).value;
    var i := FindByIdAndCreatedByAndIsActiveTrue(t, id, user).value;
    SameRowFound(t, t1, id, user, i);
  }

  /** After a creator-scoped write that keeps the row active and owned, the
      lookup still finds the same row. */
  lemma SameRowFound(t: QuestionnaireTable, t1: QuestionnaireTable, id: int, user: int, i: nat)
    requires Valid(t)
    requires FindByIdAndCreatedByAndIsActiveTrue(t, id, user) == Some(i)
    requires |t1.rows| == |t.rows|
    requires forall k :: 0 <= k < |t.rows| ==> t1.rows[k].id == t.rows[k].id
    requires t1.rows[i].createdBy == user && t1.rows[i].isActive
    ensures FindByIdAndCreatedByAndIsActiveTrue(t1, id, user) == Some(i)
  {
    var j := FindByIdAndCreatedByAndIsActiveTrue(t1, id, user);
    assert j.Some?;
  }

  /** A creator-scoped write cannot tell a row that belongs to someone else,
      or is inactive, from an id that no row has. */
  lemma NoExistenceLeak(cfg: Config, t: QuestionnaireTable, id: int, absent: int, user: int, now: LocalDateTime,
                        title: Option<string>, description: Option<string>, category: Option<string>,
                        tags: Option<string>, commitError: string)
    requires forall q :: q in t.rows ==> q.id != Some(absent)
    requires forall q :: q in t.rows && q.id == Some(id) ==> q.createdBy != user || !q.isActive
    ensures PublishQuestionnaire(t, id, user, now) == PublishQuestionnaire(t, absent, user, now)
    ensures ArchiveQuestionnaire(t, id, user, now) == ArchiveQuestionnaire(t, absent, user, now)
    ensures DeleteQuestionnaire(t, id, user, now) == DeleteQuestionnaire(t, absent, user, now)
    ensures UpdateQuestionnaire(cfg, t, id, title, description, category, tags, user, now, commitError)
            == UpdateQuestionnaire(cfg, t, absent, title, description, category, tags, user, now, commitError)
  {
  }

  /** Every view carries the download URL of its own row. */
  predicate Linked(cfg: Config, views: seq<QuestionnaireView>) {
    forall i :: 0 <= i < |views| ==> views[i].downloadUrl == QuestionnaireDownloadUrl(cfg, views[i].record.id)
  }

  /** Each row with its download URL, in the same order. */
  function Views(cfg: Config, records: seq<Questionnaire>): (r: seq<QuestionnaireView>)
    ensures Records(r) == records
    ensures forall i :: 0 <= i < |r| ==> r[i].downloadUrl == QuestionnaireDownloadUrl(cfg, records[i].id)
    ensures Linked(cfg, r)
  {
    seq(|records|, i requires 0 <= i < |records| => View(records[i], QuestionnaireDownloadUrl(cfg, records[i].id)))
  }

  /** `getUserQuestionnaires(user)`. */
  function GetUserQuestionnaires(cfg: Config, t: QuestionnaireTable, user: int): (r: seq<QuestionnaireView>)
    ensures forall q :: q in Records(r) <==> q in t.rows && q.createdBy == user && q.isActive
    ensures multiset(Records(r)) == multiset(Filter(t.rows, OwnedActive(user)))
    ensures SortedDesc(Records(r), CreatedKey)
    ensures Linked(cfg, r)
  {
    Views(cfg, FindByCreatedByAndIsActiveTrueOrderByCreatedAtDesc(t, user))
  }

  /** `getUserQuestionnaires(user, pageable)`. */
  function GetUserQuestionnairesPaged(cfg: Config, t: QuestionnaireTable, user: int, pageable: Pageable): (r: seq<QuestionnaireView>)
    ensures IsPage(Records(r), Records(GetUserQuestionnaires(cfg, t, user)), pageable)
    ensures |r| <= pageable.size
    ensures forall q :: q in Records(r) ==> q in t.rows && q.createdBy == user && q.isActive
    ensures SortedDesc(Records(r), CreatedKey)
    ensures Linked(cfg, r)
  {
    Views(cfg, FindByCreatedByAndIsActiveTrueOrderByCreatedAtDescPaged(t, user, pageable))
  }

  /** `getPublishedQuestionnaires()`: every creator's, most recently published
      first. */
  function GetPublishedQuestionnaires(cfg: Config, t: QuestionnaireTable): (r: seq<QuestionnaireView>)
    ensures forall q :: q in Records(r) <==> q in t.rows && q.status == PUBLISHED && q.isActive
    ensures multiset(Records(r)) == multiset(Filter(t.rows, ActiveWith(PUBLISHED)))
    ensures SortedDesc(Records(r), PublishedKey)
    ensures Linked(cfg, r)
  {
    Views(cfg, FindByStatusAndIsActiveTrueOrderByPublishedAtDesc(t, PUBLISHED))
  }

  /** `getPublishedQuestionnaires(pageable)`. */
  function GetPublishedQuestionnairesPaged(cfg: Config, t: QuestionnaireTable, pageable: Pageable): (r: seq<QuestionnaireView>)
    ensures IsPage(Records(r), Records(GetPublishedQuestionnaires(cfg, t)), pageable)
    ensures |r| <= pageable.size
    ensures forall q :: q in Records(r) ==> q in t.rows && q.status == PUBLISHED && q.isActive
    ensures SortedDesc(Records(r), PublishedKey)
    ensures Linked(cfg, r)
  {
    Views(cfg, FindByStatusAndIsActiveTrueOrderByPublishedAtDescPaged(t, PUBLISHED, pageable))
  }

  /** `getUserQuestionnairesByStatus`. */
  function GetUserQuestionnairesByStatus(cfg: Config, t: QuestionnaireTable, user: int, status: Status): (r: seq<QuestionnaireView>)
    ensures forall q :: q in Records(r) <==> q in t.rows && q.createdBy == user && q.status == status && q.isActive
    ensures multiset(Records(r)) == multiset(Filter(t.rows, OwnedActiveWith(user, status)))
    ensures SortedDesc(Records(r), CreatedKey)
    ensures Linked(cfg, r)
  {
    Views(cfg, FindByCreatedByAndStatusAndIsActiveTrueOrderByCreatedAtDesc(t, user, status))
  }

  /** `searchQuestionnaires`: every creator's active rows whose title contains
      the keyword. */
  function SearchQuestionnaires(cfg: Config, t: QuestionnaireTable, keyword: string): (r: seq<QuestionnaireView>)
    ensures forall q :: q in Records(r) <==> q in t.rows && Contains(q.title, keyword) && q.isActive
    ensures multiset(Records(r)) == multiset(Filter(t.rows, ActiveTitled(keyword)))
    ensures SortedDesc(Records(r), CreatedKey)
    ensures Linked(cfg, r)
  {
    Views(cfg, FindByTitleContaining(t, keyword))
  }

  /** `searchUserQuestionnaires`: the same for one creator. */
  function SearchUserQuestionnaires(cfg: Config, t: QuestionnaireTable, user: int, keyword: string): (r: seq<QuestionnaireView>)
    ensures forall q :: q in Records(r) <==>
              q in t.rows && q.createdBy == user && Contains(q.title, keyword) && q.isActive
    ensures multiset(Records(r)) == multiset(Filter(t.rows, OwnedActiveTitled(user, keyword)))
    ensures SortedDesc(Records(r), CreatedKey)
    ensures Linked(cfg, r)
  {
    Views(cfg, FindByCreatedByAndTitleContaining(t, user, keyword))
  }

  /** `getQuestionnairesByCategory`. */
  function GetQuestionnairesByCategory(cfg: Config, t: QuestionnaireTable, category: string): (r: seq<QuestionnaireView>)
    ensures forall q :: q in Records(r) <==> q in t.rows && q.category == Some(category) && q.isActive
    ensures multiset(Records(r)) == multiset(Filter(t.rows, ActiveIn(category)))
    ensures SortedDesc(Records(r), CreatedKey)
    ensures Linked(cfg, r)
  {
    Views(cfg, FindByCategoryAndIsActiveTrueOrderByCreatedAtDesc(t, category))
  }

  /** `getPopularQuestionnaires(limit)`: the `limit` most downloaded published
      rows. `Pageable.ofSize` rejects a limit below one. */
  function GetPopularQuestionnaires(cfg: Config, t: QuestionnaireTable, limit: int): (r: Result<seq<QuestionnaireView>, ()>)
    ensures r.Err? <==> limit < 1
    ensures r.Ok? ==> IsPage(Records(r.value), PublishedByPopularity(t), PageRequest(0, limit))
    ensures r.Ok? ==> |r.value| == if Count(t.rows, PublishedActive) < limit then Count(t.rows, PublishedActive) else limit
    ensures r.Ok? ==> multiset(Records(r.value)) <= multiset(Filter(t.rows, PublishedActive))
    ensures r.Ok? ==> |r.value| <= limit
    ensures r.Ok? ==> forall q :: q in Records(r.value) ==> q in t.rows && q.status == PUBLISHED && q.isActive
    ensures r.Ok? ==> SortedDesc(Records(r.value), PopularKey)
    ensures r.Ok? ==> forall q :: q in t.rows && PublishedActive(q) && q !in Records(r.value) ==>
                        forall i :: 0 <= i < |r.value| ==> PopularKey(r.value[i].record) >= PopularKey(q)
    ensures r.Ok? ==> Linked(cfg, r.value)
  {
    if limit < 1 then Err(())
    else
      var pageable: Pageable := PageRequest(0, limit);
      var all := PublishedByPopularity(t);
      var rows := FindPopularQuestionnaires(t, pageable);
      PageUnique(rows, all, pageable);
      FirstPageMultiset(all, pageable);
      var views := Views(cfg, rows);
      assert Records(views) == rows && Linked(cfg, views);
      Ok(views)
  }

  /** An accepted upload is visible at once: in its creator's list, in a
      search for its title (the creator's and everyone's), in its category
      when it has one, and through the info lookup of the new id. */
  lemma UploadListed(cfg: Config, t: QuestionnaireTable, file: MultipartFile, title: Option<string>,
                     description: Option<string>, category: Option<string>, tags: Option<string>,
                     user: int, env: UploadEnv)
    requires Valid(t)
    requires UploadQuestionnaire(cfg, t, file, title, description, category, tags, user, env).Ok?
    ensures var (t', v) := UploadQuestionnaire(cfg, t, file, title, description, category, tags, user, env).value;
            && v.record in Records(GetUserQuestionnaires(cfg, t', user))
            && v.record in Records(SearchUserQuestionnaires(cfg, t', user, v.record.title))
            && v.record in Records(SearchQuestionnaires(cfg, t', v.record.title))
            && (category.Some? ==> v.record in Records(GetQuestionnairesByCategory(cfg, t', category.value)))
            && GetQuestionnaireInfo(cfg, t', t.nextId) == Ok(v)
  {
    var (t', v) := UploadQuestionnaire(cfg, t, file, title, description, category, tags, user, env).value;
    assert v.record.category == category;
    RowListed(cfg, t', v.record);
    AppendedRowFound(cfg, t, t', v);
  }

  /** An active row shows in its creator's list, in both searches for its
      title, and in its category. */
  lemma RowListed(cfg: Config, t': QuestionnaireTable, x: Questionnaire)
    requires x in t'.rows && x.isActive
    ensures x in Records(GetUserQuestionnaires(cfg, t', x.createdBy))
    ensures x in Records(SearchUserQuestionnaires(cfg, t', x.createdBy, x.title))
    ensures x in Records(SearchQuestionnaires(cfg, t', x.title))
    ensures x.category.Some? ==> x in Records(GetQuestionnairesByCategory(cfg, t', x.category.value))
  {
    ContainsSelf(x.title);
  }

  /** A row appended to a valid table under the next id is the one the info
      lookup of that id finds. */
  lemma AppendedRowFound(cfg: Config, t: QuestionnaireTable, t': QuestionnaireTable, v: QuestionnaireView)
    requires Valid(t)
    requires t'.rows == t.rows + [v.record]
    requires v.record.id == Some(t.nextId) && v.record.isActive
    requires v.downloadUrl == QuestionnaireDownloadUrl(cfg, Some(t.nextId))
    ensures GetQuestionnaireInfo(cfg, t', t.nextId) == Ok(v)
  {
    AppendedAt(t, t', v.record);
    assert t'.rows[|t.rows|] == v.record;
  }

  /** In a valid table no row has the next id, so after an append the lookup
      of that id finds the appended row. */
  lemma AppendedAt(t: QuestionnaireTable, t': QuestionnaireTable, x: Questionnaire)
    requires Valid(t)
    requires t'.rows == t.rows + [x] && x.id == Some(t.nextId) && x.isActive
    ensures FindByIdAndIsActiveTrue(t', t.nextId) == Some(|t.rows|)
  {
    forall k | 0 <= k < |t.rows|
      ensures t'.rows[k].id != Some(t.nextId)
    {
      assert t'.rows[k] == t.rows[k];
    }
    assert t'.rows[|t.rows|] == x;
  }

  /** Publishing puts the row on the public list; archiving or deleting it
      takes every row with that id off the list. */
  lemma PublishListed(cfg: Config, t: QuestionnaireTable, id: int, user: int, now: LocalDateTime)
    requires Valid(t)
    ensures PublishQuestionnaire(t, id, user, now).Ok? ==>
              var i := FindByIdAndCreatedByAndIsActiveTrue(t, id, user).value;
              var t' := PublishQuestionnaire(t, id, user, now).value;
              t'.rows[i] in Records(GetPublishedQuestionnaires(cfg, t'))
    ensures ArchiveQuestionnaire(t, id, user, now).Ok? ==>
              forall q :: q in Records(GetPublishedQuestionnaires(cfg, ArchiveQuestionnaire(t, id, user, now).value))
                ==> q.id != Some(id)
    ensures DeleteQuestionnaire(t, id, user, now).Ok? ==>
              forall q :: q in Records(GetPublishedQuestionnaires(cfg, DeleteQuestionnaire(t, id, user, now).value))
                ==> q.id != Some(id)
  {
    if ArchiveQuestionnaire(t, id, user, now).Ok? {
      OnlyRowWithId(t, ArchiveQuestionnaire(t, id, user, now).value, id, user);
    }
    if DeleteQuestionnaire(t, id, user, now).Ok? {
      OnlyRowWithId(t, DeleteQuestionnaire(t, id, user, now).value, id, user);
    }
  }

  /** In a valid table the creator's row is the only row with its id, so a
      write that changes only that row leaves no other row with the id. */
  lemma OnlyRowWithId(t: QuestionnaireTable, t': QuestionnaireTable, id: int, user: int)
    requires Valid(t)
    requires FindByIdAndCreatedByAndIsActiveTrue(t, id, user).Some?
    requires |t'.rows| == |t.rows|
    requires var i := FindByIdAndCreatedByAndIsActiveTrue(t, id, user).value;
             && !(t'.rows[i].status == PUBLISHED && t'.rows[i].isActive)
             && forall k :: 0 <= k < |t.rows| && k != i ==> t'.rows[k] == t.rows[k]
    ensures forall q :: q in t'.rows && q.status == PUBLISHED && q.isActive ==> q.id != Some(id)
  {
    var i := FindByIdAndCreatedByAndIsActiveTrue(t, id, user).value;
    forall k | 0 <= k < |t'.rows| && t'.rows[k].status == PUBLISHED && t'.rows[k].isActive
      ensures t'.rows[k].id != Some(id)
    {
      assert k != i;
      assert t'.rows[k] == t.rows[k];
    }
  }

  /** Row `i` of the creator's full list is on page `PageOf(i, size)`. */
  lemma UserQuestionnairesPagesCover(cfg: Config, t: QuestionnaireTable, user: int, size: nat, i: nat)
    requires size >= 1 && i < |GetUserQuestionnaires(cfg, t, user)|
    ensures var page := Records(GetUserQuestionnairesPaged(cfg, t, user, PageOf(i, size)));
            OffsetOf(i, size) < |page| && page[OffsetOf(i, size)] == Records(GetUserQuestionnaires(cfg, t, user))[i]
  {
    PageCovers(Records(GetUserQuestionnairesPaged(cfg, t, user, PageOf(i, size))),
               Records(GetUserQuestionnaires(cfg, t, user)), size, i);
  }

  /** Row `i` of the public list is on page `PageOf(i, size)`. */
  lemma PublishedPagesCover(cfg: Config, t: QuestionnaireTable, size: nat, i: nat)
    requires size >= 1 && i < |GetPublishedQuestionnaires(cfg, t)|
    ensures var page := Records(GetPublishedQuestionnairesPaged(cfg, t, PageOf(i, size)));
            OffsetOf(i, size) < |page| && page[OffsetOf(i, size)] == Records(GetPublishedQuestionnaires(cfg, t))[i]
  {
    PageCovers(Records(GetPublishedQuestionnairesPaged(cfg, t, PageOf(i, size))),
               Records(GetPublishedQuestionnaires(cfg, t)), size, i);
  }

  /** A limit that reaches the number of published rows returns all of them. */
  lemma PopularHoldsAll(cfg: Config, t: QuestionnaireTable, limit: int)
    requires limit >= 1 && limit >= Count(t.rows, PublishedActive)
    ensures forall q :: q in t.rows && PublishedActive(q) ==> q in Records(GetPopularQuestionnaires(cfg, t, limit).value)
  {
    PageWhole(PublishedByPopularity(t), PageRequest(0, limit));
  }

  datatype QuestionnaireStatistics = QuestionnaireStatistics(totalCount: nat, draftCount: nat,
                                                             publishedCount: nat, archivedCount: nat)

  /** `getUserQuestionnaireStatistics`: the three status counts partition the
      total of the creator's active rows. */
  function GetUserQuestionnaireStatistics(t: QuestionnaireTable, user: int): (r: QuestionnaireStatistics)
    ensures r.totalCount == |FindByCreatedByAndIsActiveTrueOrderByCreatedAtDesc(t, user)|
    ensures r.draftCount == |FindByCreatedByAndStatusAndIsActiveTrueOrderByCreatedAtDesc(t, user, DRAFT)|
    ensures r.publishedCount == |FindByCreatedByAndStatusAndIsActiveTrueOrderByCreatedAtDesc(t, user, PUBLISHED)|
    ensures r.archivedCount == |FindByCreatedByAndStatusAndIsActiveTrueOrderByCreatedAtDesc(t, user, ARCHIVED)|
    ensures r.draftCount + r.publishedCount + r.archivedCount == r.totalCount
  {
    StatusCountsPartition(t, user);
    QuestionnaireStatistics(CountByCreatedByAndIsActiveTrue(t, user),
                            CountByCreatedByAndStatusAndIsActiveTrue(t, user, DRAFT),
                            CountByCreatedByAndStatusAndIsActiveTrue(t, user, PUBLISHED),
                            CountByCreatedByAndStatusAndIsActiveTrue(t, user, ARCHIVED))
  }

  lemma StatusCountsPartition(t: QuestionnaireTable, user: int)
    ensures CountByCreatedByAndStatusAndIsActiveTrue(t, user, DRAFT)
            + CountByCreatedByAndStatusAndIsActiveTrue(t, user, PUBLISHED)
            + CountByCreatedByAndStatusAndIsActiveTrue(t, user, ARCHIVED)
            == CountByCreatedByAndIsActiveTrue(t, user)
  {
    var notDraft := (q: Questionnaire) => q.createdBy == user && q.isActive && q.status != DRAFT;
    CountSplit(t.rows, OwnedActive(user), OwnedActiveWith(user, DRAFT), notDraft);
    CountSplit(t.rows, notDraft, OwnedActiveWith(user, PUBLISHED), OwnedActiveWith(user, ARCHIVED));
  }
}

=== FILE: upload_rules.dfy ===
/** The upload rules `FileService` and `QuestionnaireService` share, each of
    which keeps its own private copy of them: extension extraction, the
    validation sequence, stored-name composition, directory joining and
    download URLs. What differs between the two (the allow-list, the name
    prefix, the URL segment) is a parameter here. */
module UploadRules {
  import opened Wrappers
  import opened JavaText
  import opened Decimal
  import opened Clock

  /** The injected settings `file.upload.dir`, `file.max.size` and
      `server.port`, which both services read. */
  datatype Config = Config(uploadDir: string, maxFileSize: int, serverPort: string)

  /** The defaults: `uploads`, 50 MB, port 8080. */
  const DefaultConfig: Config := Config("uploads", 52428800, "8080")

  /** The part of a multipart upload the services look at. `isEmpty()` is a
      size of zero. */
  datatype MultipartFile = MultipartFile(originalFilename: Option<string>, size: nat, contentType: Option<string>)

  /** `getFileExtension`: from the last '.' to the end, dot included, when that
      dot is not the first character; otherwise the empty string. */
  function Extension(filename: string): (r: string)
    ensures r == [] <==> forall k :: 0 < k < |filename| ==> filename[k] != '.'
    ensures r != [] ==> r[0] == '.' && |r| < |filename| && filename[|filename| - |r|..] == r
    ensures forall k :: 1 <= k < |r| ==> r[k] != '.'
  {
    var i := LastIndexOf(filename, '.');
    if i > 0 then filename[i..] else ""
  }

  /** The loop of `isAllowedFileType`: the lower-cased extension equals one of
      the listed ones. */
  predicate ExtensionIn(filename: string, allowed: seq<string>) {
    ToLower(Extension(filename)) in allowed
  }

  /** The four `IllegalArgumentException`s of `validateFile`. */
  datatype ValidationError = EmptyFile | FileTooLarge(limitMb: int) | MissingFilename | UnsupportedType

  /** Java's `long` division, which truncates toward zero. */
  function JavaDiv(a: int, b: int): int
    requires b > 0
  {
    if a >= 0 then a / b else -((-a) / b)
  }

  /** `validateFile`: the first failing check wins, in the order empty, too large,
      no name, extension not allowed. On success the result is the original name. */
  function Validate(file: MultipartFile, maxFileSize: int, allowed: seq<string>): (r: Result<string, ValidationError>)
    ensures r == Err(EmptyFile) <==> file.size == 0
    ensures r.Err? && r.error.FileTooLarge? <==> 0 < file.size && maxFileSize < file.size
    ensures r.Err? && r.error.FileTooLarge? ==> r.error.limitMb == JavaDiv(JavaDiv(maxFileSize, 1024), 1024)
    ensures r == Err(MissingFilename) <==>
              0 < file.size <= maxFileSize && !HasText(file.originalFilename)
    ensures r == Err(UnsupportedType) <==>
              0 < file.size <= maxFileSize && HasText(file.originalFilename)
              && !ExtensionIn(file.originalFilename.value, allowed)
    ensures r.Ok? <==>
              0 < file.size <= maxFileSize && HasText(file.originalFilename)
              && ExtensionIn(file.originalFilename.value, allowed)
    ensures r.Ok? ==> file.originalFilename == Some(r.value)
  {
    if file.size == 0 then Err(EmptyFile)
    else if file.size > maxFileSize then Err(FileTooLarge(JavaDiv(JavaDiv(maxFileSize, 1024), 1024)))
    else if !HasText(file.originalFilename) then Err(MissingFilename)
    else if !ExtensionIn(file.originalFilename.value, allowed) then Err(UnsupportedType)
    else Ok(file.originalFilename.value)
  }

  /** The exception message for a validation failure; `supported` is the list of
      formats the service advertises. */
  function ValidationMessage(e: ValidationError, supported: string): string {
    match e
    case EmptyFile => "文件不能为空"
    case FileTooLarge(mb) => "文件大小不能超过 " + IntToString(mb) + "MB"
    case MissingFilename => "文件名不能为空"
    case UnsupportedType => "不支持的文件类型。支持的格式：" + supported
  }

  predicate IsLowerHex(c: char) {
    '0' <= c <= '9' || 'a' <= c <= 'f'
  }

  /** The 36-character form `UUID.toString()` produces. */
  predicate IsCanonicalUuid(s: string) {
    && |s| == 36
    && forall i :: 0 <= i < 36 ==>
         if i == 8 || i == 13 || i == 18 || i == 23 then s[i] == '-' else IsLowerHex(s[i])
  }

  type UuidText = s: string | IsCanonicalUuid(s) witness "00000000-0000-0000-0000-000000000000"

  /** `UUID.randomUUID().toString().substring(0, 8)`. */
  function RandomTag(uuid: UuidText): (r: string)
    ensures |r| == 8
    ensures forall i :: 0 <= i < 8 ==> IsLowerHex(r[i])
  {
    uuid[..8]
  }

  /** `generateStoredFileName`: prefix, timestamp, '_', eight random characters
      and the original extension with its case kept. */
  function StoredName(prefix: string, now: LocalDateTime, uuid: UuidText, originalFilename: string): (r: string)
    ensures |r| == |prefix| + 24 + |Extension(originalFilename)|
    ensures StartsWith(r, prefix)
    ensures r[|r| - |Extension(originalFilename)|..] == Extension(originalFilename)
  {
    prefix + Stamp(now) + "_" + RandomTag(uuid) + Extension(originalFilename)
  }

  /** A stored name holds the stamp's '_', so `trim` cannot empty it. */
  lemma StoredNameNotBlank(prefix: string, now: LocalDateTime, uuid: UuidText, originalFilename: string)
    ensures !TrimsToEmpty(StoredName(prefix, now, uuid, originalFilename))
  {
    var stamp := Stamp(now);
    var a := prefix + stamp;
    var c := a + "_" + RandomTag(uuid);
    var r := StoredName(prefix, now, uuid, originalFilename);
    assert r == c + Extension(originalFilename);
    assert r[|prefix| + 8] == c[|prefix| + 8] == a[|prefix| + 8] == stamp[8];
  }

  /** A path that ends with a name `trim` cannot empty cannot be emptied
      either. */
  lemma JoinedNotBlank(dir: string, name: string)
    requires !TrimsToEmpty(name)
    ensures !TrimsToEmpty(JoinPath(dir, name))
  {
    EndsNotBlank(JoinPath(dir, name), name);
  }

  /** A name with an extension holds its '.', so `trim` cannot empty it. */
  lemma ExtensionNotBlank(filename: string)
    requires Extension(filename) != []
    ensures !TrimsToEmpty(filename)
  {
    var ext := Extension(filename);
    assert filename[|filename| - |ext|] == ext[0];
  }

  /** The stored name keeps the original extension: extracting it again gives
      the same string, so the stored file classifies as the original did. */
  lemma StoredNameKeepsExtension(prefix: string, now: LocalDateTime, uuid: UuidText, originalFilename: string)
    requires '.' !in prefix
    ensures Extension(StoredName(prefix, now, uuid, originalFilename)) == Extension(originalFilename)
  {
    var ext := Extension(originalFilename);
    var head := prefix + Stamp(now) + "_" + RandomTag(uuid);
    var r := StoredName(prefix, now, uuid, originalFilename);
    assert r == head + ext;
    assert |head| == |prefix| + 24;
    forall k | 0 <= k < |head|
      ensures head[k] != '.'
    {
      if k < |prefix| {
        assert head[k] == prefix[k];
      } else if k < |prefix| + 15 {
        assert head[k] == Stamp(now)[k - |prefix|];
      } else if k == |prefix| + 15 {
      } else {
        assert head[k] == RandomTag(uuid)[k - |prefix| - 16];
      }
    }
    if ext == [] {
      assert r == head;
    } else {
      assert r[|head|] == '.';
      var e := Extension(r);
      assert e != [];
      assert LastIndexOf(r, '.') == |head|;
      assert e == r[|head|..];
    }
  }

  predicate IsSeparator(c: char) {
    c == '/' || c == '\\'
  }

  predicate NoSeparator(s: string) {
    forall i :: 0 <= i < |s| ==> !IsSeparator(s[i])
  }

  /** A name that passed the extension check yields a stored name without a
      path separator: it cannot climb out of the upload directory. */
  lemma StoredNameHasNoSeparator(prefix: string, now: LocalDateTime, uuid: UuidText,
                                 originalFilename: string, allowed: seq<string>)
    requires NoSeparator(prefix)
    requires forall a :: a in allowed ==> NoSeparator(a)
    requires ExtensionIn(originalFilename, allowed)
    ensures NoSeparator(StoredName(prefix, now, uuid, originalFilename))
  {
    var ext := Extension(originalFilename);
    var lowered := ToLower(ext);
    assert NoSeparator(lowered);
    assert NoSeparator(ext) by {
      forall i | 0 <= i < |ext|
        ensures !IsSeparator(ext[i])
      {
        assert lowered[i] == LowerChar(ext[i]);
      }
    }
    var head := prefix + Stamp(now) + "_" + RandomTag(uuid);
    var r := StoredName(prefix, now, uuid, originalFilename);
    assert r == head + ext;
    forall k | 0 <= k < |r|
      ensures !IsSeparator(r[k])
    {
      if k < |prefix| {
        assert r[k] == prefix[k];
      } else if k < |prefix| + 15 {
        assert r[k] == Stamp(now)[k - |prefix|];
      } else if k == |prefix| + 15 {
      } else if k < |head| {
        assert r[k] == RandomTag(uuid)[k - |prefix| - 16];
      } else {
        assert r[k] == ext[k - |head|];
      }
    }
  }

  /** `Paths.get(dir, name).toString()` with '/' as the separator. */
  function JoinPath(dir: string, name: string): (r: string)
    ensures dir != [] ==> StartsWith(r, dir + "/")
    ensures |name| <= |r| && r[|r| - |name|..] == name
  {
    if dir == [] then name else dir + "/" + name
  }

  /** `"" + id` for a `Long` id, which is "null" before the row is saved. */
  function IdText(id: Option<int>): string {
    match id
    case Some(n) => IntToString(n)
    case None => "null"
  }

  /** `generateDownloadUrl`; `assets` is "files" or "questionnaires". */
  function DownloadUrl(port: string, assets: string, id: Option<int>): (r: string)
    ensures StartsWith(r, DownloadUrlBase(port, assets))
  {
    DownloadUrlBase(port, assets) + IdText(id)
  }

  function DownloadUrlBase(port: string, assets: string): string {
    "http://localhost:" + port + "/api/" + assets + "/download/"
  }

  /** Recovers the id from a download URL built for the same port and assets. */
  function ParseDownloadUrl(url: string, port: string, assets: string): Option<int> {
    var base := DownloadUrlBase(port, assets);
    if StartsWith(url, base) then ParseInt(url[|base|..]) else None
  }

  /** A saved row's URL names its id: parsing the URL gives the id back, so
      different rows get different URLs. */
  lemma DownloadUrlRoundTrip(port: string, assets: string, id: int)
    ensures ParseDownloadUrl(DownloadUrl(port, assets, Some(id)), port, assets) == Some(id)
  {
    var base := DownloadUrlBase(port, assets);
    var url := DownloadUrl(port, assets, Some(id));
    assert url[|base|..] == IntToString(id);
    ParseIntRoundTrip(id);
  }

  /** The clock readings, the UUID, and what happens on disk during an upload.
      `now` is the reading that dates the stored name, `built` the two the
      entity constructor takes and `persisted` the two the `@PrePersist` hook
      takes, which are the ones the row keeps. `writeError` is the message of
      the `IOException` that creating the directory or copying the bytes
      throws, if either fails; `validationError` is the message of the
      `ConstraintViolationException` bean validation raises at insert for a
      blank `@NotBlank` field, and `constraintError` the message of the
      failure a duplicate stored name raises at insert. */
  datatype UploadEnv = UploadEnv(now: LocalDateTime, built: Stamps, persisted: Stamps, uuid: UuidText,
                                 writeError: Option<string>, validationError: string, constraintError: string)

  /** What the services hand back for a row: the row and its download URL. */
  datatype View<T> = View(record: T, downloadUrl: string)

  /** The rows of a list of views. */
  function Records<T>(views: seq<View<T>>): (r: seq<T>)
    ensures |r| == |views|
    ensures forall i :: 0 <= i < |views| ==> r[i] == views[i].record
  {
    seq(|views|, i requires 0 <= i < |views| => views[i].record)
  }

  /** The disk as the download paths see it: `Files.exists` fails, or the
      resource exists but is not readable, or it can be streamed. */
  datatype BlobState = Missing | Unreadable | Readable
}

=== FILE: user.dfy ===
/** The `User` entity as `AuthService` uses it: login name, e-mail, encoded
    password, role, enabled flag and two optional profile fields. The entity
    class itself is not part of this model; its three-argument constructor is
    taken to give a USER that is enabled, as the registration rules describe. */
module UserEntity {
  import opened Wrappers

  /** `Role`. */
  datatype Role = USER | ADMIN

  /** `role` and `enabled` are nullable columns (`countByEnabled` takes a
      `Boolean`), so both are optional here. */
  datatype User = User(
    id: Option<int>,
    username: string,
    email: string,
    password: string,
    role: Option<Role>,
    enabled: Option<bool>,
    name: Option<string>,
    affiliation: Option<string>)

  /** `new User(username, email, password)`: the three values as given, no id
      yet, role USER, enabled, and no name or affiliation. */
  function NewUser(username: string, email: string, password: string): (r: User)
    ensures r.username == username && r.email == email && r.password == password
    ensures r.id.None? && r.role == Some(USER) && r.enabled == Some(true)
    ensures r.name.None? && r.affiliation.None?
  {
    User(None, username, email, password, Some(USER), Some(true), None, None)
  }
}

=== FILE: user_repository.dfy ===
/** `UserRepository`: the `users` table as a sequence of rows, with the
    derived exists/find/count/search queries as functions over it. */
module UserRepository {
  import opened Wrappers
  import opened JavaText
  import opened Queries
  import opened UserEntity

  /** The rows in insertion order and the next identity value. */
  datatype UserTable = UserTable(rows: seq<User>, nextId: int)

  const EmptyTable: UserTable := UserTable([], 1)

  /** Saved rows have positive identity ids below the next one to be issued;
      ids, usernames and e-mails are each unique. */
  predicate Valid(t: UserTable) {
    && t.nextId >= 1
    && (forall i :: 0 <= i < |t.rows| ==> t.rows[i].id.Some? && 1 <= t.rows[i].id.value < t.nextId)
    && (forall i, j :: 0 <= i < j < |t.rows| ==>
          && t.rows[i].id != t.rows[j].id
          && t.rows[i].username != t.rows[j].username
          && t.rows[i].email != t.rows[j].email)
  }

  /** `existsByUsername`. */
  predicate ExistsByUsername(t: UserTable, username: string) {
    exists i :: 0 <= i < |t.rows| && t.rows[i].username == username
  }

  /** `existsByEmail`. */
  predicate ExistsByEmail(t: UserTable, email: string) {
    exists i :: 0 <= i < |t.rows| && t.rows[i].email == email
  }

  /** `findByUsername`: the row with that login name, if there is one. */
  function FindByUsername(t: UserTable, username: string): (r: Option<User>)
    ensures r.Some? ==> r.value in t.rows && r.value.username == username
    ensures r.Some? <==> ExistsByUsername(t, username)
    ensures Valid(t) && r.Some? ==> forall x :: x in t.rows && x.username == username ==> x == r.value
  {
    match FindFirst(t.rows, (x: User) => x.username == username)
    case Some(i) => Some(t.rows[i])
    case None => None
  }

  /** `findByEmail`: the row with that e-mail, if there is one. */
  function FindByEmail(t: UserTable, email: string): (r: Option<User>)
    ensures r.Some? ==> r.value in t.rows && r.value.email == email
    ensures r.Some? <==> ExistsByEmail(t, email)
    ensures Valid(t) && r.Some? ==> forall x :: x in t.rows && x.email == email ==> x == r.value
  {
    match FindFirst(t.rows, (x: User) => x.email == email)
    case Some(i) => Some(t.rows[i])
    case None => None
  }

  /** `findById`: the position of the row with that id. Users are deleted for
      real, so there is no active flag to test. */
  function FindById(t: UserTable, id: int): (r: Option<nat>)
    ensures r.Some? ==> r.value < |t.rows| && t.rows[r.value].id == Some(id)
    ensures r.None? <==> forall k :: 0 <= k < |t.rows| ==> t.rows[k].id != Some(id)
    ensures Valid(t) && r.Some? ==> forall k :: 0 <= k < |t.rows| && t.rows[k].id == Some(id) ==> k == r.value
  {
    FindFirst(t.rows, (x: User) => x.id == Some(id))
  }

  function HasRole(role: Role): User -> bool {
    (u: User) => u.role == Some(role)
  }

  function HasEnabled(enabled: bool): User -> bool {
    (u: User) => u.enabled == Some(enabled)
  }

  /** `countByRole`: rows whose role is exactly `role`; a null role matches
      neither value. */
  function CountByRole(t: UserTable, role: Role): (r: nat)
    ensures r <= |t.rows|
    ensures r == |Filter(t.rows, HasRole(role))|
  {
    Count(t.rows, HasRole(role))
  }

  /** `countByEnabled`: rows whose flag is exactly `enabled`. */
  function CountByEnabled(t: UserTable, enabled: bool): (r: nat)
    ensures r <= |t.rows|
    ensures r == |Filter(t.rows, HasEnabled(enabled))|
  {
    Count(t.rows, HasEnabled(enabled))
  }

  function NameOrEmailContains(username: string, email: string): User -> bool {
    (x: User) => Contains(x.username, username) || Contains(x.email, email)
  }

  /** `findByUsernameContainingOrEmailContaining(username, email)`: the rows
      matching either substring, in table order (the query has no ORDER BY). */
  function FindByUsernameContainingOrEmailContaining(t: UserTable, username: string, email: string): (r: seq<User>)
    ensures |r| <= |t.rows|
    ensures forall x :: x in r <==> x in t.rows && (Contains(x.username, username) || Contains(x.email, email))
    ensures multiset(r) == multiset(Filter(t.rows, NameOrEmailContains(username, email)))
  {
    Filter(t.rows, NameOrEmailContains(username, email))
  }

  /** `save` of a new user: the row gets the next identity value and is
      appended. */
  function Insert(t: UserTable, user: User): (r: (UserTable, User))
    ensures r.1 == user.(id := Some(t.nextId))
    ensures r.0.rows == t.rows + [r.1] && r.0.nextId == t.nextId + 1
    ensures Valid(t) && !ExistsByUsername(t, user.username) && !ExistsByEmail(t, user.email) ==> Valid(r.0)
  {
    var saved := user.(id := Some(t.nextId));
    (UserTable(t.rows + [saved], t.nextId + 1), saved)
  }

  /** `save` of the loaded row at position `i`, now holding `current`. */
  function SaveAt(t: UserTable, i: nat, current: User): (r: UserTable)
    requires i < |t.rows|
    ensures |r.rows| == |t.rows| && r.nextId == t.nextId
    ensures r.rows[i] == current
    ensures forall k :: 0 <= k < |t.rows| && k != i ==> r.rows[k] == t.rows[k]
    ensures Valid(t) && current.id == t.rows[i].id && current.username == t.rows[i].username
            && (current.email == t.rows[i].email || !ExistsByEmail(t, current.email))
            ==> Valid(r)
  {
    t.(rows := t.rows[i := current])
  }

  /** `delete` of the row at position `i`: the others keep their order. */
  function DeleteAt(t: UserTable, i: nat): (r: UserTable)
    requires i < |t.rows|
    ensures |r.rows| == |t.rows| - 1 && r.nextId == t.nextId
    ensures forall k :: 0 <= k < i ==> r.rows[k] == t.rows[k]
    ensures forall k :: i <= k < |r.rows| ==> r.rows[k] == t.rows[k + 1]
    ensures Valid(t) ==> Valid(r)
  {
    t.(rows := t.rows[..i] + t.rows[i + 1..])
  }

  /** When every row has a non-null flag, the enabled and disabled counts add
      up to the table size. */
  lemma EnabledCountsPartition(t: UserTable)
    requires forall i :: 0 <= i < |t.rows| ==> t.rows[i].enabled.Some?
    ensures CountByEnabled(t, true) + CountByEnabled(t, false) == |t.rows|
  {
    var flagged := (u: User) => u.enabled.Some?;
    forall u: User
      ensures flagged(u) <==> HasEnabled(true)(u) || HasEnabled(false)(u)
    {
      if u.enabled.Some? {
        var b := u.enabled.value;
        assert u.enabled == Some(b);
        if b { assert HasEnabled(true)(u); } else { assert HasEnabled(false)(u); }
      }
    }
    CountSplit(t.rows, flagged, HasEnabled(true), HasEnabled(false));
    CountAll(t.rows, flagged);
  }

  /** When every row has a role, the admin and user counts add up to the
      table size. */
  lemma RoleCountsPartition(t: UserTable)
    requires forall i :: 0 <= i < |t.rows| ==> t.rows[i].role.Some?
    ensures CountByRole(t, ADMIN) + CountByRole(t, USER) == |t.rows|
  {
    var withRole := (u: User) => u.role.Some?;
    forall u: User
      ensures withRole(u) <==> HasRole(ADMIN)(u) || HasRole(USER)(u)
    {
      if u.role.Some? {
        var role := u.role.value;
        assert u.role == Some(role);
        if role == ADMIN { assert HasRole(ADMIN)(u); } else { assert HasRole(USER)(u); }
      }
    }
    CountSplit(t.rows, withRole, HasRole(ADMIN), HasRole(USER));
    CountAll(t.rows, withRole);
  }
}

=== FILE: wrappers.dfy ===
/** Failure-compatible wrappers: `Option` stands for a Java reference that may be
    null (or an `Optional`), `Result` for a value or the message of the exception
    the Java code throws instead. */
module Wrappers {

  datatype Option<+T> = None | Some(value: T) {

    /** The value, or `default` when there is none (`x != null ? x : default`). */
    function GetOr(default: T): T {
      match this
      case Some(v) => v
      case None => default
    }
  }

  datatype Result<+T, +E> = Ok(value: T) | Err(error: E) {

    predicate IsFailure() {
      Err?
    }

    function PropagateFailure<U>(): Result<U, E>
      requires Err?
    {
      Err(error)
    }

    function Extract(): T
      requires Ok?
    {
      value
    }
  }
}
